=== FILE: README.md ===
# Abbalove back end: a Dafny model of the service layer

The back end is a REST service over MySQL. Each service function reads a
few tables, checks some conditions, writes, and answers with a
`{success, code, message, data | errors}` envelope. This project models
that service layer as pure functions over an immutable database.

The database is `Store.Store`, a record of every table the services touch:
events, attendance, comcell groups and their members, users, roles, teams,
team members, positions, event speakers, songs, presentations, event teams,
videos, tags and video tags. Each table is a sequence in storage order, or a
map keyed by id. An operation is a function from a store (and its
arguments) to a `Reply` (the new store plus the envelope), or to an
`Attempt` when the JavaScript can also throw.

Three things the code takes from its environment are parameters:
- `uuid: nat -> string` is the sequence of ids `uuidv4()` returns, the k-th call giving `uuid(k)`;
- `now: int` is the instant `NOW()` or `new Date()` reads;
- row order is the order of the sequences.

JavaScript values that cross the API are `Values.Value`: `undefined`, `null`, booleans, numbers and strings. `Values.Truthy` models JavaScript truthiness, `Values.Or` models `a || b`, and `Values.Stored` models the driver storing `undefined` as `NULL`.

Modules, one per source file:
- `Response` (`utils/response.js`): the envelope.
- `TeamType` (`utils/extractTeamType.js`): the team type of a team id.
- `Attendance` (`services/eventService.js`): comcell events, the attendance ledger and the attendance statistics.
- `EventComposer` (`services/coreEventService.js`, `createEvent`): a payload becomes a plan of statements. The plan commits in full or rolls back.
- `EventReader` (`services/coreEventService.js`, the reads): `getEventById` and the two public listings.
- `Comcell` (`services/comcellService.js`): the group membership rules.
- `Teams` (`services/teamService.js`): team rosters and positions.
- `Users` (`services/userService.js`): profiles, roles and status.
- `Videos` (`services/videoService.js`): the video library and its tags.
- `Store`, `Values`, `Text` and `Sequences` hold the shared tables, values, string functions and list utilities.

Where the code and its documentation disagree, the model follows the code:
- `deleteEvent` removes only the event row and keeps its attendance rows.
- `last_event_status` is the first *truthy* status of the newest-first history.
- The user listing maps a falsy role name to "Unknown". The user detail does so only when there is no role row.
- A comcell group update does not check whether a new leader already belongs to another group (`Comcell.UpdateCanBreakRule`).
- `addMemberToComcellGroup` with an empty list builds `IN ()`, which MySQL rejects, so the call throws.
- A video update that leaves `isActive` out stores `NULL`, which hides the video (`Videos.UpdateWithoutFlagHides`).

## Model

| member | source | states |
|---|---|---|
| Response.Succeed | utils/response.js:1-8 | a success envelope: flag set, code and message passed through unchanged, data as given |
| Response.Fail | utils/response.js:10-17 | an error envelope: flag clear, code and message passed through unchanged, errors as given |
| Response.EnvelopeShape | utils/response.js:1-17 | omitted data and errors are null; the success flag holds exactly for the variant that carries data, so a success never carries errors and an error never carries data |
| TeamType.ExtractTeamType | utils/extractTeamType.js:1-9 | a non-string argument, and the default empty string, give null |
| TeamType.RoundTrip | utils/extractTeamType.js:4-8 | for every string t, the team type of `team-` + t is t, including the empty t |
| TeamType.Converse | utils/extractTeamType.js:4-8 | a non-null result r means the input was `team-` + r |
| TeamType.Characterisation | utils/extractTeamType.js:4-8 | a string has team type t if and only if it is `team-` + t |
| Store.MembersOf | services/eventService.js:57-60 | the user ids of a group's membership rows, in order: a user is listed iff it has a row in that group |
| Attendance.GetAllEvent | services/eventService.js:7-13 | always a success; `NOT_FOUND` without data exactly when there are no events, otherwise every event |
| Attendance.EventsOfGroup | services/eventService.js:23 | exactly the events of the group, as many as the group's event count |
| Attendance.GetAllEventByGroupId | services/eventService.js:15-28 | `GROUP_NOT_FOUND` iff the group is unknown; `NOT_FOUND` iff it has no events; otherwise exactly its events |
| Attendance.AbsentRows | services/eventService.js:62-76 | one `absent` row per membership row, in membership order, the i-th with the (k+i)-th fresh id |
| Attendance.CreateEvent | services/eventService.js:30-79 | `GROUP_NOT_FOUND`, then `FAILED_TO_CREATE_EVENT` for a taken (group, start, end) slot, both writing nothing; otherwise one new event under the first fresh id, carrying the given name, type, group, start, end and location, and one `absent` row per membership row, nothing else changed |
| Attendance.AbsentRowsCount | services/eventService.js:64-69 | the fan-out gives each user as many rows as that user has membership rows |
| Attendance.CreateEventFanOut | services/eventService.js:50-76 | after a creation, each user has as many attendance rows for the new event as membership rows in the group; a non-member has none |
| Attendance.DeleteEvent | services/eventService.js:81-91 | `EVENT_NOT_FOUND` iff no event has the id; otherwise `EVENT_DELETED`, the table shrinks, exactly the rows with that id leave it and no other table changes |
| Attendance.Views | services/eventService.js:101-112 | every attendance row whose user exists is reported with that user's full name and email, and every reported row is such a row |
| Attendance.GroupByEvent | services/eventService.js:115-118 | the map has a key for every requested id, holding exactly the rows of that event |
| Attendance.GetAttendance | services/eventService.js:93-121 | a missing or empty argument gives `NO_EVENT_IDS`; a single id is wrapped; the keys are the requested ids and each holds exactly that event's joined rows |
| Attendance.CaseWhen | services/eventService.js:132-143 | the entry a row takes is the first one naming its id, or none |
| Attendance.UpdateAttendance | services/eventService.js:123-161 | a falsy body or one whose `length` is 0 gives `NO_UPDATES`; any other non-array body throws `updates.map is not a function` before writing; an array changes only the rows it names, each to its first entry's status, its note or null, and the stamp |
| Attendance.UnknownIdsIgnored | services/eventService.js:142 | a list naming no existing row succeeds and changes nothing |
| Attendance.UpdateIdempotent | services/eventService.js:132-158 | the same bulk update applied twice at the same instant equals applying it once |
| Attendance.NewestFirst | services/eventService.js:194-201 | the join ordered by start time, latest first, as a permutation of the rows |
| Attendance.Streak | services/eventService.js:226-230 | the streak counts the leading `present` entries: at most the history length, all counted entries present, the next one not, so 0 when the newest is not present |
| Attendance.Percentage | services/eventService.js:233 | 0 without events; otherwise the integer nearest attended·100/total, halves rounded up; at most 100 when attended ≤ total |
| Attendance.LastStatus | services/eventService.js:234 | null iff no status in the history is truthy; otherwise the first truthy status, newest first |
| Attendance.RememberIsLastStatus | services/eventService.js:203-208 | the first-seen map built by the loop gives, per user, exactly the reference last status |
| Attendance.RememberKeeps | services/eventService.js:203-208 | a truthy entry of the map is never overwritten |
| Attendance.StatsFor | services/eventService.js:212-245 | one member's figures agree with the reference definitions; building the name throws exactly when the member's user row has a null or missing last name |
| Attendance.StatsLoop | services/eventService.js:211-245 | one entry per member, in order, each agreeing with the reference definitions, unless some member's name throws |
| Attendance.GetAttendanceStats | services/eventService.js:163-248 | `NO_MEMBERS` with an empty list for a group without members; otherwise one entry per membership row in order, each agreeing with the reference definitions; throws exactly when a member's name cannot be built, with V8's message for reading `[0]` of `null` or `undefined` |
| Attendance.NameFailure | services/eventService.js:211-224 | the error names the first member, in order, whose last name is `null` or missing, reading `[0]` of that value |
| Attendance.StreakAtMostPresent | services/eventService.js:226-230 | the streak never exceeds the number of `present` entries |
| Attendance.AttendedPermutation | services/eventService.js:182-191 | the attended count does not depend on the order of the join |
| Attendance.StreakAtMostAttended | services/eventService.js:182-230 | a member's streak is at most the member's attended count, both taken over the same group join |
| Attendance.StatsStreakBounds | services/eventService.js:211-245 | every reported streak is at most the reported attended count |
| Attendance.TotalIsCard | services/eventService.js:165-168 | with unique event ids, `total_events` is the number of distinct events of the group |
| Attendance.JoinIdsDistinct | services/eventService.js:182-191 | with one attendance row per (event, user), a member's present rows in the join name distinct events |
| Attendance.PercentageInRange | services/eventService.js:233 | under those schema facts, attended ≤ total and the percentage lies in [0, 100] |
| EventComposer.NormaliseType | services/coreEventService.js:49-57 | a type becomes `user` or `guest` exactly when it lowercases and trims to that word; any other value becomes null; a truthy non-string throws |
| EventComposer.NormaliseIdempotent | services/coreEventService.js:49-57 | normalising a normalised type changes nothing |
| EventComposer.PublicFlag | services/coreEventService.js:33 | 1 exactly when the flag is undefined or truthy, 0 otherwise |
| EventComposer.EventRow | services/coreEventService.js:26-39 | the event row: given id, name and times, type defaulting to `other`, status to `draft`, location, description and author null when falsy, a 0/1 public flag, both stamps the creation instant |
| EventComposer.IdOr | services/coreEventService.js:46 | the client's id when truthy, consuming no fresh id; otherwise the next fresh id |
| EventComposer.SpeakerRowOf | services/coreEventService.js:66-92 | a speaker id is stored only for type `user`; the name is the given one or null; translator fields are null |
| EventComposer.PlanSpeakers | services/coreEventService.js:44-96 | one speaker insert per entry for this event unless a type throws |
| EventComposer.SpeakerIdOnlyForUsers | services/coreEventService.js:66-92 | every planned speaker row with a user id has type `user` |
| EventComposer.SpeakerMatch | services/coreEventService.js:113-120 | a match means the translator normalised to `user` and some speaker whose raw type lowercases to `user` has the same user id; a missing speaker list never matches, and a speaker list that is not an array throws |
| EventComposer.TranslatorStep | services/coreEventService.js:112-178 | a matched translator updates that speaker row; any other translator inserts its own row with null speaker fields |
| EventComposer.MergedTranslatorAddsNoRow | services/coreEventService.js:113-138 | a user translator who is also a user speaker adds no row: the statement is the speaker-row update |
| EventComposer.PlanTranslators | services/coreEventService.js:99-180 | one statement per translator unless one throws; every write is a speaker insert or a translator attachment |
| EventComposer.SongRowOf | services/coreEventService.js:192-199 | song order defaults to 1, key and bpm to null, when falsy |
| EventComposer.PlanSongs | services/coreEventService.js:183-203 | one song insert per song for this event; the plan throws exactly when a title is missing |
| EventComposer.PresentationRowOf | services/coreEventService.js:215-223 | the upload time defaults to the creation instant |
| EventComposer.PlanPresentations | services/coreEventService.js:206-227 | one presentation insert per entry for this event; the plan throws exactly when a name or URL is missing |
| EventComposer.TeamName | services/coreEventService.js:232-242 | a key of the four-entry table maps to its display name; any other key is used as it is |
| EventComposer.ResolveTeam | services/coreEventService.js:245-254 | a team is found iff some active team's lowercased name contains the lowercased needle, and it is the first such team |
| EventComposer.ResolvedEntry | services/coreEventService.js:239-260 | an entry yields a pair exactly when its members are an array and its team name resolves, and then yields that pair |
| EventComposer.Resolved | services/coreEventService.js:239-260 | the entries that write are exactly those with an array of members whose team resolves |
| EventComposer.MemberRows | services/coreEventService.js:275-290 | one member insert per assignee, each with its own fresh id and null for falsy fields |
| EventComposer.TeamsPlanWrites | services/coreEventService.js:262-290 | the team section writes only team links and member rows of this event |
| EventComposer.TeamsPlanLinks | services/coreEventService.js:262-272 | one `event_teams` row per resolved entry |
| EventComposer.TeamsPlanLength | services/coreEventService.js:262-290 | one statement per resolved entry plus one per assignee |
| EventComposer.Plan | services/coreEventService.js:13-293 | the event insert comes first, under the first fresh id, and no later statement inserts an event; a missing name or date throws at once |
| EventComposer.Body | services/coreEventService.js:43-293 | no statement after the first inserts an event |
| EventComposer.SpeakersPlanAt | services/coreEventService.js:44-96 | statement i of the speaker section is speaker i's: an exception for a non-string type, otherwise the insert of its row under its own id or the next fresh id |
| EventComposer.TranslatorsPlanAt | services/coreEventService.js:99-180 | statement i of the translator section is the one translator i issues, with the fresh-id counter left by the translators before it |
| EventComposer.SongsPlanAt | services/coreEventService.js:183-203 | statement i of the song section is song i's: an exception for a missing title, otherwise the insert of its row |
| EventComposer.PresentationsPlanAt | services/coreEventService.js:206-227 | statement i of the presentation section is presentation i's: an exception for a missing name or URL, otherwise the insert of its row |
| EventComposer.TeamLinks | services/coreEventService.js:262-272 | one `event_teams` row per resolved entry, for its team and this event |
| EventComposer.TeamMemberRows | services/coreEventService.js:275-290 | one member row per assignee of every resolved entry |
| EventComposer.SpeakersNoThrow | services/coreEventService.js:44-96 | the speaker section throws exactly when some speaker's type is a truthy non-string |
| EventComposer.SpeakersEffect | services/coreEventService.js:44-96 | when every type normalises, the speaker section does not throw and appends exactly its rows to the speaker table, changing nothing else |
| EventComposer.SongsEffect | services/coreEventService.js:183-203 | when every song has a title, the song section appends exactly its rows to the song table and changes nothing else |
| EventComposer.PresentationsEffect | services/coreEventService.js:206-227 | when every presentation has a name and a URL, the section appends exactly its rows and changes nothing else |
| EventComposer.TeamsEffect | services/coreEventService.js:262-290 | the team section never throws, and appends exactly its links and member rows |
| EventComposer.PlanSections | services/coreEventService.js:26-290 | with a name and valid dates the plan is the event insert followed by the speaker, translator, song, presentation and team sections |
| EventComposer.AttachTo | services/coreEventService.js:124-138 | the merge update changes only the translator fields, and only on `user` rows of this event whose speaker id equals the translator's |
| EventComposer.Apply | services/coreEventService.js:19-290 | a write touches only the six event tables |
| EventComposer.FirstFailure | services/coreEventService.js:10-300 | no failure iff every statement is a write the database accepts |
| EventComposer.CreateEvent | services/coreEventService.js:7-308 | success iff no statement fails, and then every planned write is applied and the new id returned; on any failure the store is unchanged |
| EventComposer.CommittedEvent | services/coreEventService.js:26-41 | a committed creation adds exactly one event, the payload's with its defaults |
| EventComposer.CommittedChildren | services/coreEventService.js:43-293 | a committed creation appends exactly the section rows to the song, presentation, event-team and event-team-member tables, and, with no translators, to the speaker table |
| EventComposer.NothingPersistsOnFailure | services/coreEventService.js:299-300 | after a failure no row of the payload persists |
| EventComposer.InvalidDateAborts | services/coreEventService.js:299-303 | a missing or invalid date ends in the exception the catch block raises, with nothing written |
| EventComposer.FaultRollsBack | services/coreEventService.js:295-300 | a database failure at any statement rolls everything back |
| EventReader.TeamKeyOfSuffixed | services/coreEventService.js:618 | a one-word name followed by ` Team` reads back as `team-` and the lowercased word |
| EventReader.TeamKeyRoundTrip | services/coreEventService.js:618 | the key derived on read maps each display name of the create-side table (lines 232-237) back to its key |
| EventReader.OneWordName | services/coreEventService.js:232-237 | every display name of the table is one word followed by ` Team`, and its key is `team-` and that word in lower case |
| EventReader.Speakers | services/coreEventService.js:528-544 | exactly the event's rows naming a speaker are reported, each as its speaker view, and every reported entry is such a row's view |
| EventReader.Translators | services/coreEventService.js:546-562 | exactly the event's translator-only rows are reported, each as its translator view, and every reported entry is such a row's view |
| EventReader.SpeakersTranslatorsDisjoint | services/coreEventService.js:541-560 | no row is reported both as a speaker and as a translator |
| EventReader.SpeakerView | services/coreEventService.js:664-673 | user id and email only for type `user`; name and translator fields from the row |
| EventReader.TranslatorView | services/coreEventService.js:676-683 | user id and email only for type `user`, from the translator columns |
| EventReader.PartitionCounts | services/coreEventService.js:529-562 | the two lists have one entry per matching row, and together at most one per row of the event |
| EventReader.OwnTranslatorRowIsTranslator | services/coreEventService.js:555-560 | a translator row written by the composer that names somebody is reported as a translator only |
| EventReader.Songs | services/coreEventService.js:696-702 | exactly the songs of the event are reported, each with its id, title and order, and with a falsy key or bpm reported as null |
| EventReader.Presentations | services/coreEventService.js:579-591 | exactly the presentations of the event |
| EventReader.MembersOfLink | services/coreEventService.js:605 | exactly the member rows of that event-team link |
| EventReader.Group | services/coreEventService.js:613-638 | the keys are those already present plus the derived keys of rows with a truthy user id; earlier lists only grow and every new list is non-empty |
| EventReader.GroupPlaces | services/coreEventService.js:613-638 | the member of every row with a truthy user id is listed under that row's derived team key |
| EventReader.Pad | services/coreEventService.js:640-646 | every required key is present; existing lists are kept and added ones are empty |
| EventReader.FindEvent | services/coreEventService.js:517-524 | an event with the id, or none iff there is none |
| EventReader.GetEventById | services/coreEventService.js:512-716 | `EVENT_NOT_FOUND` iff no event has the id; otherwise the team keys are the derived ones plus the four required, the public flag is `is_public === 1`, and the two person lists have one entry per matching row |
| EventReader.ParseTypeFilter | services/coreEventService.js:321-325 | a falsy filter or `all` filters nothing; another string is split at commas |
| EventReader.SelectUpcoming | services/coreEventService.js:317-333 | exactly the published, public events starting at or after now and of a listed type |
| EventReader.GetAllEventPublic | services/coreEventService.js:310-346 | those events, earliest first, with a count equal to the list length; a non-string filter fails |
| EventReader.Applied | services/coreEventService.js:401-416 | a year or month field filters iff it is truthy, and then by its `parseInt` value |
| Text.ParseInt | services/coreEventService.js:402 | `parseInt` gives `NaN` when the text, after leading white space, starts with neither a sign nor a digit, and a non-positive value after a leading minus |
| Text.ParseIntRoundTrip | services/coreEventService.js:413 | `parseInt` reads back the decimal rendering of every integer |
| EventReader.NumericFilters | services/coreEventService.js:401-416 | a non-zero number, or the decimal text of any integer including `"0"`, filters on exactly that value |
| EventReader.UnparsedFilterListsNothing | services/coreEventService.js:401-416 | a truthy year or month that `parseInt` reads as `NaN` lists no event |
| EventReader.SelectPast | services/coreEventService.js:398-433 | exactly the published, public, ended events passing the year, month and type filters |
| EventReader.GetAllPostEventPublic | services/coreEventService.js:393-447 | those events, latest first, with a count equal to the list length and the filters echoed back; a non-string type filter fails with `FETCH_FAILED` |
| EventReader.DraftsAreNotListed | services/coreEventService.js:317 | a draft event is never in the public listing |
| Comcell.SetRole | services/comcellService.js:360 | only rows of that (group, user) change, and only their role |
| Comcell.SetRoleMembers | services/comcellService.js:360 | a role change moves nobody between groups |
| Comcell.SetRoleKeeps | services/comcellService.js:356-360 | a role change keeps "at most one group per user", and keeps roles valid when the new role is one of the three |
| Comcell.Without | services/comcellService.js:447-450 | exactly the rows of that (group, user) are deleted |
| Comcell.WithoutKeeps | services/comcellService.js:447-450 | a deletion keeps the one-group rule and the role whitelist |
| Comcell.AppendKeeps | services/comcellService.js:380-414 | appending rows for distinct users with no row keeps the one-group rule |
| Comcell.GroupId | services/comcellService.js:55-56 | the id is `Group-` followed by text without `-` |
| Comcell.GroupIdOfUuid | services/comcellService.js:55-56 | for a UUID `p-rest` the group id is `Group-p` |
| Comcell.CreateGroup | services/comcellService.js:9-87 | the checks run in the source's order and a failed check writes nothing; success iff both people are eligible, the id is new and there are no extra members; success returns the new `Group-` id and writes exactly that group row and its founding rows; any write is exactly those rows |
| Comcell.CreateKeepsRule | services/comcellService.js:18-76 | creation keeps the one-group rule and the role whitelist, whatever it returns |
| Comcell.FoundingKeeps | services/comcellService.js:59-76 | the leader and co-leader rows keep both invariants |
| Comcell.DeleteGroup | services/comcellService.js:91-101 | `GROUP_NOT_FOUND` changes nothing; otherwise only that group row goes |
| Comcell.DeleteTwice | services/comcellService.js:93-98 | a second delete finds nothing and changes nothing |
| Comcell.Promote | services/comcellService.js:130-149 | afterwards the user holds the role in the group |
| Comcell.Handover | services/comcellService.js:120-150 | the previous holder is demoted, then the new one promoted; it fails exactly when the new holder has no row and the insert is rejected, and then only the demotion is written; only that group's rows change, at most one is added, and only the rows of the previous and new holder differ; on success the new holder has the role and a previous holder who is a member and is not the new holder is left a plain `member` |
| Comcell.UpdateRows | services/comcellService.js:119-184 | the membership writes of an update change only that group's rows, only those of the outgoing and incoming holders of a role that changes, add at most two, and cannot fail when inserts are accepted |
| Comcell.UpdateRowsDemotes | services/comcellService.js:120-184 | after successful writes the outgoing co-leader is a plain `member`, and so is the outgoing leader unless the co-leader hand-over promotes them |
| Comcell.UpdateRowsPromotes | services/comcellService.js:120-184 | after successful writes the new co-leader holds `co-leader`, and the new leader holds `leader` unless the co-leader hand-over touches the same user |
| Comcell.UpdateGroup | services/comcellService.js:104-193 | `GROUP_NOT_FOUND` changes nothing; otherwise the group row is overwritten, only that group's membership rows change, only those of the outgoing and incoming holders of a changed role, and at most two are added; a return is `GROUP_UPDATED`; a throw is the `error is not a function` exception, left with the writes made so far, and happens only when an insert is rejected |
| Comcell.UpdateInsertRejected | services/comcellService.js:112-191 | a new leader without a row, with the insert rejected: the call throws with the group row written and the old leader demoted, and the co-leader block never runs |
| Comcell.UpdateGroupRoles | services/comcellService.js:119-184 | after a successful update the new co-leader holds `co-leader`, and the new leader holds `leader` unless the co-leader hand-over touches the same user; the outgoing co-leader is a plain `member`, and so is the outgoing leader unless named the new co-leader |
| Comcell.SwapDemotesNewLeader | services/comcellService.js:120-185 | swapping leader and co-leader returns success but leaves the new leader with role `member` |
| Comcell.HandoverToMember | services/comcellService.js:120-150 | a hand-over to an existing member is two role changes and moves nobody between groups |
| Comcell.UpdateGroupFixed | services/comcellService.js:119-185 | with both demotions before both promotions, the new leader holds `leader` and the new co-leader holds `co-leader`; each outgoing holder not named by the other promotion is a plain `member`; only the rows of the outgoing and incoming holders change |
| Comcell.FixedRows | services/comcellService.js:120-184 | the corrected membership writes give each new holder their role and touch only the outgoing and incoming holders' rows |
| Comcell.SwapFixed | services/comcellService.js:119-185 | with the corrected order a swap gives each user the requested role |
| Comcell.UpdateCanBreakRule | services/comcellService.js:129-149 | when the insert is accepted, a new leader who belongs to another group ends up with two membership rows |
| Comcell.SetMemberDetail | services/comcellService.js:336-362 | group, then membership, then the role whitelist; success iff all pass; only that member's role changes, to the requested one |
| Comcell.SetMemberDetailKeepsRule | services/comcellService.js:356-360 | a role change keeps both invariants |
| Comcell.FoundAllIff | services/comcellService.js:372-378 | the row count equals the request length iff every id names a user and none repeats |
| Comcell.NewMembers | services/comcellService.js:397-407 | one `member` row per requested id, in order |
| Comcell.AddMembers | services/comcellService.js:364-417 | `GROUP_NOT_FOUND`, an empty list throws, `USER_NOT_FOUND` for a missing or repeated id, `USER_ALREADY_ASSIGNED` for a member of any group; success appends one row per id and counts them in the message |
| Comcell.AddKeepsRule | services/comcellService.js:380-414 | adding keeps both invariants |
| Comcell.FirstRole | services/comcellService.js:438 | the role of the member's first row, present iff the user is a member |
| Comcell.RemoveMember | services/comcellService.js:421-453 | leaders and co-leaders are refused, non-members get `USER_NOT_FOUND`; success deletes every row of that member in that group and nothing else |
| Comcell.LeaderCannotBeRemoved | services/comcellService.js:437-444 | while the one-group rule holds, a group's leader cannot be removed |
| Comcell.RemoveKeepsRule | services/comcellService.js:446-450 | removal keeps both invariants |
| Teams.WithProtection | services/teamService.js:12 | exactly the teams with that protection flag |
| Teams.MainTeams | services/teamService.js:11-17 | `NOT_FOUND` iff no team is protected; otherwise exactly the protected teams |
| Teams.OtherTeams | services/teamService.js:19-25 | `NOT_FOUND` iff every team is protected; otherwise exactly the unprotected teams |
| Teams.ProtectionPartition | services/teamService.js:11-25 | the two listings together hold every team row once |
| Teams.MainOrOther | services/teamService.js:11-25 | some listing succeeds iff there is a team, and no team is in both |
| Teams.TeamMembers | services/teamService.js:27-49 | `TEAM_NOT_FOUND` iff the team is unknown; otherwise the ids of existing users with a row in the team |
| Teams.NonMembers | services/teamService.js:51-62 | always a success; the listed users are user rows, unchanged |
| Teams.NonMembersExactly | services/teamService.js:55-59 | a user is listed iff the team is unknown or the user has no row in it |
| Teams.NonMembersOfUnknownTeam | services/teamService.js:55-57 | for an unknown team every user is listed |
| Teams.PositionId | services/teamService.js:88 | `pos-` followed by text without white space |
| Teams.PositionIdIgnoresCase | services/teamService.js:88 | labels that differ only in case give the same id |
| Teams.PositionIdIgnoresSpace | services/teamService.js:88 | white space anywhere in a label does not change the id |
| Teams.CreatePosition | services/teamService.js:77-103 | `TEAM_NOT_FOUND`; a non-string label throws; `POSITION_EXISTS` iff the id is taken, writing nothing; otherwise exactly one new position with the label and the team type |
| Teams.CreatedTeamType | services/teamService.js:85 | the stored team type is t exactly when the team id is `team-` + t |
| Teams.CreateTwice | services/teamService.js:88-94 | after a creation, any label with the same id is refused and changes nothing |
| Teams.DeletePosition | services/teamService.js:105-122 | `POSITION_NOT_FOUND`, then `POSITION_IN_USE` while anyone holds it, both writing nothing; otherwise only that position goes |
| Teams.CreateThenDelete | services/teamService.js:97-119 | deleting a just-created, unheld position restores the database |
| Teams.DeletePositionTwice | services/teamService.js:107-110 | a second delete finds nothing |
| Teams.PatchRow | services/teamService.js:181-193 | only the fields present in the update change, and the stamp is set |
| Teams.Patch | services/teamService.js:189-192 | only rows of that (team, user) change |
| Teams.OthersPositions | services/teamService.js:200-203 | the delete keeps exactly the position rows of other (team, user) pairs |
| Teams.PositionRows | services/teamService.js:205-211 | one position row per id, in order, the k-th with the k-th fresh id |
| Teams.ReplacePositions | services/teamService.js:196-218 | the member holds exactly the listed ids, each once; other members' position rows are unchanged |
| Teams.SetMemberDetail | services/teamService.js:169-239 | `TEAM_NOT_FOUND`, then `NOT_FOUND`; with no field present the membership table is untouched; with `position_ids` an array the member's positions become its distinct ids; other members are untouched |
| Teams.PatchTwice | services/teamService.js:181-193 | the same patch twice at the same instant equals one patch |
| Teams.ReplaceTwice | services/teamService.js:196-213 | replacing again with the same ids changes nothing |
| Teams.SetMemberDetailTwice | services/teamService.js:169-219 | the same detail update twice leaves the database as the first left it |
| Teams.Admissible | services/teamService.js:250-264 | an id passes iff it names a user without a row in the team, checked against the database before the call |
| Teams.JoinedRows | services/teamService.js:262-276 | new rows have role `member`, are active, and each takes its own fresh id |
| Teams.MembersAfterJoin | services/teamService.js:271-276 | after the insert the members are the old ones plus the picked users |
| Teams.Admit | services/teamService.js:266-278 | `NO_VALID_MEMBERS` when nothing passed; otherwise the rows are appended |
| Teams.AddMembers | services/teamService.js:242-279 | success iff the team exists and some id passes; each new row is an active `member` row for a requested id; membership grows by exactly the passing users |
| Teams.RepeatedIdTwoRows | services/teamService.js:252-264 | a repeated new id gives that user two rows in the team |
| Teams.AddMembersFixed | services/teamService.js:250-278 | skipping ids accepted earlier in the same call keeps one row per (team, user), with the same membership outcome |
| Teams.JoinKeepsOneRow | services/teamService.js:271-276 | appending rows for distinct new users keeps one row per (team, user) |
| Teams.DropMember | services/teamService.js:293-296 | exactly that member's rows are deleted |
| Teams.RemoveMember | services/teamService.js:282-305 | `NOT_FOUND` iff not a member; otherwise the membership and all of that user's positions in that team go, and nothing else |
| Teams.RemoveTwice | services/teamService.js:284-290 | a second removal finds nothing |
| Teams.AddThenRemove | services/teamService.js:242-305 | adding a user and removing them again restores the membership table |
| Users.EditableAreSafe | services/userService.js:67-70 | every editable column is one the detail shows; the update stamp is shown but not editable |
| Users.RoleNamed | services/userService.js:111-115 | the first role with that name, or none iff there is none |
| Users.RoleWithId | services/userService.js:39-40 | the first role with that id, or none iff there is none |
| Users.RoleById | services/userService.js:39-40 | with unique ids, a role's own id finds it |
| Users.DetailRoleName | services/userService.js:39-40 | the joined role's name, or "Unknown" when there is no role row |
| Users.GetUserDetail | services/userService.js:31-63 | `USER_NOT_FOUND` iff unknown; otherwise exactly the safe columns, the id and the role name, never the password |
| Users.ListingOf | services/userService.js:21-27 | name is first + " " + last as a template prints them; a falsy role name reads "Unknown" |
| Users.GetAllUsers | services/userService.js:7-29 | one entry per user |
| Users.ListingAgreesWithDetail | services/userService.js:20-40 | the listing's role name is the detail's unless that is falsy, then "Unknown" |
| Users.Provided | services/userService.js:67-80 | the whitelisted keys whose value is not undefined |
| Users.Edited | services/userService.js:88-94 | provided fields, including explicit nulls, are written; other columns are kept |
| Users.EditProfile | services/userService.js:65-101 | `NO_FIELDS_PROVIDED` iff no whitelisted field is present; only that user changes; the reply carries the row read before the stamp |
| Users.EditIgnoresOtherKeys | services/userService.js:67-80 | keys outside the whitelist make no difference |
| Users.EditThenDetail | services/userService.js:65-101 | the detail then shows each provided value, the other columns as before, and the new stamp |
| Users.EditTwice | services/userService.js:65-101 | the same edit twice at the same instant equals one edit |
| Users.SetRole | services/userService.js:103-126 | `NOT_FOUND` for an unknown user or role name; otherwise `role_id` becomes that role's id and the stamp is set, nothing else changes |
| Users.SetRoleThenDetail | services/userService.js:103-126 | with unique role ids the detail then names the requested role |
| Users.SetStatus | services/userService.js:129-150 | `INVALID_TYPE` for a non-boolean before the lookup, then `NOT_FOUND`; otherwise the flag is stored as 1 or 0 with the stamp |
| Users.SetStatusThenDetail | services/userService.js:129-150 | the detail then reports 1 or 0, truthy exactly for `true` |
| Videos.Flag | services/videoService.js:110-112 | in the model a flag is stored as 1 exactly when it was sent as the number 1 or `true`; booleans become 1/0, `undefined` becomes null, anything else is kept as sent |
| Videos.TagNamed | services/videoService.js:156 | the first tag with that exact name, active or not; none iff there is none |
| Videos.AttachOne | services/videoService.js:155-170 | the tables only grow; the name is then linked to the video by one new link; an existing tag is reused |
| Videos.AttachEntry | services/videoService.js:152-170 | a blank entry once trimmed writes nothing; otherwise its trimmed name is linked with one new link |
| Videos.Attach | services/videoService.js:150-172 | the tables only grow and every new link is the video's; an exception happens iff some entry is not a string |
| Videos.AttachCount | services/videoService.js:150-172 | without an exception, one link per non-blank entry |
| Videos.AttachLinksAll | services/videoService.js:150-172 | without an exception, every non-blank trimmed name is linked to the video |
| Videos.AttachKeepsNamesUnique | services/videoService.js:156-163 | get-or-create never gives two tags the same name |
| Videos.BlankAttachesNothing | services/videoService.js:152-153 | a blank or white-space name writes nothing |
| Videos.RepeatedNameOneTagTwoLinks | services/videoService.js:156-170 | a new name given twice creates one tag and two links to it |
| Videos.AttachReusesTag | services/videoService.js:156-159 | a name that has a tag creates no tag |
| Videos.ActiveTags | services/videoService.js:177 | exactly the active tags |
| Videos.GetAllTags | services/videoService.js:175-184 | `NO_TAGS_FOUND` iff no tag is active; otherwise exactly the active tags |
| Videos.Deactivated | services/videoService.js:192 | only tags with that id become inactive; ids and names are kept |
| Videos.DeleteTag | services/videoService.js:187-198 | `TAG_NOT_FOUND` iff unknown; otherwise the tag is marked inactive and kept |
| Videos.DeletedTagHiddenButReused | services/videoService.js:187-198 | a deleted tag is kept but inactive, so it leaves the listing; an attach with its name creates no new tag and reuses it |
| Videos.JoinTags | services/videoService.js:82-88 | exactly the tags some link of the video points to |
| Videos.ViewOf | services/videoService.js:82-89 | the video with exactly its linked tags |
| Videos.ActiveWithId | services/videoService.js:75 | the first active row with the id, none iff there is none |
| Videos.GetVideoById | services/videoService.js:73-96 | `VIDEO_NOT_FOUND` iff no active row has the id; otherwise that video with its tags |
| Videos.Listed | services/videoService.js:43-46 | exactly the active videos whose title or description contains the search, ignoring case |
| Videos.NewestListed | services/videoService.js:43-46 | exactly the listed videos, ordered newest `createDate` first |
| Videos.GetAllVideos | services/videoService.js:38-70 | `NO_VIDEOS_FOUND` iff none qualifies; otherwise exactly the qualifying videos, newest first, each with its tags |
| Videos.EmptySearchListsAll | services/videoService.js:38-46 | the default empty search matches every active video with a textual title or description |
| Videos.CreateVideo | services/videoService.js:10-35 | `INVALID_INPUT` before any write unless title and URL are truthy; success iff `tags` is not null and every entry is a string; a failure keeps what was written; the video row is appended and the tag tables only grow |
| Videos.CreateThenGet | services/videoService.js:10-35 | a created video is then found by its id |
| Videos.CreateShowsTags | services/videoService.js:25-28 | every non-blank tag name sent is among the created video's tags |
| Videos.Rewritten | services/videoService.js:108-113 | title and description take the sent values, an omitted one null; the flag is 1 only for the number 1 or `true`, other values kept as sent; the stamp is set; id, author and creation date are kept |
| Videos.UnlinkVideo | services/videoService.js:117 | exactly the links of other videos |
| Videos.RewriteAll | services/videoService.js:108-113 | only rows with that id are rewritten |
| Videos.UpdateVideo | services/videoService.js:99-126 | `VIDEO_NOT_FOUND` iff unknown; in the model a failure comes only from a non-string tag, since the `UPDATE` itself is taken to succeed; with `tags` omitted or an array the video's links are replaced; other videos' links are untouched |
| Videos.OthersLinksKept | services/videoService.js:116-119 | appending links of one video leaves every other video's links as they were |
| Videos.UpdateRelinks | services/videoService.js:116-119 | after an update with a tag array, the video's links are exactly the new ones, one per non-blank name, each name linked |
| Videos.UpdateWithoutFlagHides | services/videoService.js:101-113 | an update that leaves `isActive` out hides the video |
| Videos.DeleteVideo | services/videoService.js:129-143 | `VIDEO_NOT_FOUND` iff unknown; otherwise the rows are kept, marked inactive and stamped, and nothing else changes |
| Videos.DeleteThenGet | services/videoService.js:129-143 | after a delete the video is not found by id, but its row and links remain and a second delete succeeds |

## Left out

- Infrastructure: the connection pool, routing, controllers and authentication. `services/authService.js` and `utils/dateUtils.js` are not part of this model.
- Read-only queries outside the listed operations are not modelled: `getAllComcell`, the adult and youth listings, `getComcellGroupDetail`, `getComcellFromUserId`, `getComcellGroupMembers`, both `getMemberDetail`s, `getAllPositions`, `getAllEventAdmin` and `getAllPostEventAdmin`. The empty `updateEvent` and `deleteEvent` of the event composer are not modelled either.
- Concurrency: every check-then-write race (event slot, position id, group membership) and transaction isolation.
- SQL matching semantics: two separate modelling choices are made. `=` on names and tags is taken as exact, as under a binary collation. `LIKE` is taken as a case-insensitive substring test with no wildcards inside the search text, as under a case-insensitive collation. No single MySQL collation gives both; the model does not fix one.
- Unicode: lower-casing and trimming cover ASCII and the common white-space characters only.
- Floating point: `Math.round` is computed exactly on integers, rounding halves up.
- Foreign-key and unique-key failures are not modelled, except in the event composer, where any statement may be marked as failing.
- The schema defaults an insert relies on are assumed: active flags 1, the creation date the insert instant, notes null.
- Ids from request bodies are text or absent. Numeric and boolean ids, and a non-array `userIds`, `memberIds` or `newData`, are not modelled.
- The `USER_NOT_FOUND` branches after `getUserDetailById` test an envelope that is always truthy, so they are unreachable. Both `getMemberDetail`s are left out anyway.
- Attendance.GetAttendanceStats: the figures for several members are computed one member at a time. This gives the same figures, because every query reads the same unchanged store.
- Attendance.NewestFirst: rows with equal start times keep storage order. SQL leaves their order unspecified.
- Users.GetAllUsers: duplicate role ids in the `LEFT JOIN` would repeat a user; the model takes the first matching role.
- Teams.TeamMembers: models only the member ids that `getAllNonMembers` uses, not the name and positions aggregation.
- Teams.SetMemberDetail: the fresh row and positions it reads back for the reply are not modelled. A foreign-key failure in the position insert is not modelled either.
- Teams.CreatePosition: the team type comes from `extractTeamType` applied to the team id as text.
- Videos.GetAllTags: `ORDER BY name` is not modelled; the tags come in storage order.
- Videos.CreateVideo: the error object a failure carries is modelled by its message.
- Comcell.CreateGroup: a non-empty `memberIds` calls a helper that does not exist, so it is modelled as a throw after the group and founding rows were written.
- EventComposer.CreateEvent: the catch block shadows the `error` helper, so every failure ends in an exception after the rollback; no `CREATE_FAILED` envelope is returned.
- EventReader.GetEventById: timestamps are not converted to ISO text.
- EventReader.GetEventById: the `ORDER BY` clauses of the song, presentation and team queries (services/coreEventService.js:574, 589 and 608) are not modelled; those rows come in storage order.
- Comcell.UpdateGroup: the promoting insert omits the `id` and `join_at` columns, so whether the database accepts it depends on the schema, which is not part of this model; it is the parameter `inserts`. The other statements of the update are taken to succeed, and the `update_at` stamps are not modelled.
- EventReader.GetAllPostEventPublic: the year filter's text bounds `Y-01-01 00:00:00` and `Y-12-31 23:59:59` are modelled as the start time's calendar year being Y, and a `NaN` year or month as matching no event. A year outside 0..9999 is not treated specially.
- Text.ParseInt: white space is the ASCII set of `Text.IsWhitespace`, and digits run as long as they are decimal, or hexadecimal after `0x`; a number is printed in plain decimal, so exponent notation is not modelled.
- Attendance.UpdateAttendance: the entries of an array body are taken to be objects; a `null` entry, which would throw at `u.attendance_id`, is not modelled.
- Videos.Flag: values are stored as sent. MySQL's conversion of text to an integer column is not modelled, so the text `'1'` is kept as text and does not count as active, where MySQL would store 1.
- Videos.UpdateVideo: the `UPDATE` is taken to succeed. Strict-mode rejection of an ill-typed `isActive` (such as `"true"`) or a malformed `event_date`, which gives `UPDATE_FAILED`, is not modelled.
- Videos.Listed: the search matches text columns only; a number stored in a text column, which `LIKE` would match as its decimal text, is not modelled.
- EventReader.SpeakerView: the `addedAt` column each speaker entry reports is not modelled; speaker rows carry no timestamp.
- EventReader.TranslatorView: the `addedAt` column each translator entry reports is not modelled, for the same reason.
- EventComposer.CreateEvent: the entries of `speakers`, `translators`, `songs`, `presentations` and a team's members are taken to be objects. A `null` entry would throw when its fields are read and end, like any other failure, in the rollback and the `error is not a function` exception; it is not modelled.
- Comcell.UpdateGroupFixed: the corrected update takes every insert as accepted, so it always returns `GROUP_UPDATED`.
- Comcell.UpdateCanBreakRule: stated for an accepted insert only; with a rejected insert the update throws instead.

## Findings

| source | as written | input that shows it | evidently intended | confidence | as-written member | corrected member |
|---|---|---|---|---|---|---|
| services/comcellService.js:119-185 | the leader hand-over runs completely before the co-leader hand-over | leader a, co-leader b, update with leader b and co-leader a | b ends as `leader` and a as `co-leader` | not executed | Comcell.SwapDemotesNewLeader | Comcell.UpdateGroupFixed |
| services/teamService.js:250-264 | both checks read the database as it was before the call, so a repeated id passes twice | `userIds = [u, u]` for an existing user u not in the team | one row per (team, user); a unique key in the schema, which is not part of this model, would make the insert throw instead | not executed | Teams.RepeatedIdTwoRows | Teams.AddMembersFixed |

=== FILE: attendance.dfy ===
/** The attendance ledger and its analytics (`services/eventService.js`):
    comcell events fan out one `absent` row per group member, a bulk
    `CASE WHEN` statement updates rows by id, attendance is fetched grouped
    by event, and per-member statistics (attended count, percentage, last
    status, streak) are derived from the group's event history. */
module Attendance {
  import opened Values
  import opened Text
  import opened Response
  import opened Store
  import opened Sequences

  const Present: Value := Str("present")
  const Absent: Value := Str("absent")

  // ---------------------------------------------------------------------
  // Events of a group

  /** `SELECT * FROM events`. */
  function GetAllEvent(s: Store): (r: Envelope<seq<Event>>)
    ensures r.Ok()
    ensures s.events == [] <==> r.code == "NOT_FOUND"
    ensures r.code == "NOT_FOUND" ==> r.data == None
    ensures r.code != "NOT_FOUND" ==> r.data == Some(s.events)
  {
    if s.events == [] then Succeed("NOT_FOUND", "No events found")
    else Succeed("EVENTS_FETCHED", "All events successfully fetched", Some(s.events))
  }

  /** The events of one group, in storage order. */
  function EventsOfGroup(events: seq<Event>, groupId: string): (r: seq<Event>)
    ensures |r| == TotalEvents(events, groupId)
    ensures forall e :: e in r <==> e in events && e.groupId == Some(groupId)
  {
    if events == [] then []
    else (if events[0].groupId == Some(groupId) then [events[0]] else []) + EventsOfGroup(events[1..], groupId)
  }

  /** `getAllEventByGroupId`. */
  function GetAllEventByGroupId(s: Store, groupId: string): (r: Envelope<seq<Event>>)
    ensures groupId !in s.groups <==> !r.Ok()
    ensures !r.Ok() ==> r == Fail("GROUP_NOT_FOUND", "No group with that id found")
    ensures r.Ok() ==> (r.code == "NOT_FOUND" <==> TotalEvents(s.events, groupId) == 0)
    ensures r.Ok() && r.code != "NOT_FOUND" ==>
              r.data.Some? && forall e :: e in r.data.value <==> e in s.events && e.groupId == Some(groupId)
  {
    if groupId !in s.groups then Fail("GROUP_NOT_FOUND", "No group with that id found")
    else
      var events := EventsOfGroup(s.events, groupId);
      if events == [] then Succeed("NOT_FOUND", "No events found")
      else Succeed("EVENTS_FETCHED", "All events successfully fetched", Some(events))
  }

  /** An event of this group already occupies exactly this time slot. */
  predicate SlotTaken(events: seq<Event>, groupId: string, startTime: int, endTime: int) {
    exists i :: 0 <= i < |events| && events[i].groupId == Some(groupId)
                && events[i].startTime == startTime && events[i].endTime == Some(endTime)
  }

  /** One `absent` row per membership row, in membership order; row k takes
      the (k+1)-th fresh id because the event took the first. */
  function AbsentRows(members: seq<string>, eventId: string, uuid: Uuid, k: nat): (rows: seq<Attendance>)
    ensures |rows| == |members|
    ensures forall i :: 0 <= i < |rows| ==>
              rows[i] == Attendance(uuid(k + i), eventId, members[i], Absent, Null, None)
  {
    if members == [] then []
    else [Attendance(uuid(k), eventId, members[0], Absent, Null, None)] + AbsentRows(members[1..], eventId, uuid, k + 1)
  }

  /** `createEvent` of a comcell event: checks the group and the time slot,
      inserts the event, then snapshots the group's membership into
      attendance rows. */
  function CreateEvent(s: Store, name: Value, eventType: Value, groupId: string,
                       startTime: int, endTime: int, location: Value, now: int, uuid: Uuid): (r: Reply<()>)
    ensures groupId !in s.groups ==> r == Reply(s, Fail("GROUP_NOT_FOUND", "No group with that id found"))
    ensures groupId in s.groups && SlotTaken(s.events, groupId, startTime, endTime) ==>
              r == Reply(s, Fail("FAILED_TO_CREATE_EVENT", "Event already exists in this group at this time"))
    ensures r.env.Ok() <==> groupId in s.groups && !SlotTaken(s.events, groupId, startTime, endTime)
    ensures r.env.Ok() ==>
              var members := MembersOf(s.groupMembers, groupId);
              && r.env.code == "EVENT_CREATED"
              && r.store == s.(events := r.store.events, attendance := r.store.attendance)
              && |r.store.events| == |s.events| + 1
              && r.store.events[..|s.events|] == s.events
              && r.store.events[|s.events|].id == uuid(0)
              && r.store.events[|s.events|].groupId == Some(groupId)
              && (name != Undefined ==> r.store.events[|s.events|].name == name)
              && (eventType != Undefined ==> r.store.events[|s.events|].eventType == eventType)
              && (location != Undefined ==> r.store.events[|s.events|].location == location)
              && r.store.events[|s.events|].startTime == startTime
              && r.store.events[|s.events|].endTime == Some(endTime)
              && r.store.events[|s.events|].createdAt == now
              && |r.store.attendance| == |s.attendance| + |members|
              && r.store.attendance[..|s.attendance|] == s.attendance
              && (forall i :: 0 <= i < |members| ==>
                    var a := r.store.attendance[|s.attendance| + i];
                    a.eventId == uuid(0) && a.userId == members[i] && a.status == Absent)
  {
    if groupId !in s.groups then Reply(s, Fail("GROUP_NOT_FOUND", "No group with that id found"))
    else if SlotTaken(s.events, groupId, startTime, endTime) then
      Reply(s, Fail("FAILED_TO_CREATE_EVENT", "Event already exists in this group at this time"))
    else
      var eventId := uuid(0);
      var event := Event(eventId, Stored(name), Stored(eventType), Some(groupId), startTime, Some(endTime),
                         Stored(location), Null, Null, Null, Null, now, now);
      var members := MembersOf(s.groupMembers, groupId);
      var rows := AbsentRows(members, eventId, uuid, 1);
      var s' := s.(events := s.events + [event], attendance := s.attendance + rows);
      assert forall i :: 0 <= i < |rows| ==> s'.attendance[|s.attendance| + i] == rows[i];
      Reply(s', Succeed("EVENT_CREATED", "Event created successfully"))
  }

  /** Number of occurrences of `x` in `xs`. */
  function Occurrences<T(==)>(xs: seq<T>, x: T): nat {
    if xs == [] then 0 else (if xs[0] == x then 1 else 0) + Occurrences(xs[1..], x)
  }

  /** Number of attendance rows for this (event, user) pair. */
  function RowsFor(rows: seq<Attendance>, eventId: string, userId: string): nat {
    if rows == [] then 0
    else (if rows[0].eventId == eventId && rows[0].userId == userId then 1 else 0) + RowsFor(rows[1..], eventId, userId)
  }

  lemma {:induction false} RowsForAppend(a: seq<Attendance>, b: seq<Attendance>, eventId: string, userId: string)
    ensures RowsFor(a + b, eventId, userId) == RowsFor(a, eventId, userId) + RowsFor(b, eventId, userId)
  {
    if a == [] {
      assert a + b == b;
    } else {
      assert (a + b)[1..] == a[1..] + b;
      RowsForAppend(a[1..], b, eventId, userId);
    }
  }

  lemma {:induction false} AbsentRowsCount(members: seq<string>, eventId: string, uuid: Uuid, k: nat, userId: string)
    ensures RowsFor(AbsentRows(members, eventId, uuid, k), eventId, userId) == Occurrences(members, userId)
  {
    if members != [] {
      AbsentRowsCount(members[1..], eventId, uuid, k + 1, userId);
    }
  }

  /** Attendance fan-out: a freshly created event has, for every user, as
      many attendance rows as that user has membership rows in the group at
      that moment; a user outside the group has none. */
  lemma CreateEventFanOut(s: Store, name: Value, eventType: Value, groupId: string,
                          startTime: int, endTime: int, location: Value, now: int, uuid: Uuid, userId: string)
    requires forall i :: 0 <= i < |s.attendance| ==> s.attendance[i].eventId != uuid(0)
    requires CreateEvent(s, name, eventType, groupId, startTime, endTime, location, now, uuid).env.Ok()
    ensures RowsFor(CreateEvent(s, name, eventType, groupId, startTime, endTime, location, now, uuid).store.attendance, uuid(0), userId)
            == Occurrences(MembersOf(s.groupMembers, groupId), userId)
  {
    var members := MembersOf(s.groupMembers, groupId);
    var rows := AbsentRows(members, uuid(0), uuid, 1);
    NoRowsForFreshEvent(s.attendance, uuid(0), userId);
    RowsForAppend(s.attendance, rows, uuid(0), userId);
    AbsentRowsCount(members, uuid(0), uuid, 1, userId);
  }

  lemma {:induction false} NoRowsForFreshEvent(rows: seq<Attendance>, eventId: string, userId: string)
    requires forall i :: 0 <= i < |rows| ==> rows[i].eventId != eventId
    ensures RowsFor(rows, eventId, userId) == 0
  {
    if rows != [] {
      NoRowsForFreshEvent(rows[1..], eventId, userId);
    }
  }

  /** `deleteEvent`: removes the event row and nothing else; its attendance
      rows stay in the table. */
  function DeleteEvent(s: Store, eventId: string): (r: Reply<()>)
    ensures (forall i :: 0 <= i < |s.events| ==> s.events[i].id != eventId) ==>
              r == Reply(s, Fail("EVENT_NOT_FOUND", "No event with that id found"))
    ensures (exists i :: 0 <= i < |s.events| && s.events[i].id == eventId) ==>
              && r.env == Succeed("EVENT_DELETED", "Event deleted successfully")
              && r.store == s.(events := r.store.events)
              && (forall e :: e in r.store.events <==> e in s.events && e.id != eventId)
              && |r.store.events| < |s.events|
    ensures r.env.Ok() ==>
              && r.store == s.(events := r.store.events)
              && (forall e :: e in r.store.events <==> e in s.events && e.id != eventId)
  {
    if forall i :: 0 <= i < |s.events| ==> s.events[i].id != eventId then
      Reply(s, Fail("EVENT_NOT_FOUND", "No event with that id found"))
    else
      Reply(s.(events := WithoutEvent(s.events, eventId)), Succeed("EVENT_DELETED", "Event deleted successfully"))
  }

  function WithoutEvent(events: seq<Event>, eventId: string): (r: seq<Event>)
    ensures forall e :: e in r <==> e in events && e.id != eventId
    ensures |r| <= |events|
    ensures (exists i :: 0 <= i < |events| && events[i].id == eventId) ==> |r| < |events|
  {
    if events == [] then []
    else (if events[0].id == eventId then [] else [events[0]]) + WithoutEvent(events[1..], eventId)
  }

  // ---------------------------------------------------------------------
  // Fetching attendance grouped by event

  /** The argument of `getAttendance`: missing, one id, or a list of ids. */
  datatype EventIdsArg = NoIds | OneId(id: string) | IdList(ids: seq<string>)

  /** A row of `event_attendance JOIN user`. */
  datatype AttendanceView = AttendanceView(
    attendanceId: string, eventId: string, userId: string, status: Value,
    userName: Value, userEmail: Value)

  /** The joined row of one attendance row whose user exists. */
  function ViewOf(a: Attendance, users: map<string, Row>): AttendanceView
    requires a.userId in users
  {
    AttendanceView(a.id, a.eventId, a.userId, a.status, SqlFullName(users[a.userId]), Column(users[a.userId], "email"))
  }

  /** The inner join of attendance with users, in attendance storage order:
      rows of users that no longer exist are not reported. */
  function Views(rows: seq<Attendance>, users: map<string, Row>): (r: seq<AttendanceView>)
    ensures forall v :: v in r ==> v.userId in users
    ensures forall a :: a in rows && a.userId in users ==> ViewOf(a, users) in r
    ensures forall v :: v in r ==> exists a :: a in rows && a.userId in users && v == ViewOf(a, users)
    ensures |r| <= |rows|
  {
    if rows == [] then []
    else
      var a := rows[0];
      (if a.userId in users then [ViewOf(a, users)] else []) + Views(rows[1..], users)
  }

  function RowsOfEvent(views: seq<AttendanceView>, eventId: string): (r: seq<AttendanceView>)
    ensures forall v :: v in r <==> v in views && v.eventId == eventId
  {
    if views == [] then []
    else (if views[0].eventId == eventId then [views[0]] else []) + RowsOfEvent(views[1..], eventId)
  }

  function RowsInEvents(views: seq<AttendanceView>, ids: seq<string>): (r: seq<AttendanceView>)
    ensures forall v :: v in r <==> v in views && v.eventId in ids
  {
    if views == [] then []
    else (if views[0].eventId in ids then [views[0]] else []) + RowsInEvents(views[1..], ids)
  }

  /** The `ids.reduce` that builds `{ [id]: rows.filter(r => r.event_id === id) }`. */
  function GroupByEvent(rows: seq<AttendanceView>, ids: seq<string>, acc: map<string, seq<AttendanceView>>): (m: map<string, seq<AttendanceView>>)
    ensures m.Keys == acc.Keys + set id | id in ids
    ensures forall id :: id in ids ==> m[id] == RowsOfEvent(rows, id)
    ensures forall id :: id in acc && id !in ids ==> m[id] == acc[id]
  {
    if ids == [] then acc
    else GroupByEvent(rows, ids[1..], acc[ids[0] := RowsOfEvent(rows, ids[0])])
  }

  /** `getAttendance`: a missing or empty argument is an error; a single id
      is wrapped into a list; the result has one entry per requested id,
      holding exactly that event's rows (an empty list when it has none). */
  function GetAttendance(s: Store, eventIds: EventIdsArg): (r: Envelope<map<string, seq<AttendanceView>>>)
    ensures eventIds in {NoIds, OneId(""), IdList([])} ==> r == Fail("NO_EVENT_IDS", "No event IDs provided")
    ensures eventIds !in {NoIds, OneId(""), IdList([])} ==>
              var ids := if eventIds.OneId? then [eventIds.id] else eventIds.ids;
              && r.Ok() && r.code == "ATTENDANCE_FETCHED" && r.data.Some?
              && r.data.value.Keys == (set id | id in ids)
              && (forall id, v :: id in r.data.value ==>
                    (v in r.data.value[id] <==> v in Views(s.attendance, s.users) && v.eventId == id))
  {
    if eventIds in {NoIds, OneId(""), IdList([])} then Fail("NO_EVENT_IDS", "No event IDs provided")
    else
      var ids := if eventIds.OneId? then [eventIds.id] else eventIds.ids;
      var rows := RowsInEvents(Views(s.attendance, s.users), ids);
      var grouped := GroupByEvent(rows, ids, map[]);
      Succeed("ATTENDANCE_FETCHED", "Attendance fetched successfully", Some(grouped))
  }

  // ---------------------------------------------------------------------
  // Bulk status update

  /** One `{attendance_id, status, notes}` entry of `updateAttendance`. */
  datatype AttendanceUpdate = AttendanceUpdate(attendanceId: Value, status: Value, notes: Value)

  /** The entry `CASE id WHEN ? THEN ? ...` selects for a row id: the first
      entry naming it, or none. */
  function CaseWhen(updates: seq<AttendanceUpdate>, id: string): (r: Option<AttendanceUpdate>)
    ensures r.None? <==> forall j :: 0 <= j < |updates| ==> updates[j].attendanceId != Str(id)
    ensures r.Some? ==> exists j :: 0 <= j < |updates| && updates[j] == r.value && updates[j].attendanceId == Str(id)
                                    && forall k :: 0 <= k < j ==> updates[k].attendanceId != Str(id)
  {
    if updates == [] then None
    else if updates[0].attendanceId == Str(id) then Some(updates[0])
    else
      var r := CaseWhen(updates[1..], id);
      assert r.Some? ==> exists j :: 1 <= j < |updates| && updates[j] == r.value && updates[j].attendanceId == Str(id)
                                      && forall k :: 0 <= k < j ==> updates[k].attendanceId != Str(id) by {
        if r.Some? {
          var j :| 0 <= j < |updates[1..]| && updates[1..][j] == r.value && updates[1..][j].attendanceId == Str(id)
                   && forall k :: 0 <= k < j ==> updates[1..][k].attendanceId != Str(id);
          assert updates[j + 1] == r.value;
        }
      }
      r
  }

  function UpdateRows(rows: seq<Attendance>, updates: seq<AttendanceUpdate>, now: int): (r: seq<Attendance>)
    ensures |r| == |rows|
    ensures forall i :: 0 <= i < |rows| ==> r[i] == UpdateRow(rows[i], updates, now)
  {
    if rows == [] then [] else [UpdateRow(rows[0], updates, now)] + UpdateRows(rows[1..], updates, now)
  }

  /** The `WHERE id IN (?)` row filter with the two `CASE` expressions:
      status is stored as given (undefined as NULL), a falsy note as NULL. */
  function UpdateRow(row: Attendance, updates: seq<AttendanceUpdate>, now: int): Attendance {
    match CaseWhen(updates, row.id)
    case None => row
    case Some(u) => row.(status := Stored(u.status), notes := Or(u.notes, Null), updatedAt := Some(now))
  }

  /** The `updates` field of the request body: an array of entries, a
      primitive (`Undefined` when the field is absent), or some other object,
      of which only its `length` property matters. */
  datatype UpdatesBody = List(items: seq<AttendanceUpdate>) | Scalar(v: Value) | Record(length: Value)

  /** `!updates || updates.length === 0`. A non-empty string is truthy and
      its length is not 0; other primitives have no length. */
  predicate NoUpdates(body: UpdatesBody) {
    match body
    case List(items) => items == []
    case Scalar(v) => !Truthy(v)
    case Record(length) => length == Num(0)
  }

  /** The error a truthy non-array body raises: neither a primitive other
      than `null`/`undefined` nor a plain object has a `map` method. */
  const MapNotAFunction := "TypeError: updates.map is not a function"

  /** `updateAttendance`. A body that passes the emptiness test but is not an
      array throws at `updates.map`, before any write. */
  function UpdateAttendance(s: Store, updates: UpdatesBody, now: int): (r: Attempt<()>)
    ensures NoUpdates(updates) ==> r == Attempt(s, Returned(Fail("NO_UPDATES", "No attendance updates provided")))
    ensures !NoUpdates(updates) && !updates.List? ==> r == Attempt(s, Threw(MapNotAFunction))
    ensures r.outcome.Returned? <==> NoUpdates(updates) || updates.List?
    ensures !NoUpdates(updates) && updates.List? ==>
              && r.outcome == Returned(Succeed("ATTENDANCE_UPDATED", "Attendance updated successfully"))
              && r.store == s.(attendance := r.store.attendance)
              && |r.store.attendance| == |s.attendance|
              && forall i :: 0 <= i < |s.attendance| ==>
                   var old_ := s.attendance[i];
                   var new_ := r.store.attendance[i];
                   if forall j :: 0 <= j < |updates.items| ==> updates.items[j].attendanceId != Str(old_.id)
                   then new_ == old_
                   else exists j :: 0 <= j < |updates.items| && updates.items[j].attendanceId == Str(old_.id)
                          && (forall k :: 0 <= k < j ==> updates.items[k].attendanceId != Str(old_.id))
                          && new_ == old_.(status := Stored(updates.items[j].status),
                                           notes := Or(updates.items[j].notes, Null), updatedAt := Some(now))
  {
    if NoUpdates(updates) then Attempt(s, Returned(Fail("NO_UPDATES", "No attendance updates provided")))
    else
      match updates
      case List(items) =>
        Attempt(s.(attendance := UpdateRows(s.attendance, items, now)),
                Returned(Succeed("ATTENDANCE_UPDATED", "Attendance updated successfully")))
      case _ => Attempt(s, Threw(MapNotAFunction))
  }

  /** Ids that match no row change nothing, and the call still succeeds. */
  lemma UnknownIdsIgnored(s: Store, updates: seq<AttendanceUpdate>, now: int)
    requires updates != []
    requires forall i, j :: 0 <= i < |s.attendance| && 0 <= j < |updates| ==> updates[j].attendanceId != Str(s.attendance[i].id)
    ensures UpdateAttendance(s, List(updates), now) == Attempt(s, Returned(Succeed("ATTENDANCE_UPDATED", "Attendance updated successfully")))
  {
    var r := UpdateAttendance(s, List(updates), now);
    assert r.store.attendance == s.attendance;
  }

  /** Repeating the same bulk update at the same time changes nothing more. */
  lemma UpdateIdempotent(s: Store, updates: seq<AttendanceUpdate>, now: int)
    ensures var once := UpdateAttendance(s, List(updates), now).store;
            UpdateAttendance(once, List(updates), now).store == once
  {
    var once := UpdateAttendance(s, List(updates), now).store;
    if updates != [] {
      var twice := UpdateAttendance(once, List(updates), now).store;
      forall i | 0 <= i < |once.attendance|
        ensures twice.attendance[i] == once.attendance[i]
      {
        assert once.attendance[i].id == s.attendance[i].id;
      }
    }
  }

  // ---------------------------------------------------------------------
  // Statistics

  /** A row of `event_attendance JOIN events` for one group's events. */
  datatype Joined = Joined(userId: string, eventId: string, status: Value, startTime: int)

  /** The events of the group that one attendance row joins with. */
  function Matches(a: Attendance, events: seq<Event>, groupId: string): seq<Joined> {
    if events == [] then []
    else (if events[0].id == a.eventId && events[0].groupId == Some(groupId)
          then [Joined(a.userId, a.eventId, a.status, events[0].startTime)] else [])
         + Matches(a, events[1..], groupId)
  }

  /** `event_attendance ea JOIN events e ON ea.event_id = e.id WHERE e.group_id = ?`. */
  function GroupJoin(rows: seq<Attendance>, events: seq<Event>, groupId: string): seq<Joined> {
    if rows == [] then [] else Matches(rows[0], events, groupId) + GroupJoin(rows[1..], events, groupId)
  }

  /** The join `ORDER BY e.start_time DESC`; rows with equal start times keep
      storage order. */
  function NewestFirst(rows: seq<Joined>): (r: seq<Joined>)
    ensures multiset(r) == multiset(rows)
    ensures forall i, j :: 0 <= i < j < |r| ==> r[i].startTime >= r[j].startTime
  {
    var key := (j: Joined) => -j.startTime;
    var r := SortBy(rows, key);
    assert forall i, j :: 0 <= i < j < |r| ==> key(r[i]) <= key(r[j]);
    r
  }

  /** `SELECT COUNT(*) FROM events WHERE group_id = ?`. */
  function TotalEvents(events: seq<Event>, groupId: string): nat {
    if events == [] then 0
    else (if events[0].groupId == Some(groupId) then 1 else 0) + TotalEvents(events[1..], groupId)
  }

  /** The statuses of one user in an ordered join. */
  function HistoryOf(rows: seq<Joined>, userId: string): (h: seq<Value>)
    ensures |h| <= |rows|
  {
    if rows == [] then []
    else (if rows[0].userId == userId then [rows[0].status] else []) + HistoryOf(rows[1..], userId)
  }

  /** The event ids of one user's `present` rows. */
  function PresentIds(rows: seq<Joined>, userId: string): seq<string> {
    if rows == [] then []
    else (if rows[0].userId == userId && rows[0].status == Present then [rows[0].eventId] else [])
         + PresentIds(rows[1..], userId)
  }

  /** `COUNT(*) ... AND ea.status = 'present' GROUP BY ea.user_id`, 0 for a
      user without such rows. */
  function Attended(rows: seq<Joined>, userId: string): nat {
    |PresentIds(rows, userId)|
  }

  /** The streak: how many of the newest entries of a newest-first history
      are `present`, stopping at the first entry that is not. */
  function Streak(history: seq<Value>): (n: nat)
    ensures n <= |history|
    ensures forall i :: 0 <= i < n ==> history[i] == Present
    ensures n < |history| ==> history[n] != Present
  {
    if history == [] || history[0] != Present then 0 else 1 + Streak(history[1..])
  }

  /** `Math.round(attended / total * 100)`, or 0 when there are no events,
      computed exactly on integers (round half up). */
  function Percentage(attended: nat, total: nat): (p: nat)
    ensures total == 0 ==> p == 0
    ensures total > 0 ==> p * (2 * total) <= 200 * attended + total < (p + 1) * (2 * total)
    ensures attended <= total ==> p <= 100
  {
    if total == 0 then 0
    else
      var p := (200 * attended + total) / (2 * total);
      RoundedBounds(200 * attended + total, 2 * total, p);
      assert attended <= total ==> 200 * attended + total < 101 * (2 * total);
      p
  }

  /** The quotient of a Euclidean division lies between the two multiples of
      the divisor around the dividend. */
  lemma RoundedBounds(n: nat, d: nat, p: nat)
    requires d > 0 && p == n / d
    ensures p * d <= n < (p + 1) * d
    ensures n < 101 * d ==> p <= 100
  {
    assert n == d * p + n % d;
  }

  /** The reference meaning of `last_event_status`: the first truthy status
      of a newest-first history, `null` when there is none. */
  function LastStatus(history: seq<Value>): (r: Value)
    ensures r == Null || Truthy(r)
    ensures r == Null <==> forall i :: 0 <= i < |history| ==> !Truthy(history[i])
    ensures Truthy(r) ==> exists i :: 0 <= i < |history| && history[i] == r
                                     && forall j :: 0 <= j < i ==> !Truthy(history[j])
  {
    if history == [] then Null
    else if Truthy(history[0]) then history[0]
    else
      var r := LastStatus(history[1..]);
      assert Truthy(r) ==> history[1..][0] == history[1] by {
        if Truthy(r) { assert |history| > 1; }
      }
      assert Truthy(r) ==> exists i :: 1 <= i < |history| && history[i] == r
                                      && forall j :: 0 <= j < i ==> !Truthy(history[j]) by {
        if Truthy(r) {
          var i :| 0 <= i < |history[1..]| && history[1..][i] == r && forall j :: 0 <= j < i ==> !Truthy(history[1..][j]);
          assert history[i + 1] == r;
        }
      }
      r
  }

  function Lookup(m: map<string, Value>, key: string): Value {
    if key in m then m[key] else Undefined
  }

  /** The `lastStatusMap` loop: a user's entry is written while it is still falsy. */
  function Remember(m: map<string, Value>, rows: seq<Joined>): map<string, Value>
    decreases |rows|
  {
    if rows == [] then m
    else
      var row := rows[0];
      var m' := if Truthy(Lookup(m, row.userId)) then m else m[row.userId := row.status];
      Remember(m', rows[1..])
  }

  /** The loop computes the reference meaning: `lastStatusMap[u] || null` is
      the first truthy status of u's newest-first history. */
  lemma {:induction false} RememberIsLastStatus(m: map<string, Value>, rows: seq<Joined>, userId: string)
    requires !Truthy(Lookup(m, userId))
    ensures Or(Lookup(Remember(m, rows), userId), Null) == LastStatus(HistoryOf(rows, userId))
    decreases |rows|
  {
    if rows == [] {
    } else {
      var row := rows[0];
      var m' := if Truthy(Lookup(m, row.userId)) then m else m[row.userId := row.status];
      if row.userId == userId {
        assert HistoryOf(rows, userId) == [row.status] + HistoryOf(rows[1..], userId);
        if Truthy(row.status) {
          RememberKeeps(m', rows[1..], userId);
        } else {
          RememberIsLastStatus(m', rows[1..], userId);
        }
      } else {
        assert HistoryOf(rows, userId) == HistoryOf(rows[1..], userId);
        assert Lookup(m', userId) == Lookup(m, userId);
        RememberIsLastStatus(m', rows[1..], userId);
      }
    }
  }

  lemma {:induction false} RememberKeeps(m: map<string, Value>, rows: seq<Joined>, userId: string)
    requires Truthy(Lookup(m, userId))
    ensures Lookup(Remember(m, rows), userId) == Lookup(m, userId)
    decreases |rows|
  {
    if rows != [] {
      var row := rows[0];
      var m' := if Truthy(Lookup(m, row.userId)) then m else m[row.userId := row.status];
      RememberKeeps(m', rows[1..], userId);
    }
  }

  /** Per-member statistics as returned by `getAttendanceStats`. */
  datatype MemberStats = MemberStats(
    userId: string, userName: Value, totalEvents: nat, attended: nat,
    percentage: nat, lastEventStatus: Value, streak: nat)

  /** `` `${user.first_name} ${user.last_name[0]}` `` for an existing user,
      `null` for a missing one; `None` when indexing a null or missing last
      name throws. */
  function ShortName(users: map<string, Row>, userId: string): Option<Value> {
    if userId !in users then Some(Null)
    else
      var row := users[userId];
      match Column(row, "last_name")
      case Undefined => None
      case Null => None
      case Str(l) => Some(Str(Render(Column(row, "first_name")) + " " + (if l == "" then "undefined" else [l[0]])))
      case _ => Some(Str(Render(Column(row, "first_name")) + " undefined"))
  }

  /** The figures the reference definitions give for one member. */
  predicate StatsAgree(s: Store, groupId: string, userId: string, st: MemberStats) {
    var join := GroupJoin(s.attendance, s.events, groupId);
    var history := HistoryOf(NewestFirst(join), userId);
    var total := TotalEvents(s.events, groupId);
    && st.userId == userId
    && Some(st.userName) == ShortName(s.users, userId)
    && st.totalEvents == total
    && st.attended == Attended(join, userId)
    && st.percentage == Percentage(st.attended, total)
    && st.lastEventStatus == LastStatus(history)
    && st.streak == Streak(history)
  }

  /** One member's entry; `None` when building the name throws. The join,
      its newest-first order and the last-status map are the same for every
      member, so computing them here gives the same figures as computing
      them once before the loop. */
  function StatsFor(s: Store, groupId: string, u: string): (r: Option<MemberStats>)
    ensures r.None? <==> ShortName(s.users, u).None?
    ensures r.Some? ==> StatsAgree(s, groupId, u, r.value)
  {
    match ShortName(s.users, u)
    case None => None
    case Some(name) =>
      var total := TotalEvents(s.events, groupId);
      var join := GroupJoin(s.attendance, s.events, groupId);
      var ordered := NewestFirst(join);
      var lastMap := Remember(map[], ordered);
      var attended := Attended(join, u);
      RememberIsLastStatus(map[], ordered, u);
      Some(MemberStats(u, name, total, attended, Percentage(attended, total),
                       Or(Lookup(lastMap, u), Null), Streak(HistoryOf(ordered, u))))
  }

  /** The per-member loop of `getAttendanceStats`; `None` when a name throws. */
  function StatsLoop(s: Store, groupId: string, members: seq<string>): (r: Option<seq<MemberStats>>)
    ensures r.None? <==> exists i :: 0 <= i < |members| && ShortName(s.users, members[i]).None?
    ensures r.Some? ==> |r.value| == |members|
                        && forall i :: 0 <= i < |members| ==> StatsAgree(s, groupId, members[i], r.value[i])
  {
    if members == [] then Some([])
    else
      var head := StatsFor(s, groupId, members[0]);
      var rest := StatsLoop(s, groupId, members[1..]);
      assert forall i :: 1 <= i < |members| ==> members[i] == members[1..][i - 1];
      if head.None? || rest.None? then None
      else
        Sequences.PairwiseCons((u, st) => StatsAgree(s, groupId, u, st), members, head.value, rest.value);
        Some([head.value] + rest.value)
  }

  /** The error the loop stops with: reading `last_name[0]` of the first
      member whose last name is `null` or missing. */
  function NameFailure(users: map<string, Row>, members: seq<string>): (reason: string)
    ensures (exists i :: 0 <= i < |members| && ShortName(users, members[i]).None?) ==>
              exists i :: 0 <= i < |members| && ShortName(users, members[i]).None?
                && (forall k :: 0 <= k < i ==> ShortName(users, members[k]).Some?)
                && reason == CannotRead(Column(users[members[i]], "last_name"), "0")
    ensures reason in {CannotRead(Null, "0"), CannotRead(Undefined, "0")}
  {
    if members == [] then CannotRead(Undefined, "0")
    else if ShortName(users, members[0]).None? then CannotRead(Column(users[members[0]], "last_name"), "0")
    else
      var reason := NameFailure(users, members[1..]);
      assert forall i :: 1 <= i < |members| ==> members[i] == members[1..][i - 1];
      reason
  }

  /** `getAttendanceStats`: `NO_MEMBERS` with an empty list for a group
      without members, otherwise one entry per membership row, in membership
      order, each agreeing with the reference definitions. */
  function GetAttendanceStats(s: Store, groupId: string): (r: Outcome<seq<MemberStats>>)
    ensures MembersOf(s.groupMembers, groupId) == [] ==>
              r == Returned(Succeed("NO_MEMBERS", "Group has no members", Some([])))
    ensures MembersOf(s.groupMembers, groupId) != [] && r.Returned? ==>
              var members := MembersOf(s.groupMembers, groupId);
              && r.env.Success? && r.env.code == "STATS_FETCHED"
              && r.env.data.Some? && |r.env.data.value| == |members|
              && forall i :: 0 <= i < |members| ==> StatsAgree(s, groupId, members[i], r.env.data.value[i])
    ensures r.Threw? <==> exists u :: u in MembersOf(s.groupMembers, groupId) && ShortName(s.users, u).None?
    ensures r.Threw? ==> r.reason in {CannotRead(Null, "0"), CannotRead(Undefined, "0")}
  {
    var members := MembersOf(s.groupMembers, groupId);
    if members == [] then Returned(Succeed("NO_MEMBERS", "Group has no members", Some([])))
    else
      match StatsLoop(s, groupId, members)
      case None => Threw(NameFailure(s.users, members))
      case Some(stats) => Returned(Succeed("STATS_FETCHED", "Attendance stats fetched", Some(stats)))
  }

  // ---------------------------------------------------------------------
  // Properties of the statistics

  function CountPresent(history: seq<Value>): nat {
    if history == [] then 0 else (if history[0] == Present then 1 else 0) + CountPresent(history[1..])
  }

  lemma {:induction false} StreakAtMostPresent(history: seq<Value>)
    ensures Streak(history) <= CountPresent(history)
  {
    if history != [] {
      StreakAtMostPresent(history[1..]);
    }
  }

  lemma {:induction false} HistoryPresent(rows: seq<Joined>, userId: string)
    ensures CountPresent(HistoryOf(rows, userId)) == |PresentIds(rows, userId)|
  {
    if rows != [] {
      HistoryPresent(rows[1..], userId);
      var head := if rows[0].userId == userId then [rows[0].status] else [];
      assert HistoryOf(rows, userId) == head + HistoryOf(rows[1..], userId);
      CountPresentAppend(head, HistoryOf(rows[1..], userId));
    }
  }

  lemma {:induction false} CountPresentAppend(a: seq<Value>, b: seq<Value>)
    ensures CountPresent(a + b) == CountPresent(a) + CountPresent(b)
  {
    if a == [] {
      assert a + b == b;
    } else {
      assert (a + b)[1..] == a[1..] + b;
      CountPresentAppend(a[1..], b);
    }
  }

  lemma {:induction false} PresentIdsAppend(a: seq<Joined>, b: seq<Joined>, userId: string)
    ensures PresentIds(a + b, userId) == PresentIds(a, userId) + PresentIds(b, userId)
  {
    if a == [] {
      assert a + b == b;
    } else {
      assert (a + b)[1..] == a[1..] + b;
      PresentIdsAppend(a[1..], b, userId);
    }
  }

  /** Counting present rows does not depend on the order of the join. */
  lemma {:induction false} AttendedPermutation(a: seq<Joined>, b: seq<Joined>, userId: string)
    requires multiset(a) == multiset(b)
    ensures Attended(a, userId) == Attended(b, userId)
    decreases |a|
  {
    if a == [] {
      assert |multiset(b)| == 0;
    } else {
      var x := a[0];
      assert x in multiset(b);
      var i :| 0 <= i < |b| && b[i] == x;
      var b' := b[..i] + b[i + 1..];
      RemoveAtMultiset(b, i);
      assert multiset(a[1..]) == multiset(a) - multiset{x} by {
        assert a == [x] + a[1..];
      }
      AttendedPermutation(a[1..], b', userId);
      AttendedRemoveAt(b, i, userId);
      assert a == [x] + a[1..];
      PresentIdsAppend([x], a[1..], userId);
    }
  }

  /** Taking one row out of a history removes exactly its own contribution. */
  lemma AttendedRemoveAt(b: seq<Joined>, i: int, userId: string)
    requires 0 <= i < |b|
    ensures Attended(b, userId) == Attended([b[i]], userId) + Attended(b[..i] + b[i + 1..], userId)
  {
    assert b == b[..i] + [b[i]] + b[i + 1..];
    PresentIdsAppend(b[..i] + [b[i]], b[i + 1..], userId);
    PresentIdsAppend(b[..i], [b[i]], userId);
    PresentIdsAppend(b[..i], b[i + 1..], userId);
  }

  /** The streak never exceeds the attended count: both are taken over the
      same group join, and the streak only counts `present` rows. */
  lemma StreakAtMostAttended(s: Store, groupId: string, userId: string)
    ensures var join := GroupJoin(s.attendance, s.events, groupId);
            Streak(HistoryOf(NewestFirst(join), userId)) <= Attended(join, userId)
  {
    var join := GroupJoin(s.attendance, s.events, groupId);
    var ordered := NewestFirst(join);
    StreakAtMostPresent(HistoryOf(ordered, userId));
    HistoryPresent(ordered, userId);
    AttendedPermutation(ordered, join, userId);
  }

  /** Every returned member's streak is at most its attended count. */
  lemma StatsStreakBounds(s: Store, groupId: string)
    ensures var r := GetAttendanceStats(s, groupId);
            r.Returned? && r.env.data.Some? ==>
              forall st :: st in r.env.data.value ==> st.streak <= st.attended
  {
    var r := GetAttendanceStats(s, groupId);
    var members := MembersOf(s.groupMembers, groupId);
    if r.Returned? && r.env.data.Some? && members != [] {
      forall st | st in r.env.data.value
        ensures st.streak <= st.attended
      {
        var i :| 0 <= i < |r.env.data.value| && r.env.data.value[i] == st;
        StreakAtMostAttended(s, groupId, members[i]);
      }
    }
  }

  // The percentage bound needs two facts the schema is meant to keep:
  // event ids are unique, and a member has at most one row per event.

  ghost predicate UniqueEventIds(events: seq<Event>) {
    forall i, j :: 0 <= i < j < |events| ==> events[i].id != events[j].id
  }

  ghost predicate OneRowPerEventMember(rows: seq<Attendance>) {
    forall i, j :: 0 <= i < j < |rows| ==> rows[i].eventId != rows[j].eventId || rows[i].userId != rows[j].userId
  }

  function GroupEventIds(events: seq<Event>, groupId: string): (r: set<string>)
    ensures forall id :: id in r <==> exists i :: 0 <= i < |events| && events[i].id == id && events[i].groupId == Some(groupId)
  {
    if events == [] then {}
    else (if events[0].groupId == Some(groupId) then {events[0].id} else {}) + GroupEventIds(events[1..], groupId)
  }

  lemma {:induction false} TotalIsCard(events: seq<Event>, groupId: string)
    requires UniqueEventIds(events)
    ensures TotalEvents(events, groupId) == |GroupEventIds(events, groupId)|
  {
    if events != [] {
      TotalIsCard(events[1..], groupId);
      assert events[0].id !in GroupEventIds(events[1..], groupId);
    }
  }

  /** One attendance row contributes at most its own event id to a user's
      present ids, and only when that event belongs to the group. */
  lemma {:induction false} MatchesPresent(a: Attendance, events: seq<Event>, groupId: string, userId: string)
    requires UniqueEventIds(events)
    ensures var ids := PresentIds(Matches(a, events, groupId), userId);
            ids == [] || (ids == [a.eventId] && a.userId == userId && a.eventId in GroupEventIds(events, groupId))
  {
    if events != [] {
      MatchesPresent(a, events[1..], groupId, userId);
      var head := if events[0].id == a.eventId && events[0].groupId == Some(groupId)
                  then [Joined(a.userId, a.eventId, a.status, events[0].startTime)] else [];
      PresentIdsAppend(head, Matches(a, events[1..], groupId), userId);
      if head != [] {
        MatchesNone(a, events[1..], groupId);
      }
    }
  }

  lemma {:induction false} MatchesNone(a: Attendance, events: seq<Event>, groupId: string)
    requires forall i :: 0 <= i < |events| ==> events[i].id != a.eventId
    ensures Matches(a, events, groupId) == []
  {
    if events != [] {
      MatchesNone(a, events[1..], groupId);
    }
  }

  /** Every present id of a user in the join names a group event the user
      has an attendance row for. */
  lemma {:induction false} JoinIdsSource(rows: seq<Attendance>, events: seq<Event>, groupId: string, userId: string)
    requires UniqueEventIds(events)
    ensures forall id :: id in PresentIds(GroupJoin(rows, events, groupId), userId) ==>
              id in GroupEventIds(events, groupId)
              && exists k :: 0 <= k < |rows| && rows[k].userId == userId && rows[k].eventId == id
  {
    if rows != [] {
      JoinIdsSource(rows[1..], events, groupId, userId);
      MatchesPresent(rows[0], events, groupId, userId);
      PresentIdsAppend(Matches(rows[0], events, groupId), GroupJoin(rows[1..], events, groupId), userId);
      forall id | id in PresentIds(GroupJoin(rows[1..], events, groupId), userId)
        ensures exists k :: 0 <= k < |rows| && rows[k].userId == userId && rows[k].eventId == id
      {
        var k :| 0 <= k < |rows[1..]| && rows[1..][k].userId == userId && rows[1..][k].eventId == id;
        assert rows[k + 1] == rows[1..][k];
      }
    }
  }

  /** Under the schema facts a user's present ids in the join are distinct. */
  lemma {:induction false} JoinIdsDistinct(rows: seq<Attendance>, events: seq<Event>, groupId: string, userId: string)
    requires UniqueEventIds(events)
    requires OneRowPerEventMember(rows)
    ensures Distinct(PresentIds(GroupJoin(rows, events, groupId), userId))
  {
    if rows != [] {
      var head := PresentIds(Matches(rows[0], events, groupId), userId);
      var tail := PresentIds(GroupJoin(rows[1..], events, groupId), userId);
      assert OneRowPerEventMember(rows[1..]) by {
        forall i, j | 0 <= i < j < |rows[1..]|
          ensures rows[1..][i].eventId != rows[1..][j].eventId || rows[1..][i].userId != rows[1..][j].userId
        {
          assert rows[1..][i] == rows[i + 1] && rows[1..][j] == rows[j + 1];
        }
      }
      JoinIdsDistinct(rows[1..], events, groupId, userId);
      JoinIdsSource(rows[1..], events, groupId, userId);
      MatchesPresent(rows[0], events, groupId, userId);
      PresentIdsAppend(Matches(rows[0], events, groupId), GroupJoin(rows[1..], events, groupId), userId);
      forall id | id in tail
        ensures id !in head
      {
        var k :| 0 <= k < |rows[1..]| && rows[1..][k].userId == userId && rows[1..][k].eventId == id;
        assert rows[k + 1] == rows[1..][k];
      }
      DistinctConcat(head, tail);
    }
  }

  /** Under the two schema facts a member attended at most `total_events`
      events, so the percentage lies in [0, 100]. */
  lemma PercentageInRange(s: Store, groupId: string, userId: string)
    requires UniqueEventIds(s.events)
    requires OneRowPerEventMember(s.attendance)
    ensures var join := GroupJoin(s.attendance, s.events, groupId);
            && Attended(join, userId) <= TotalEvents(s.events, groupId)
            && Percentage(Attended(join, userId), TotalEvents(s.events, groupId)) <= 100
  {
    var join := GroupJoin(s.attendance, s.events, groupId);
    var ids := PresentIds(join, userId);
    JoinIdsDistinct(s.attendance, s.events, groupId, userId);
    JoinIdsSource(s.attendance, s.events, groupId, userId);
    DistinctCard(ids);
    var idSet := set x | x in ids;
    assert idSet <= GroupEventIds(s.events, groupId);
    SubsetCard(idSet, GroupEventIds(s.events, groupId));
    TotalIsCard(s.events, groupId);
  }
}

=== FILE: comcell.dfy ===
/** Community cells ("comcell" groups): creation with its leader checks,
    deletion, the leader hand-over on update, role changes, and adding and
    removing members (`services/comcellService.js`). The rule the checks
    protect is that a user has at most one membership row, so belongs to at
    most one group. */
module Comcell {
  import opened Values
  import opened Text
  import opened Response
  import opened Store
  import Sequences

  /** `if (id)`: present and not the empty string. */
  predicate Given(id: Id) {
    id.Some? && id.value != ""
  }

  /** `SELECT * FROM user WHERE id = ?` finds a row; an absent id matches none. */
  predicate UserExists(s: Store, id: Id) {
    id.Some? && id.value in s.users
  }

  /** `SELECT * FROM comcell_group_members WHERE user_id = ?` finds a row. */
  predicate Assigned(s: Store, id: Id) {
    id.Some? && InAnyGroup(s.groupMembers, id.value)
  }

  predicate GroupExists(s: Store, id: Id) {
    id.Some? && id.value in s.groups
  }

  /** The roles a membership row may hold. */
  const Roles: set<string> := {"member", "leader", "co-leader"}

  /** Every membership row holds one of the three roles. */
  predicate ValidRoles(rows: seq<GroupMember>) {
    forall i :: 0 <= i < |rows| ==> rows[i].role in Roles
  }

  /** At most one membership row per user, hence at most one group per user. */
  predicate OneGroupEach(rows: seq<GroupMember>) {
    forall i, j :: 0 <= i < j < |rows| ==> rows[i].userId != rows[j].userId
  }

  /** The exception a duplicate primary key raises in the driver. */
  const DuplicateEntry := "ER_DUP_ENTRY"

  // ---------------------------------------------------------------------
  // Shared row edits

  /** `UPDATE comcell_group_members SET role = ? WHERE group_id = ? AND user_id = ?`. */
  function SetRole(rows: seq<GroupMember>, g: string, u: string, role: string): (r: seq<GroupMember>)
    ensures |r| == |rows|
    ensures forall i :: 0 <= i < |rows| ==>
              r[i] == if rows[i].groupId == g && rows[i].userId == u then rows[i].(role := role) else rows[i]
  {
    if rows == [] then []
    else
      [if rows[0].groupId == g && rows[0].userId == u then rows[0].(role := role) else rows[0]]
      + SetRole(rows[1..], g, u, role)
  }

  /** Changing roles moves nobody between groups. */
  lemma SetRoleMembers(rows: seq<GroupMember>, g: string, u: string, role: string)
    ensures forall h, v :: IsGroupMember(SetRole(rows, g, u, role), h, v) <==> IsGroupMember(rows, h, v)
  {
    var r := SetRole(rows, g, u, role);
    forall h, v | IsGroupMember(rows, h, v)
      ensures IsGroupMember(r, h, v)
    {
      var i :| 0 <= i < |rows| && rows[i].groupId == h && rows[i].userId == v;
      assert r[i].groupId == h && r[i].userId == v;
    }
  }

  /** Changing roles keeps the rule, and keeps roles valid when the new role
      is one of the three. */
  lemma SetRoleKeeps(rows: seq<GroupMember>, g: string, u: string, role: string)
    ensures OneGroupEach(rows) ==> OneGroupEach(SetRole(rows, g, u, role))
    ensures ValidRoles(rows) && role in Roles ==> ValidRoles(SetRole(rows, g, u, role))
  {
    var r := SetRole(rows, g, u, role);
    assert forall i :: 0 <= i < |rows| ==> r[i].userId == rows[i].userId;
  }

  /** After the update every row of that member holds the new role. */
  predicate HasRole(rows: seq<GroupMember>, g: string, u: string, role: string) {
    && IsGroupMember(rows, g, u)
    && forall i :: 0 <= i < |rows| && rows[i].groupId == g && rows[i].userId == u ==> rows[i].role == role
  }

  lemma SetRoleHasRole(rows: seq<GroupMember>, g: string, u: string, role: string)
    requires IsGroupMember(rows, g, u)
    ensures HasRole(SetRole(rows, g, u, role), g, u, role)
  {
    SetRoleMembers(rows, g, u, role);
  }

  /** `DELETE FROM comcell_group_members WHERE group_id = ? AND user_id = ?`. */
  function Without(rows: seq<GroupMember>, g: string, u: string): (r: seq<GroupMember>)
    ensures |r| <= |rows|
    ensures forall m :: m in r <==> m in rows && !(m.groupId == g && m.userId == u)
  {
    if rows == [] then []
    else (if rows[0].groupId == g && rows[0].userId == u then [] else [rows[0]]) + Without(rows[1..], g, u)
  }

  /** Deleting rows keeps the rule and the role whitelist. */
  lemma {:induction false} WithoutKeeps(rows: seq<GroupMember>, g: string, u: string)
    ensures OneGroupEach(rows) ==> OneGroupEach(Without(rows, g, u))
    ensures ValidRoles(rows) ==> ValidRoles(Without(rows, g, u))
  {
    if rows != [] {
      var rest := Without(rows[1..], g, u);
      WithoutKeeps(rows[1..], g, u);
      if OneGroupEach(rows) {
        assert OneGroupEach(rows[1..]) by {
          forall i, j | 0 <= i < j < |rows[1..]|
            ensures rows[1..][i].userId != rows[1..][j].userId
          {
            assert rows[1..][i] == rows[i + 1] && rows[1..][j] == rows[j + 1];
          }
        }
        assert forall m :: m in rest ==> m.userId != rows[0].userId by {
          forall m | m in rest
            ensures m.userId != rows[0].userId
          {
            var k :| 0 <= k < |rows[1..]| && rows[1..][k] == m;
            assert rows[k + 1] == m;
          }
        }
        if !(rows[0].groupId == g && rows[0].userId == u) {
          OneGroupEachCons(rows[0], rest);
        } else {
          assert Without(rows, g, u) == rest;
        }
      }
      if ValidRoles(rows) {
        assert ValidRoles(rows[1..]) by {
          forall i | 0 <= i < |rows[1..]|
            ensures rows[1..][i].role in Roles
          {
            assert rows[1..][i] == rows[i + 1];
          }
        }
        var r := Without(rows, g, u);
        forall i | 0 <= i < |r|
          ensures r[i].role in Roles
        {
          assert r[i] in r;
        }
      }
    }
  }

  lemma OneGroupEachCons(m: GroupMember, rest: seq<GroupMember>)
    requires OneGroupEach(rest)
    requires forall x :: x in rest ==> x.userId != m.userId
    ensures OneGroupEach([m] + rest)
  {
    var r := [m] + rest;
    forall i, j | 0 <= i < j < |r|
      ensures r[i].userId != r[j].userId
    {
      assert r[j] == rest[j - 1];
      if i > 0 {
        assert r[i] == rest[i - 1];
      } else {
        assert rest[j - 1] in rest;
      }
    }
  }

  /** Appending rows for users that have no row yet, none twice, keeps the rule. */
  lemma AppendKeeps(rows: seq<GroupMember>, added: seq<GroupMember>)
    requires OneGroupEach(rows) && OneGroupEach(added)
    requires forall i :: 0 <= i < |added| ==> !InAnyGroup(rows, added[i].userId)
    ensures OneGroupEach(rows + added)
  {
    var r := rows + added;
    forall i, j | 0 <= i < j < |r|
      ensures r[i].userId != r[j].userId
    {
      if j >= |rows| {
        assert r[j] == added[j - |rows|];
        if i >= |rows| {
          assert r[i] == added[i - |rows|];
        } else {
          assert r[i] == rows[i];
        }
      }
    }
  }

  // ---------------------------------------------------------------------
  // createComcellGroup

  /** `` `Group-${uuidv4().split("-")[0]}` ``: the prefix and the first
      segment of the fresh UUID, which holds no `-`. */
  function GroupId(u: string): (id: string)
    ensures |id| >= 6 && id[..6] == "Group-" && '-' !in id[6..]
  {
    var first := Split(u, '-')[0];
    assert ("Group-" + first)[6..] == first;
    "Group-" + first
  }

  /** For a UUID `p-rest` the group id is `Group-p`. */
  lemma GroupIdOfUuid(p: string, rest: string)
    requires '-' !in p
    ensures GroupId(p + "-" + rest) == "Group-" + p
  {
    SplitAfterPrefix(p, rest, '-');
  }

  /** Every check of group creation passes: the leader exists and has no
      membership row; a given co-leader likewise, and is not the leader. */
  predicate Eligible(s: Store, leaderId: Id, coLeaderId: Id) {
    && UserExists(s, leaderId) && !Assigned(s, leaderId)
    && (Given(coLeaderId) ==> UserExists(s, coLeaderId) && !Assigned(s, coLeaderId) && leaderId != coLeaderId)
  }

  /** The membership rows a creation inserts: the leader's, then the co-leader's if given. */
  function FoundingRows(groupId: string, leader: string, coLeaderId: Id): seq<GroupMember> {
    [GroupMember(groupId, leader, "leader")]
    + (if Given(coLeaderId) then [GroupMember(groupId, coLeaderId.value, "co-leader")] else [])
  }

  /** `createComcellGroup`. The checks run in order and the first failure is
      returned with nothing written. The group and founding rows are written
      without a transaction; a non-empty `memberIds` then calls a helper that
      does not exist, so the call throws with those rows already stored. */
  function CreateGroup(s: Store, name: Value, category: Value, leaderId: Id, coLeaderId: Id,
                       description: Value, memberIds: seq<Id>, uuid: Uuid): (r: Attempt<string>)
    ensures !UserExists(s, leaderId) ==> r == Attempt(s, Returned(Fail("LEADER_NOT_FOUND", "Leader user not found")))
    ensures UserExists(s, leaderId) && Assigned(s, leaderId) ==>
              r == Attempt(s, Returned(Fail("LEADER_ALREADY_ASSIGNED", "Leader already belongs to a group")))
    ensures !Eligible(s, leaderId, coLeaderId) ==>
              && r.store == s && r.outcome.Returned? && !r.outcome.env.Ok()
              && (UserExists(s, leaderId) && !Assigned(s, leaderId) ==>
                    r.outcome.env.code in {"COLEADER_NOT_FOUND", "COLEADER_ALREADY_ASSIGNED", "DUPLICATE_LEADER"})
    ensures r.outcome.Returned? && r.outcome.env.Ok() <==>
              Eligible(s, leaderId, coLeaderId) && GroupId(uuid(0)) !in s.groups && memberIds == []
    ensures r.outcome.Returned? && r.outcome.env.Ok() ==> r.outcome.env.data == Some(GroupId(uuid(0)))
    ensures r.outcome.Returned? && r.outcome.env.Ok() ==>
              && Eligible(s, leaderId, coLeaderId) && leaderId.Some?
              && r.store == s.(groups := s.groups[GroupId(uuid(0)) := Group(Stored(name), Stored(category), Stored(description), leaderId, coLeaderId)],
                               groupMembers := s.groupMembers + FoundingRows(GroupId(uuid(0)), leaderId.value, coLeaderId))
    ensures r.store != s ==>
              && Eligible(s, leaderId, coLeaderId)
              && var id := GroupId(uuid(0));
              && id !in s.groups
              && r.store == s.(groups := s.groups[id := Group(Stored(name), Stored(category), Stored(description), leaderId, coLeaderId)],
                               groupMembers := s.groupMembers + FoundingRows(id, leaderId.value, coLeaderId))
  {
    if !UserExists(s, leaderId) then Attempt(s, Returned(Fail("LEADER_NOT_FOUND", "Leader user not found")))
    else if Assigned(s, leaderId) then Attempt(s, Returned(Fail("LEADER_ALREADY_ASSIGNED", "Leader already belongs to a group")))
    else if Given(coLeaderId) && !UserExists(s, coLeaderId) then
      Attempt(s, Returned(Fail("COLEADER_NOT_FOUND", "Co-Leader user not found")))
    else if Given(coLeaderId) && Assigned(s, coLeaderId) then
      Attempt(s, Returned(Fail("COLEADER_ALREADY_ASSIGNED", "Co-Leader already belongs to a group")))
    else if Given(coLeaderId) && leaderId == coLeaderId then
      Attempt(s, Returned(Fail("DUPLICATE_LEADER", "Leader and Co-Leader cannot be the same user")))
    else
      var id := GroupId(uuid(0));
      if id in s.groups then Attempt(s, Threw(DuplicateEntry))
      else
        var s' := s.(groups := s.groups[id := Group(Stored(name), Stored(category), Stored(description), leaderId, coLeaderId)],
                     groupMembers := s.groupMembers + FoundingRows(id, leaderId.value, coLeaderId));
        assert s' != s by {
          assert |s'.groupMembers| > |s.groupMembers|;
        }
        if |memberIds| > 0 then Attempt(s', Threw("ReferenceError: addMembersToComcellGroup is not defined"))
        else Attempt(s', Returned(Succeed("GROUP_CREATED", "Comcell group created successfully", Some(id))))
  }

  /** Creation keeps every user in at most one group and every role valid,
      whatever it returns. */
  lemma CreateKeepsRule(s: Store, name: Value, category: Value, leaderId: Id, coLeaderId: Id,
                        description: Value, memberIds: seq<Id>, uuid: Uuid)
    requires OneGroupEach(s.groupMembers) && ValidRoles(s.groupMembers)
    ensures var r := CreateGroup(s, name, category, leaderId, coLeaderId, description, memberIds, uuid);
            OneGroupEach(r.store.groupMembers) && ValidRoles(r.store.groupMembers)
  {
    var r := CreateGroup(s, name, category, leaderId, coLeaderId, description, memberIds, uuid);
    if r.store != s {
      FoundingKeeps(s.groupMembers, GroupId(uuid(0)), leaderId.value, coLeaderId);
    }
  }

  lemma FoundingKeeps(rows: seq<GroupMember>, id: string, leader: string, coLeaderId: Id)
    requires OneGroupEach(rows) && ValidRoles(rows) && !InAnyGroup(rows, leader)
    requires Given(coLeaderId) ==> !InAnyGroup(rows, coLeaderId.value) && coLeaderId.value != leader
    ensures OneGroupEach(rows + FoundingRows(id, leader, coLeaderId))
    ensures ValidRoles(rows + FoundingRows(id, leader, coLeaderId))
  {
    var added := FoundingRows(id, leader, coLeaderId);
    assert forall i :: 0 <= i < |added| ==> added[i].userId == leader || (Given(coLeaderId) && added[i].userId == coLeaderId.value);
    AppendKeeps(rows, added);
    var all := rows + added;
    forall i | 0 <= i < |all|
      ensures all[i].role in Roles
    {
      if i >= |rows| {
        assert all[i] == added[i - |rows|];
      } else {
        assert all[i] == rows[i];
      }
    }
  }

  // ---------------------------------------------------------------------
  // deleteComcellGroup

  /** `deleteComcellGroup`: only the group row is deleted; membership rows
      are left to the schema. */
  function DeleteGroup(s: Store, groupId: string): (r: Reply<()>)
    ensures groupId !in s.groups ==> r == Reply(s, Fail("GROUP_NOT_FOUND", "No group with that id found"))
    ensures groupId in s.groups ==>
              && r.env == Succeed("GROUP_DELETED", "Comcell group deleted successfully")
              && r.store.groups.Keys == s.groups.Keys - {groupId}
              && (forall g :: g in r.store.groups ==> r.store.groups[g] == s.groups[g])
              && r.store == s.(groups := r.store.groups)
  {
    if groupId !in s.groups then Reply(s, Fail("GROUP_NOT_FOUND", "No group with that id found"))
    else Reply(s.(groups := s.groups - {groupId}), Succeed("GROUP_DELETED", "Comcell group deleted successfully"))
  }

  /** Deleting twice: the second call finds nothing and changes nothing. */
  lemma DeleteTwice(s: Store, groupId: string)
    requires groupId in s.groups
    ensures var once := DeleteGroup(s, groupId).store;
            DeleteGroup(once, groupId) == Reply(once, Fail("GROUP_NOT_FOUND", "No group with that id found"))
  {
  }

  // ---------------------------------------------------------------------
  // updateComcellGroup

  /** The body of an update request. */
  datatype GroupEdit = GroupEdit(name: Value, category: Value, leaderId: Id, coLeaderId: Id, description: Value)

  /** Make `u` hold `role` in group `g`: promote the existing row, or insert one. */
  function Promote(rows: seq<GroupMember>, g: string, u: string, role: string): (r: seq<GroupMember>)
    ensures HasRole(r, g, u, role)
  {
    if IsGroupMember(rows, g, u) then
      SetRoleHasRole(rows, g, u, role);
      SetRole(rows, g, u, role)
    else
      var r := rows + [GroupMember(g, u, role)];
      assert r[|rows|].groupId == g && r[|rows|].userId == u;
      assert forall i :: 0 <= i < |rows| ==> r[i] == rows[i];
      r
  }

  /** The rows after an edit of group `g` only: every earlier row keeps its
      place, group and user, the rows of other groups are untouched, and any
      added row belongs to `g`. */
  predicate EditsGroupOnly(rows: seq<GroupMember>, r: seq<GroupMember>, g: string) {
    && |r| >= |rows|
    && (forall i :: 0 <= i < |rows| ==>
          r[i].groupId == rows[i].groupId && r[i].userId == rows[i].userId
          && (rows[i].groupId != g ==> r[i] == rows[i]))
    && (forall i :: |rows| <= i < |r| ==> r[i].groupId == g)
  }

  lemma EditsGroupOnlyTrans(a: seq<GroupMember>, b: seq<GroupMember>, c: seq<GroupMember>, g: string)
    requires EditsGroupOnly(a, b, g) && EditsGroupOnly(b, c, g)
    ensures EditsGroupOnly(a, c, g)
  {
  }

  lemma SetRoleEditsGroup(rows: seq<GroupMember>, g: string, u: string, role: string)
    ensures EditsGroupOnly(rows, SetRole(rows, g, u, role), g)
  {
  }

  lemma PromoteEditsGroup(rows: seq<GroupMember>, g: string, u: string, role: string)
    ensures EditsGroupOnly(rows, Promote(rows, g, u, role), g)
  {
    if !IsGroupMember(rows, g, u) {
      var r := Promote(rows, g, u, role);
      assert forall i :: 0 <= i < |rows| ==> r[i] == rows[i];
    }
  }

  /** An edit of group `g` that touches only the users in `us`: rows of
      other users are unchanged, and every added row is one of theirs. */
  predicate OnlyTouches(rows: seq<GroupMember>, r: seq<GroupMember>, g: string, us: set<string>) {
    && EditsGroupOnly(rows, r, g)
    && (forall i :: 0 <= i < |rows| && rows[i].userId !in us ==> r[i] == rows[i])
    && (forall i :: |rows| <= i < |r| ==> r[i].userId in us)
  }

  lemma OnlyTouchesTrans(a: seq<GroupMember>, b: seq<GroupMember>, c: seq<GroupMember>, g: string, us: set<string>, vs: set<string>)
    requires OnlyTouches(a, b, g, us) && OnlyTouches(b, c, g, vs)
    ensures OnlyTouches(a, c, g, us + vs)
  {
    EditsGroupOnlyTrans(a, b, c, g);
  }

  lemma SetRoleTouches(rows: seq<GroupMember>, g: string, u: string, role: string)
    ensures OnlyTouches(rows, SetRole(rows, g, u, role), g, {u})
  {
  }

  lemma PromoteTouches(rows: seq<GroupMember>, g: string, u: string, role: string)
    ensures OnlyTouches(rows, Promote(rows, g, u, role), g, {u})
  {
    PromoteEditsGroup(rows, g, u, role);
  }

  /** A user outside the touched set keeps the role they held. */
  lemma TouchesKeepsRole(rows: seq<GroupMember>, r: seq<GroupMember>, g: string, us: set<string>, v: string, role: string)
    requires OnlyTouches(rows, r, g, us) && v !in us && HasRole(rows, g, v, role)
    ensures HasRole(r, g, v, role)
  {
    var i :| 0 <= i < |rows| && rows[i].groupId == g && rows[i].userId == v;
    assert r[i] == rows[i];
  }

  lemma DemotedHasRole(rows: seq<GroupMember>, g: string, prev: Id)
    ensures Given(prev) && IsGroupMember(rows, g, prev.value) ==> HasRole(Demoted(rows, g, prev), g, prev.value, "member")
  {
    if Given(prev) && IsGroupMember(rows, g, prev.value) {
      SetRoleHasRole(rows, g, prev.value, "member");
    }
  }

  /** The insert the promotion issues for a user without a row of the group
      (`INSERT INTO comcell_group_members (group_id, user_id, role, created_at,
      update_at)`) names no `id` and no `join_at`, unlike every other insert
      into that table. Whether the database accepts it depends on the schema,
      which is outside the model, so it is a parameter: `inserts` holds when
      it is accepted. */
  predicate PromoteFails(rows: seq<GroupMember>, g: string, next: Id, inserts: bool) {
    Given(next) && !IsGroupMember(rows, g, next.value) && !inserts
  }

  /** The previous holder demoted to `member`, if there was one. */
  function Demoted(rows: seq<GroupMember>, g: string, prev: Id): seq<GroupMember> {
    if Given(prev) then SetRole(rows, g, prev.value, "member") else rows
  }

  /** One role hand-over as the service writes it: demote the previous
      holder to `member`, then promote the new one. The flag is false when the
      promoting insert is rejected, after the demotion was written. */
  function Handover(rows: seq<GroupMember>, g: string, prev: Id, next: Id, role: string, inserts: bool): (h: (seq<GroupMember>, bool))
    ensures h.1 <==> !PromoteFails(rows, g, next, inserts)
    ensures EditsGroupOnly(rows, h.0, g)
    ensures |h.0| <= |rows| + 1
    ensures h.1 && Given(next) ==> HasRole(h.0, g, next.value, role)
    ensures !h.1 ==> h.0 == Demoted(rows, g, prev)
    ensures OnlyTouches(rows, h.0, g, {prev.GetOr(""), next.GetOr("")})
    ensures h.1 && Given(prev) && IsGroupMember(rows, g, prev.value) && prev != next ==>
              HasRole(h.0, g, prev.value, "member")
  {
    var demoted := Demoted(rows, g, prev);
    var us := {prev.GetOr(""), next.GetOr("")};
    SetRoleMembers(rows, g, prev.GetOr(""), "member");
    SetRoleEditsGroup(rows, g, prev.GetOr(""), "member");
    SetRoleTouches(rows, g, prev.GetOr(""), "member");
    assert OnlyTouches(rows, demoted, g, {prev.GetOr("")});
    DemotedHasRole(rows, g, prev);
    if Given(next) then
      if !IsGroupMember(demoted, g, next.value) && !inserts then (demoted, false)
      else
        var promoted := Promote(demoted, g, next.value, role);
        PromoteEditsGroup(demoted, g, next.value, role);
        EditsGroupOnlyTrans(rows, demoted, promoted, g);
        PromoteTouches(demoted, g, next.value, role);
        OnlyTouchesTrans(rows, demoted, promoted, g, {prev.GetOr("")}, {next.value});
        PromoteKeepsOthers(demoted, g, next.value, role, prev.GetOr(""), "member");
        (promoted, true)
    else (demoted, true)
  }

  /** The group row an update writes. */
  function Edited(e: GroupEdit): Group {
    Group(Stored(e.name), Stored(e.category), Stored(e.description), e.leaderId, e.coLeaderId)
  }

  /** The exception every failure inside the update's `try` ends in: the
      caught error shadows the `error` helper. */
  const ErrorShadowed := "TypeError: error is not a function"

  /** The membership writes of an update: the leader hand-over when the
      leader changes, then, unless that failed, the co-leader hand-over when
      the co-leader changes. */
  function UpdateRows(rows: seq<GroupMember>, g: string, cur: Group, e: GroupEdit, inserts: bool): (u: (seq<GroupMember>, bool))
    ensures EditsGroupOnly(rows, u.0, g) && |u.0| <= |rows| + 2
    ensures OnlyTouches(rows, u.0, g, Touched(cur, e))
    ensures inserts ==> u.1
  {
    var h1 := if e.leaderId != cur.leaderId then Handover(rows, g, cur.leaderId, e.leaderId, "leader", inserts) else (rows, true);
    var us1 := if e.leaderId != cur.leaderId then {cur.leaderId.GetOr(""), e.leaderId.GetOr("")} else {};
    assert OnlyTouches(rows, h1.0, g, us1);
    if !h1.1 then h1
    else
      var h2 := if e.coLeaderId != cur.coLeaderId then Handover(h1.0, g, cur.coLeaderId, e.coLeaderId, "co-leader", inserts) else (h1.0, true);
      var us2 := if e.coLeaderId != cur.coLeaderId then {cur.coLeaderId.GetOr(""), e.coLeaderId.GetOr("")} else {};
      assert OnlyTouches(h1.0, h2.0, g, us2);
      EditsGroupOnlyTrans(rows, h1.0, h2.0, g);
      OnlyTouchesTrans(rows, h1.0, h2.0, g, us1, us2);
      h2
  }

  /** After a successful update each outgoing holder is left a plain
      member, unless the other hand-over promotes them again. */
  lemma UpdateRowsDemotes(rows: seq<GroupMember>, g: string, cur: Group, e: GroupEdit, inserts: bool)
    ensures var u := UpdateRows(rows, g, cur, e, inserts);
            && (u.1 && e.leaderId != cur.leaderId && Given(cur.leaderId) && IsGroupMember(rows, g, cur.leaderId.value)
                && (e.coLeaderId != cur.coLeaderId ==> e.coLeaderId != cur.leaderId) ==>
                  HasRole(u.0, g, cur.leaderId.value, "member"))
            && (u.1 && e.coLeaderId != cur.coLeaderId && Given(cur.coLeaderId) && IsGroupMember(rows, g, cur.coLeaderId.value) ==>
                  HasRole(u.0, g, cur.coLeaderId.value, "member"))
  {
    var h1 := if e.leaderId != cur.leaderId then Handover(rows, g, cur.leaderId, e.leaderId, "leader", inserts) else (rows, true);
    if h1.1 {
      var h2 := if e.coLeaderId != cur.coLeaderId then Handover(h1.0, g, cur.coLeaderId, e.coLeaderId, "co-leader", inserts) else (h1.0, true);
      var us2 := if e.coLeaderId != cur.coLeaderId then {cur.coLeaderId.GetOr(""), e.coLeaderId.GetOr("")} else {};
      assert OnlyTouches(h1.0, h2.0, g, us2);
      EditsKeepsMember(rows, h1.0, g, cur.coLeaderId.GetOr(""));
      LeaderStaysDemoted(h1.0, h2.0, g, cur, e, us2);
    }
  }

  /** The users whose rows an update may touch: the outgoing and incoming
      holder of each role that changes. */
  function Touched(cur: Group, e: GroupEdit): (us: set<string>)
    ensures e.leaderId != cur.leaderId ==> cur.leaderId.GetOr("") in us && e.leaderId.GetOr("") in us
    ensures e.coLeaderId != cur.coLeaderId ==> cur.coLeaderId.GetOr("") in us && e.coLeaderId.GetOr("") in us
    ensures forall v :: v in us ==>
              || (e.leaderId != cur.leaderId && (v == cur.leaderId.GetOr("") || v == e.leaderId.GetOr("")))
              || (e.coLeaderId != cur.coLeaderId && (v == cur.coLeaderId.GetOr("") || v == e.coLeaderId.GetOr("")))
  {
    (if e.leaderId != cur.leaderId then {cur.leaderId.GetOr(""), e.leaderId.GetOr("")} else {})
    + (if e.coLeaderId != cur.coLeaderId then {cur.coLeaderId.GetOr(""), e.coLeaderId.GetOr("")} else {})
  }

  lemma EditsKeepsMember(rows: seq<GroupMember>, r: seq<GroupMember>, g: string, v: string)
    requires EditsGroupOnly(rows, r, g)
    ensures IsGroupMember(rows, g, v) ==> IsGroupMember(r, g, v)
  {
    if IsGroupMember(rows, g, v) {
      var i :| 0 <= i < |rows| && rows[i].groupId == g && rows[i].userId == v;
      assert r[i].groupId == g && r[i].userId == v;
    }
  }

  /** The outgoing leader, demoted by the first hand-over, stays a member
      through the co-leader hand-over unless it promotes them. */
  lemma LeaderStaysDemoted(h1: seq<GroupMember>, h2: seq<GroupMember>, g: string, cur: Group, e: GroupEdit, us2: set<string>)
    requires OnlyTouches(h1, h2, g, us2)
    requires us2 == if e.coLeaderId != cur.coLeaderId then {cur.coLeaderId.GetOr(""), e.coLeaderId.GetOr("")} else {}
    requires e.coLeaderId != cur.coLeaderId && Given(cur.coLeaderId) && IsGroupMember(h1, g, cur.coLeaderId.value) ==>
               HasRole(h2, g, cur.coLeaderId.value, "member")
    ensures Given(cur.leaderId) && HasRole(h1, g, cur.leaderId.value, "member")
            && (e.coLeaderId != cur.coLeaderId ==> e.coLeaderId != cur.leaderId) ==>
              HasRole(h2, g, cur.leaderId.value, "member")
  {
    if Given(cur.leaderId) && HasRole(h1, g, cur.leaderId.value, "member")
       && (e.coLeaderId != cur.coLeaderId ==> e.coLeaderId != cur.leaderId) {
      var v := cur.leaderId.value;
      if v !in us2 {
        TouchesKeepsRole(h1, h2, g, us2, v, "member");
      }
    }
  }

  /** `updateComcellGroup` as written: no transaction; the group row is
      written first, then the leader hand-over runs completely before the
      co-leader hand-over. A rejected promoting insert stops the update with
      the writes made so far left in place. */
  function UpdateGroup(s: Store, groupId: string, e: GroupEdit, inserts: bool): (r: Attempt<()>)
    ensures groupId !in s.groups ==> r == Attempt(s, Returned(Fail("GROUP_NOT_FOUND", "No group with that id found")))
    ensures groupId in s.groups ==>
              && r.store == s.(groups := s.groups[groupId := Edited(e)], groupMembers := r.store.groupMembers)
              && EditsGroupOnly(s.groupMembers, r.store.groupMembers, groupId)
              && OnlyTouches(s.groupMembers, r.store.groupMembers, groupId, Touched(s.groups[groupId], e))
              && |r.store.groupMembers| <= |s.groupMembers| + 2
              && (r.outcome.Returned? ==> r.outcome.env == Succeed("GROUP_UPDATED", "Comcell group updated successfully"))
              && (r.outcome.Threw? ==> r.outcome.reason == ErrorShadowed && !inserts)
    ensures groupId in s.groups && inserts ==> r.outcome.Returned?
  {
    if groupId !in s.groups then Attempt(s, Returned(Fail("GROUP_NOT_FOUND", "No group with that id found")))
    else
      var u := UpdateRows(s.groupMembers, groupId, s.groups[groupId], e, inserts);
      Attempt(s.(groups := s.groups[groupId := Edited(e)], groupMembers := u.0),
              if u.1 then Returned(Succeed("GROUP_UPDATED", "Comcell group updated successfully")) else Threw(ErrorShadowed))
  }

  /** A new leader without a row of the group, when the promoting insert is
      rejected: the update throws with the group row written and the previous
      leader already demoted, and the co-leader left alone. */
  lemma UpdateInsertRejected(s: Store, groupId: string, e: GroupEdit)
    requires groupId in s.groups && e.leaderId != s.groups[groupId].leaderId
    requires PromoteFails(s.groupMembers, groupId, e.leaderId, false)
    ensures UpdateGroup(s, groupId, e, false)
            == Attempt(s.(groups := s.groups[groupId := Edited(e)],
                          groupMembers := Demoted(s.groupMembers, groupId, s.groups[groupId].leaderId)),
                       Threw(ErrorShadowed))
  {
  }

  /** On success the new co-leader holds `co-leader`, and the new leader
      holds `leader` unless the co-leader hand-over touches the same user. */
  lemma UpdateGroupRoles(s: Store, groupId: string, e: GroupEdit, inserts: bool)
    requires groupId in s.groups && UpdateGroup(s, groupId, e, inserts).outcome.Returned?
    ensures var cur := s.groups[groupId];
            var rows := UpdateGroup(s, groupId, e, inserts).store.groupMembers;
            && (e.coLeaderId != cur.coLeaderId && Given(e.coLeaderId) ==> HasRole(rows, groupId, e.coLeaderId.value, "co-leader"))
            && (e.leaderId != cur.leaderId && Given(e.leaderId)
                && (e.coLeaderId != cur.coLeaderId ==> cur.coLeaderId != e.leaderId && e.coLeaderId != e.leaderId) ==>
                  HasRole(rows, groupId, e.leaderId.value, "leader"))
            && (e.leaderId != cur.leaderId && Given(cur.leaderId) && IsGroupMember(s.groupMembers, groupId, cur.leaderId.value)
                && (e.coLeaderId != cur.coLeaderId ==> e.coLeaderId != cur.leaderId) ==>
                  HasRole(rows, groupId, cur.leaderId.value, "member"))
            && (e.coLeaderId != cur.coLeaderId && Given(cur.coLeaderId) && IsGroupMember(s.groupMembers, groupId, cur.coLeaderId.value) ==>
                  HasRole(rows, groupId, cur.coLeaderId.value, "member"))
  {
    UpdateRowsDemotes(s.groupMembers, groupId, s.groups[groupId], e, inserts);
    UpdateRowsPromotes(s.groupMembers, groupId, s.groups[groupId], e, inserts);
  }

  /** After a successful update each incoming holder holds their role,
      unless the co-leader hand-over overwrites the new leader's. */
  lemma UpdateRowsPromotes(rows: seq<GroupMember>, g: string, cur: Group, e: GroupEdit, inserts: bool)
    ensures var u := UpdateRows(rows, g, cur, e, inserts);
            && (u.1 && e.coLeaderId != cur.coLeaderId && Given(e.coLeaderId) ==> HasRole(u.0, g, e.coLeaderId.value, "co-leader"))
            && (u.1 && e.leaderId != cur.leaderId && Given(e.leaderId)
                && (e.coLeaderId != cur.coLeaderId ==> cur.coLeaderId != e.leaderId && e.coLeaderId != e.leaderId) ==>
                  HasRole(u.0, g, e.leaderId.value, "leader"))
  {
    var h1 := if e.leaderId != cur.leaderId then Handover(rows, g, cur.leaderId, e.leaderId, "leader", inserts) else (rows, true);
    if h1.1 && e.leaderId != cur.leaderId && Given(e.leaderId) && e.coLeaderId != cur.coLeaderId
       && cur.coLeaderId != e.leaderId && e.coLeaderId != e.leaderId {
      var u := e.leaderId.value;
      var demoted := Demoted(h1.0, g, cur.coLeaderId);
      if Given(cur.coLeaderId) {
        SetRoleOther(h1.0, g, cur.coLeaderId.value, "member", u, "leader");
      }
      if Given(e.coLeaderId) {
        PromoteKeepsOthers(demoted, g, e.coLeaderId.value, "co-leader", u, "leader");
      }
    }
  }

  /** Swapping the leader and the co-leader leaves the new leader with the
      role `member`: the co-leader hand-over demotes the previous co-leader,
      who was promoted to leader one step earlier. */
  lemma SwapDemotesNewLeader(s: Store, groupId: string, e: GroupEdit, a: string, b: string, inserts: bool)
    requires groupId in s.groups
    requires s.groups[groupId].leaderId == Some(a) && s.groups[groupId].coLeaderId == Some(b)
    requires a != b && a != "" && b != ""
    requires IsGroupMember(s.groupMembers, groupId, a) && IsGroupMember(s.groupMembers, groupId, b)
    requires e.leaderId == Some(b) && e.coLeaderId == Some(a)
    ensures UpdateGroup(s, groupId, e, inserts).outcome.Returned?
    ensures HasRole(UpdateGroup(s, groupId, e, inserts).store.groupMembers, groupId, b, "member")
    ensures HasRole(UpdateGroup(s, groupId, e, inserts).store.groupMembers, groupId, a, "co-leader")
  {
    SwapRows(s.groupMembers, groupId, s.groups[groupId], e, a, b, inserts);
  }

  /** The membership writes of the swap: `b` ends as `member`, `a` as `co-leader`. */
  lemma SwapRows(rows: seq<GroupMember>, g: string, cur: Group, e: GroupEdit, a: string, b: string, inserts: bool)
    requires cur.leaderId == Some(a) && cur.coLeaderId == Some(b)
    requires a != b && a != "" && b != ""
    requires IsGroupMember(rows, g, a) && IsGroupMember(rows, g, b)
    requires e.leaderId == Some(b) && e.coLeaderId == Some(a)
    ensures var u := UpdateRows(rows, g, cur, e, inserts);
            u.1 && HasRole(u.0, g, b, "member") && HasRole(u.0, g, a, "co-leader")
  {
    var rows1 := HandoverToMember(rows, g, a, b, "leader", inserts);
    var rows2 := HandoverToMember(rows1, g, b, a, "co-leader", inserts);
    var demoted := SetRole(rows1, g, b, "member");
    SetRoleHasRole(rows1, g, b, "member");
    SetRoleOther(demoted, g, a, "co-leader", b, "member");
  }

  /** A hand-over to a user who already has a row of the group is two role changes. */
  lemma HandoverToMember(rows: seq<GroupMember>, g: string, prev: string, next: string, role: string, inserts: bool)
      returns (r: seq<GroupMember>)
    requires prev != "" && next != "" && IsGroupMember(rows, g, next)
    ensures Handover(rows, g, Some(prev), Some(next), role, inserts) == (r, true)
    ensures r == SetRole(SetRole(rows, g, prev, "member"), g, next, role)
    ensures forall h, v :: IsGroupMember(r, h, v) <==> IsGroupMember(rows, h, v)
  {
    var demoted := SetRole(rows, g, prev, "member");
    SetRoleMembers(rows, g, prev, "member");
    SetRoleMembers(demoted, g, next, role);
    r := SetRole(demoted, g, next, role);
  }

  /** A role change of one user leaves another user's rows alone. */
  lemma SetRoleOther(rows: seq<GroupMember>, g: string, u: string, role: string, v: string, vrole: string)
    requires u != v && HasRole(rows, g, v, vrole)
    ensures HasRole(SetRole(rows, g, u, role), g, v, vrole)
  {
    SetRoleMembers(rows, g, u, role);
  }

  /** The update with the hand-overs ordered as intended: both previous
      holders are demoted before either new holder is promoted. */
  function UpdateGroupFixed(s: Store, groupId: string, e: GroupEdit): (r: Reply<()>)
    ensures groupId !in s.groups ==> r == Reply(s, Fail("GROUP_NOT_FOUND", "No group with that id found"))
    ensures groupId in s.groups ==>
              var cur := s.groups[groupId];
              && r.env == Succeed("GROUP_UPDATED", "Comcell group updated successfully")
              && r.store == s.(groups := s.groups[groupId := Edited(e)], groupMembers := r.store.groupMembers)
              && (e.leaderId != cur.leaderId && Given(e.leaderId) && e.leaderId != e.coLeaderId ==>
                    HasRole(r.store.groupMembers, groupId, e.leaderId.value, "leader"))
              && (e.coLeaderId != cur.coLeaderId && Given(e.coLeaderId) ==>
                    HasRole(r.store.groupMembers, groupId, e.coLeaderId.value, "co-leader"))
              && OnlyTouches(s.groupMembers, r.store.groupMembers, groupId, Touched(cur, e))
              && (e.leaderId != cur.leaderId && Given(cur.leaderId) && IsGroupMember(s.groupMembers, groupId, cur.leaderId.value)
                  && (e.coLeaderId != cur.coLeaderId ==> e.coLeaderId != cur.leaderId) ==>
                    HasRole(r.store.groupMembers, groupId, cur.leaderId.value, "member"))
              && (e.coLeaderId != cur.coLeaderId && Given(cur.coLeaderId) && IsGroupMember(s.groupMembers, groupId, cur.coLeaderId.value)
                  && (e.leaderId != cur.leaderId ==> e.leaderId != cur.coLeaderId) ==>
                    HasRole(r.store.groupMembers, groupId, cur.coLeaderId.value, "member"))
  {
    if groupId !in s.groups then Reply(s, Fail("GROUP_NOT_FOUND", "No group with that id found"))
    else
      var cur := s.groups[groupId];
      FixedLeaderDemoted(s.groupMembers, groupId, cur, e);
      FixedCoLeaderDemoted(s.groupMembers, groupId, cur, e);
      Reply(s.(groups := s.groups[groupId := Edited(e)], groupMembers := FixedRows(s.groupMembers, groupId, cur, e)),
            Succeed("GROUP_UPDATED", "Comcell group updated successfully"))
  }

  /** The membership rows of the intended update: demote both previous
      holders, then promote both new ones. */
  function FixedRows(rows: seq<GroupMember>, g: string, cur: Group, e: GroupEdit): (r: seq<GroupMember>)
    ensures e.leaderId != cur.leaderId && Given(e.leaderId) && e.leaderId != e.coLeaderId ==>
              HasRole(r, g, e.leaderId.value, "leader")
    ensures e.coLeaderId != cur.coLeaderId && Given(e.coLeaderId) ==> HasRole(r, g, e.coLeaderId.value, "co-leader")
    ensures OnlyTouches(rows, r, g, Touched(cur, e))
  {
    var leaderMoves := e.leaderId != cur.leaderId;
    var coMoves := e.coLeaderId != cur.coLeaderId;
    var rows1 := DemoteIf(rows, g, leaderMoves, cur.leaderId);
    var rows2 := DemoteIf(rows1, g, coMoves, cur.coLeaderId);
    var rows3 := PromoteIf(rows2, g, leaderMoves, e.leaderId, "leader");
    var rows4 := PromoteIf(rows3, g, coMoves, e.coLeaderId, "co-leader");
    var a := if leaderMoves then {cur.leaderId.GetOr("")} else {};
    var b := if coMoves then {cur.coLeaderId.GetOr("")} else {};
    var c := if leaderMoves then {e.leaderId.GetOr("")} else {};
    var d := if coMoves then {e.coLeaderId.GetOr("")} else {};
    OnlyTouchesTrans(rows, rows1, rows2, g, a, b);
    OnlyTouchesTrans(rows, rows2, rows3, g, a + b, c);
    OnlyTouchesTrans(rows, rows3, rows4, g, a + b + c, d);
    TouchedParts(cur, e);
    rows4
  }

  lemma TouchedParts(cur: Group, e: GroupEdit)
    ensures Touched(cur, e) == (if e.leaderId != cur.leaderId then {cur.leaderId.GetOr("")} else {})
                             + (if e.coLeaderId != cur.coLeaderId then {cur.coLeaderId.GetOr("")} else {})
                             + (if e.leaderId != cur.leaderId then {e.leaderId.GetOr("")} else {})
                             + (if e.coLeaderId != cur.coLeaderId then {e.coLeaderId.GetOr("")} else {})
  {
  }

  /** Sets `id` back to a plain member when its role changes hands. */
  function DemoteIf(rows: seq<GroupMember>, g: string, moves: bool, id: Id): (r: seq<GroupMember>)
    ensures OnlyTouches(rows, r, g, if moves then {id.GetOr("")} else {})
    ensures moves && Given(id) && IsGroupMember(rows, g, id.value) ==> HasRole(r, g, id.value, "member")
    ensures forall v :: HasRole(rows, g, v, "member") ==> HasRole(r, g, v, "member")
    ensures forall v :: IsGroupMember(rows, g, v) ==> IsGroupMember(r, g, v)
  {
    if moves && Given(id) then
      SetRoleTouches(rows, g, id.value, "member");
      SetRoleMembers(rows, g, id.value, "member");
      DemotedHasRole(rows, g, id);
      MembersStayMembers(rows, g, id.value);
      SetRole(rows, g, id.value, "member")
    else rows
  }

  lemma MembersStayMembers(rows: seq<GroupMember>, g: string, u: string)
    ensures forall v :: HasRole(rows, g, v, "member") ==> HasRole(SetRole(rows, g, u, "member"), g, v, "member")
  {
    forall v | HasRole(rows, g, v, "member")
      ensures HasRole(SetRole(rows, g, u, "member"), g, v, "member")
    {
      MemberStaysMember(rows, g, u, v);
    }
  }

  /** Gives `id` the role when the role changes hands to them. */
  function PromoteIf(rows: seq<GroupMember>, g: string, moves: bool, id: Id, role: string): (r: seq<GroupMember>)
    ensures OnlyTouches(rows, r, g, if moves then {id.GetOr("")} else {})
    ensures moves && Given(id) ==> HasRole(r, g, id.value, role)
    ensures forall v, vrole :: (!moves || v != id.GetOr("")) && HasRole(rows, g, v, vrole) ==> HasRole(r, g, v, vrole)
  {
    if moves && Given(id) then
      PromoteTouches(rows, g, id.value, role);
      PromotesKeepOthers(rows, g, id.value, role);
      Promote(rows, g, id.value, role)
    else rows
  }

  lemma PromotesKeepOthers(rows: seq<GroupMember>, g: string, u: string, role: string)
    ensures forall v, vrole :: v != u && HasRole(rows, g, v, vrole) ==> HasRole(Promote(rows, g, u, role), g, v, vrole)
  {
    forall v, vrole | v != u && HasRole(rows, g, v, vrole)
      ensures HasRole(Promote(rows, g, u, role), g, v, vrole)
    {
      PromoteKeepsOthers(rows, g, u, role, v, vrole);
    }
  }

  /** Promoting one user leaves another user's role as it was. */
  lemma PromoteKeepsOthers(rows: seq<GroupMember>, g: string, u: string, role: string, v: string, vrole: string)
    ensures u != v && HasRole(rows, g, v, vrole) ==> HasRole(Promote(rows, g, u, role), g, v, vrole)
  {
    var r := Promote(rows, g, u, role);
    if !(u != v && HasRole(rows, g, v, vrole)) {
    } else if IsGroupMember(rows, g, u) {
      SetRoleOther(rows, g, u, role, v, vrole);
    } else {
      assert forall i :: 0 <= i < |rows| ==> r[i] == rows[i];
      var i :| 0 <= i < |rows| && rows[i].groupId == g && rows[i].userId == v;
      assert r[i] == rows[i];
    }
  }

  /** A plain member stays one when anyone is set to `member`. */
  lemma MemberStaysMember(rows: seq<GroupMember>, g: string, u: string, v: string)
    requires HasRole(rows, g, v, "member")
    ensures HasRole(SetRole(rows, g, u, "member"), g, v, "member")
  {
    if u == v {
      SetRoleHasRole(rows, g, v, "member");
    } else {
      SetRoleOther(rows, g, u, "member", v, "member");
    }
  }

  /** In the intended update the outgoing leader ends a plain member
      unless the co-leader promotion names them. */
  lemma FixedLeaderDemoted(rows: seq<GroupMember>, g: string, cur: Group, e: GroupEdit)
    ensures e.leaderId != cur.leaderId && Given(cur.leaderId) && IsGroupMember(rows, g, cur.leaderId.value)
            && (e.coLeaderId != cur.coLeaderId ==> e.coLeaderId != cur.leaderId) ==>
              HasRole(FixedRows(rows, g, cur, e), g, cur.leaderId.value, "member")
  {
  }

  /** In the intended update the outgoing co-leader ends a plain member
      unless the leader promotion names them. */
  lemma FixedCoLeaderDemoted(rows: seq<GroupMember>, g: string, cur: Group, e: GroupEdit)
    ensures e.coLeaderId != cur.coLeaderId && Given(cur.coLeaderId) && IsGroupMember(rows, g, cur.coLeaderId.value)
            && (e.leaderId != cur.leaderId ==> e.leaderId != cur.coLeaderId) ==>
              HasRole(FixedRows(rows, g, cur, e), g, cur.coLeaderId.value, "member")
  {
  }

  /** With the corrected order a swap gives each user the role named in the request. */
  lemma SwapFixed(s: Store, groupId: string, e: GroupEdit, a: string, b: string)
    requires groupId in s.groups
    requires s.groups[groupId].leaderId == Some(a) && s.groups[groupId].coLeaderId == Some(b)
    requires a != b && a != "" && b != ""
    requires e.leaderId == Some(b) && e.coLeaderId == Some(a)
    ensures HasRole(UpdateGroupFixed(s, groupId, e).store.groupMembers, groupId, b, "leader")
    ensures HasRole(UpdateGroupFixed(s, groupId, e).store.groupMembers, groupId, a, "co-leader")
  {
  }

  /** The update does not check that a new leader already belongs to another
      group, so it can give a user a second membership row. */
  lemma UpdateCanBreakRule(s: Store, groupId: string, e: GroupEdit, other: string)
    requires groupId in s.groups && other != groupId
    requires e.leaderId != s.groups[groupId].leaderId && Given(e.leaderId)
    requires IsGroupMember(s.groupMembers, other, e.leaderId.value)
    requires !IsGroupMember(s.groupMembers, groupId, e.leaderId.value)
    requires !Given(s.groups[groupId].leaderId) && e.coLeaderId == s.groups[groupId].coLeaderId
    ensures UpdateGroup(s, groupId, e, true).outcome.Returned?
    ensures !OneGroupEach(UpdateGroup(s, groupId, e, true).store.groupMembers)
  {
    var u := e.leaderId.value;
    var rows := s.groupMembers;
    var r := UpdateGroup(s, groupId, e, true).store.groupMembers;
    assert r == rows + [GroupMember(groupId, u, "leader")];
    var i :| 0 <= i < |rows| && rows[i].groupId == other && rows[i].userId == u;
    assert r[i].userId == r[|rows|].userId;
  }

  // ---------------------------------------------------------------------
  // setMemberDetail

  /** `setMemberDetail`: group, then membership, then the role whitelist;
      only the rows of that member of that group change role. */
  function SetMemberDetail(s: Store, groupId: Id, memberId: Id, role: Value): (r: Reply<()>)
    ensures !GroupExists(s, groupId) ==> r == Reply(s, Fail("GROUP_NOT_FOUND", "No group with that id found"))
    ensures GroupExists(s, groupId) && !(memberId.Some? && IsGroupMember(s.groupMembers, groupId.value, memberId.value)) ==>
              r == Reply(s, Fail("NOT_FOUND", "No member with that id found"))
    ensures r.env.Ok() <==>
              && GroupExists(s, groupId) && memberId.Some? && IsGroupMember(s.groupMembers, groupId.value, memberId.value)
              && role.Str? && role.s in Roles
    ensures !r.env.Ok() ==> r.store == s
    ensures r.env.Ok() ==>
              && r.store == s.(groupMembers := SetRole(s.groupMembers, groupId.value, memberId.value, role.s))
              && HasRole(r.store.groupMembers, groupId.value, memberId.value, role.s)
  {
    if !GroupExists(s, groupId) then Reply(s, Fail("GROUP_NOT_FOUND", "No group with that id found"))
    else if !(memberId.Some? && IsGroupMember(s.groupMembers, groupId.value, memberId.value)) then
      Reply(s, Fail("NOT_FOUND", "No member with that id found"))
    else if role != Str("member") && role != Str("leader") && role != Str("co-leader") then
      Reply(s, Fail("INVALID_ROLE", "Invalid role"))
    else
      SetRoleHasRole(s.groupMembers, groupId.value, memberId.value, role.s);
      Reply(s.(groupMembers := SetRole(s.groupMembers, groupId.value, memberId.value, role.s)),
            Succeed("MEMBER_UPDATED", "Member details updated successfully"))
  }

  /** A role change keeps the rule and the whitelist. */
  lemma SetMemberDetailKeepsRule(s: Store, groupId: Id, memberId: Id, role: Value)
    requires OneGroupEach(s.groupMembers) && ValidRoles(s.groupMembers)
    ensures var r := SetMemberDetail(s, groupId, memberId, role).store.groupMembers;
            OneGroupEach(r) && ValidRoles(r)
  {
    if SetMemberDetail(s, groupId, memberId, role).env.Ok() {
      SetRoleKeeps(s.groupMembers, groupId.value, memberId.value, role.s);
    }
  }

  // ---------------------------------------------------------------------
  // addMemberToComcellGroup

  /** The user ids `SELECT id FROM user WHERE id IN (?)` returns. */
  function Found(s: Store, ids: seq<Id>): set<string> {
    set u | u in s.users && Some(u) in ids
  }

  /** Every requested id names an existing user, and none is repeated. */
  predicate AllFound(s: Store, ids: seq<Id>) {
    && Sequences.Distinct(ids)
    && forall i :: 0 <= i < |ids| ==> ids[i].Some? && ids[i].value in s.users
  }

  lemma {:induction false} FoundBound(s: Store, ids: seq<Id>)
    ensures |Found(s, ids)| <= |ids|
  {
    if ids != [] {
      FoundBound(s, ids[1..]);
      FoundCons(s, ids);
    }
  }

  /** Splitting off the first requested id. */
  lemma FoundCons(s: Store, ids: seq<Id>)
    requires ids != []
    ensures Found(s, ids) == Found(s, ids[1..]) + (if ids[0].Some? && ids[0].value in s.users then {ids[0].value} else {})
  {
    assert ids == [ids[0]] + ids[1..];
  }

  /** The row count equals the number of requested ids exactly when every id
      names an existing user and none is repeated: a repeated id is reported
      as `USER_NOT_FOUND` too. */
  lemma {:induction false} FoundAllIff(s: Store, ids: seq<Id>)
    ensures |Found(s, ids)| == |ids| <==> AllFound(s, ids)
  {
    if ids != [] {
      var x := ids[0];
      var rest := ids[1..];
      FoundCons(s, ids);
      FoundBound(s, rest);
      FoundAllIff(s, rest);
      if |Found(s, ids)| == |ids| {
        assert x.Some? && x.value in s.users && x.value !in Found(s, rest);
        assert x !in rest;
        forall i, j | 0 <= i < j < |ids|
          ensures ids[i] != ids[j]
        {
          if i == 0 {
            assert ids[j] == rest[j - 1];
          } else {
            assert ids[i] == rest[i - 1] && ids[j] == rest[j - 1];
          }
        }
        forall i | 0 <= i < |ids|
          ensures ids[i].Some? && ids[i].value in s.users
        {
          if i > 0 { assert ids[i] == rest[i - 1]; }
        }
      }
      if AllFound(s, ids) {
        assert AllFound(s, rest) by {
          forall i, j | 0 <= i < j < |rest|
            ensures rest[i] != rest[j]
          {
            assert rest[i] == ids[i + 1] && rest[j] == ids[j + 1];
          }
        }
        assert x !in rest by {
          forall k | 0 <= k < |rest|
            ensures rest[k] != x
          {
            assert rest[k] == ids[k + 1];
          }
        }
        assert x.value !in Found(s, rest);
      }
    }
  }

  /** The membership rows of the listed users, in storage order. */
  function RowsOfListed(rows: seq<GroupMember>, ids: seq<Id>): (r: seq<GroupMember>)
    ensures forall m :: m in r <==> m in rows && Some(m.userId) in ids
  {
    if rows == [] then []
    else (if Some(rows[0].userId) in ids then [rows[0]] else []) + RowsOfListed(rows[1..], ids)
  }

  /** How `Array.prototype.join` prints a name: `null` prints as nothing. */
  function NameText(v: Value): string {
    if v.Str? then v.s else ""
  }

  /** `existing.map(e => e.name).join(", ")`. */
  function Names(users: map<string, Row>, rows: seq<GroupMember>): string {
    if rows == [] then ""
    else
      var name := if rows[0].userId in users then NameText(SqlFullName(users[rows[0].userId])) else "";
      if |rows| == 1 then name else name + ", " + Names(users, rows[1..])
  }

  /** The rows of the bulk insert, one per requested id, role `member`. */
  function NewMembers(g: string, ids: seq<Id>): (r: seq<GroupMember>)
    requires forall i :: 0 <= i < |ids| ==> ids[i].Some?
    ensures |r| == |ids|
    ensures forall i :: 0 <= i < |ids| ==> r[i] == GroupMember(g, ids[i].value, "member")
  {
    if ids == [] then [] else [GroupMember(g, ids[0].value, "member")] + NewMembers(g, ids[1..])
  }

  /** The exception `IN ()` raises: an empty list is a syntax error in MySQL. */
  const EmptyInList := "ER_PARSE_ERROR"

  /** `addMemberToComcellGroup`. */
  function AddMembers(s: Store, groupId: Id, userIds: seq<Id>): (r: Attempt<()>)
    ensures !GroupExists(s, groupId) ==> r == Attempt(s, Returned(Fail("GROUP_NOT_FOUND", "No group with that id found")))
    ensures GroupExists(s, groupId) && userIds == [] ==> r == Attempt(s, Threw(EmptyInList))
    ensures GroupExists(s, groupId) && userIds != [] && !AllFound(s, userIds) ==>
              r == Attempt(s, Returned(Fail("USER_NOT_FOUND", "One or more users do not exist")))
    ensures r.outcome.Returned? && r.outcome.env.Ok() <==>
              && GroupExists(s, groupId) && userIds != [] && AllFound(s, userIds)
              && forall i :: 0 <= i < |userIds| ==> !InAnyGroup(s.groupMembers, userIds[i].value)
    ensures !(r.outcome.Returned? && r.outcome.env.Ok()) ==> r.store == s
    ensures r.outcome.Returned? && r.outcome.env.Ok() ==>
              && r.store == s.(groupMembers := s.groupMembers + NewMembers(groupId.value, userIds))
              && r.outcome.env.message == IntToString(|userIds|) + " members successfully added to group"
  {
    if !GroupExists(s, groupId) then Attempt(s, Returned(Fail("GROUP_NOT_FOUND", "No group with that id found")))
    else if userIds == [] then Attempt(s, Threw(EmptyInList))
    else if |Found(s, userIds)| != |userIds| then
      FoundAllIff(s, userIds);
      Attempt(s, Returned(Fail("USER_NOT_FOUND", "One or more users do not exist")))
    else
      FoundAllIff(s, userIds);
      var existing := RowsOfListed(s.groupMembers, userIds);
      if existing != [] then
        assert existing[0] in existing;
        var m := existing[0];
        var k :| 0 <= k < |userIds| && userIds[k] == Some(m.userId);
        assert InAnyGroup(s.groupMembers, userIds[k].value) by {
          var j :| 0 <= j < |s.groupMembers| && s.groupMembers[j] == m;
        }
        Attempt(s, Returned(Fail("USER_ALREADY_ASSIGNED",
                                 "User(s) " + Names(s.users, existing) + " already assigned to another group")))
      else
        assert forall m :: m in s.groupMembers ==> Some(m.userId) !in userIds;
        Attempt(s.(groupMembers := s.groupMembers + NewMembers(groupId.value, userIds)),
                Returned(Succeed("MEMBERS_ADDED", IntToString(|userIds|) + " members successfully added to group")))
  }

  /** Adding members keeps every user in at most one group and every role valid. */
  lemma AddKeepsRule(s: Store, groupId: Id, userIds: seq<Id>)
    requires OneGroupEach(s.groupMembers) && ValidRoles(s.groupMembers)
    ensures var r := AddMembers(s, groupId, userIds).store.groupMembers;
            OneGroupEach(r) && ValidRoles(r)
  {
    var r := AddMembers(s, groupId, userIds);
    if r.outcome.Returned? && r.outcome.env.Ok() {
      var added := NewMembers(groupId.value, userIds);
      forall i, j | 0 <= i < j < |added|
        ensures added[i].userId != added[j].userId
      {
        assert userIds[i] != userIds[j];
      }
      AppendKeeps(s.groupMembers, added);
      var all := s.groupMembers + added;
      forall i | 0 <= i < |all|
        ensures all[i].role in Roles
      {
        if i >= |s.groupMembers| {
          assert all[i] == added[i - |s.groupMembers|];
        } else {
          assert all[i] == s.groupMembers[i];
        }
      }
    }
  }

  // ---------------------------------------------------------------------
  // removeMemberFromComcellGroup

  /** The role of the first row of that member in that group (`users[0].role`). */
  function FirstRole(rows: seq<GroupMember>, g: string, u: string): (r: Option<string>)
    ensures r.Some? <==> IsGroupMember(rows, g, u)
    ensures r.Some? ==> exists i :: 0 <= i < |rows| && rows[i].groupId == g && rows[i].userId == u && rows[i].role == r.value
  {
    if rows == [] then None
    else if rows[0].groupId == g && rows[0].userId == u then Some(rows[0].role)
    else
      var r := FirstRole(rows[1..], g, u);
      assert IsGroupMember(rows, g, u) ==> IsGroupMember(rows[1..], g, u) by {
        if IsGroupMember(rows, g, u) {
          var i :| 0 <= i < |rows| && rows[i].groupId == g && rows[i].userId == u;
          assert rows[1..][i - 1] == rows[i];
        }
      }
      assert r.Some? ==> exists i :: 0 <= i < |rows| && rows[i].groupId == g && rows[i].userId == u && rows[i].role == r.value by {
        if r.Some? {
          var i :| 0 <= i < |rows[1..]| && rows[1..][i].groupId == g && rows[1..][i].userId == u && rows[1..][i].role == r.value;
          assert rows[i + 1] == rows[1..][i];
        }
      }
      r
  }

  /** The refusal message, which names the role. */
  function CannotRemove(role: string): string {
    role + " cannot be removed directly.Please delegate their role first."
  }

  /** `removeMemberFromComcellGroup`: leaders and co-leaders are refused;
      otherwise every row of that member in that group is deleted. */
  function RemoveMember(s: Store, groupId: Id, userId: Id): (r: Reply<()>)
    ensures !GroupExists(s, groupId) ==> r == Reply(s, Fail("GROUP_NOT_FOUND", "No group with that id found"))
    ensures GroupExists(s, groupId) && !(userId.Some? && IsGroupMember(s.groupMembers, groupId.value, userId.value)) ==>
              r == Reply(s, Fail("USER_NOT_FOUND", "No user with that id found in this group"))
    ensures r.env.Ok() <==>
              && GroupExists(s, groupId) && userId.Some?
              && var role := FirstRole(s.groupMembers, groupId.value, userId.value);
              && role.Some? && role.value != "leader" && role.value != "co-leader"
    ensures !r.env.Ok() ==> r.store == s
    ensures r.env.Ok() ==>
              && r.store == s.(groupMembers := Without(s.groupMembers, groupId.value, userId.value))
              && !IsGroupMember(r.store.groupMembers, groupId.value, userId.value)
  {
    if !GroupExists(s, groupId) then Reply(s, Fail("GROUP_NOT_FOUND", "No group with that id found"))
    else if !(userId.Some? && IsGroupMember(s.groupMembers, groupId.value, userId.value)) then
      Reply(s, Fail("USER_NOT_FOUND", "No user with that id found in this group"))
    else
      var role := FirstRole(s.groupMembers, groupId.value, userId.value).value;
      if role == "leader" || role == "co-leader" then
        Reply(s, Fail("CANNOT_REMOVE", CannotRemove(role)))
      else
        var rows := Without(s.groupMembers, groupId.value, userId.value);
        assert !IsGroupMember(rows, groupId.value, userId.value) by {
          forall i | 0 <= i < |rows|
            ensures !(rows[i].groupId == groupId.value && rows[i].userId == userId.value)
          {
            assert rows[i] in rows;
          }
        }
        Reply(s.(groupMembers := rows), Succeed("MEMBER_REMOVED", "Member successfully removed from group"))
  }

  /** While the rule holds, the current leader of a group, whose only row is
      the `leader` row, cannot be removed. */
  lemma LeaderCannotBeRemoved(s: Store, g: string, u: string)
    requires g in s.groups && OneGroupEach(s.groupMembers)
    requires exists i :: 0 <= i < |s.groupMembers| && s.groupMembers[i] == GroupMember(g, u, "leader")
    ensures RemoveMember(s, Some(g), Some(u)) == Reply(s, Fail("CANNOT_REMOVE", CannotRemove("leader")))
  {
    var rows := s.groupMembers;
    var i :| 0 <= i < |rows| && rows[i] == GroupMember(g, u, "leader");
    var role := FirstRole(rows, g, u);
    var j :| 0 <= j < |rows| && rows[j].groupId == g && rows[j].userId == u && rows[j].role == role.value;
    assert rows[i].userId == rows[j].userId;
    assert role.value == "leader";
  }

  /** Removal keeps the rule and the whitelist. */
  lemma RemoveKeepsRule(s: Store, groupId: Id, userId: Id)
    requires OneGroupEach(s.groupMembers) && ValidRoles(s.groupMembers)
    ensures var r := RemoveMember(s, groupId, userId).store.groupMembers;
            OneGroupEach(r) && ValidRoles(r)
  {
    if RemoveMember(s, groupId, userId).env.Ok() {
      WithoutKeeps(s.groupMembers, groupId.value, userId.value);
    }
  }
}

=== FILE: event_composer.dfy ===
/** Creation of a full event (`createEvent` of `services/coreEventService.js`):
    one transaction inserts the event, its speakers and translators, songs,
    presentations and team assignments. The payload is first turned into a
    plan of statements in the order the code issues them; the transaction
    then runs the plan and either commits all of it or rolls all of it back. */
module EventComposer {
  import opened Values
  import opened Text
  import opened Response
  import opened Store

  // ---------------------------------------------------------------------
  // Payload

  /** A payload field that should hold a list: absent (`undefined`/`null`),
      present but not an array, or an array. */
  datatype Items<+T> = Missing | NotArray | Array(elems: seq<T>)

  /** The entries a section iterates over: none unless the field is an array. */
  function Elems<T>(xs: Items<T>): (r: seq<T>)
    ensures xs.Array? ==> r == xs.elems
    ensures !xs.Array? ==> r == []
  {
    if xs.Array? then xs.elems else []
  }

  /** A speaker or translator entry. */
  datatype Person = Person(id: Value, kind: Value, userId: Value, name: Value)

  datatype Song = Song(id: Value, title: Value, order: Value, key: Value, bpm: Value)

  datatype Presentation = Presentation(id: Value, name: Value, size: Value, fileType: Value, url: Value, uploadedAt: Value)

  /** One entry of a team's member list. */
  datatype Assignee = Assignee(userId: Value, roleInEvent: Value, details: Value)

  /** A date field after `new Date(...)`: `None` when it is not a valid date
      (an absent field included), so formatting it throws. */
  type Instant = Option<int>

  datatype Payload = Payload(
    name: Value, eventType: Value, startTime: Instant, endTime: Instant,
    location: Value, isPublic: Value, description: Value, status: Value, createdBy: Value,
    speakers: Items<Person>, translators: Items<Person>, songs: Items<Song>,
    presentations: Items<Presentation>,
    /** `Object.entries(team_assignments)`; `None` when the field is falsy or not an object. */
    teamAssignments: Option<seq<(string, Items<Assignee>)>>)

  // ---------------------------------------------------------------------
  // Statements

  datatype Write =
    | InsertEvent(event: Event)
    | InsertSpeaker(speaker: SpeakerRow)
    /** `UPDATE event_speaker SET translator_id, translator_name WHERE
        event_id = ? AND speaker_id = ? AND type = 'user'`. */
    | AttachTranslator(eventId: string, speakerId: Value, translatorId: Value, translatorName: Value)
    | InsertSong(song: SongRow)
    | InsertPresentation(presentation: PresentationRow)
    | InsertEventTeam(link: EventTeam)
    | InsertEventTeamMember(member: EventTeamMember)

  /** A statement of the plan: a write, or the exception the code raises at
      that point (a `TypeError`, or the driver refusing an `undefined` bind
      parameter). */
  datatype Statement = Exec(write: Write) | Throw(reason: string)

  /** A partial plan together with the number of fresh ids drawn so far. */
  datatype Built = Built(plan: seq<Statement>, next: nat)

  predicate NoThrow(plan: seq<Statement>) {
    forall i :: 0 <= i < |plan| ==> plan[i].Exec?
  }

  lemma NoThrowAppend(a: seq<Statement>, b: seq<Statement>)
    ensures NoThrow(a + b) <==> NoThrow(a) && NoThrow(b)
  {
    if NoThrow(a) && NoThrow(b) {
      forall i | 0 <= i < |a + b|
        ensures (a + b)[i].Exec?
      {
        if i >= |a| { assert (a + b)[i] == b[i - |a|]; }
      }
    }
    if NoThrow(a + b) {
      assert forall i :: 0 <= i < |a| ==> a[i] == (a + b)[i];
      assert forall i :: 0 <= i < |b| ==> b[i] == (a + b)[|a| + i];
    }
  }

  function Writes(plan: seq<Statement>): (ws: seq<Write>)
    requires NoThrow(plan)
    ensures |ws| == |plan|
  {
    seq(|plan|, i requires 0 <= i < |plan| => plan[i].write)
  }

  const ThrowUndefined := "TypeError: Bind parameters must not contain undefined"
  const ThrowNotString := "TypeError: type.toLowerCase is not a function"
  const ThrowNoSome := "TypeError: data.speakers.some is not a function"
  const ThrowInvalidDate := "RangeError: Invalid time value"

  // ---------------------------------------------------------------------
  // Type normalisation

  /** The `type` of a speaker or translator: a truthy value is lowercased and
      trimmed and kept when it is `user` or `guest`; anything else becomes
      `null`. `None` when a truthy non-string has no `toLowerCase`. */
  function NormaliseType(raw: Value): (r: Option<Value>)
    ensures r.None? <==> Truthy(raw) && !raw.Str?
    ensures r.Some? ==> r.value in {Str("user"), Str("guest"), Null}
    ensures raw.Str? ==> (r == Some(Str("user")) <==> Trim(Lower(raw.s)) == "user")
    ensures raw.Str? ==> (r == Some(Str("guest")) <==> Trim(Lower(raw.s)) == "guest")
  {
    if !Truthy(raw) then Some(Null)
    else if !raw.Str? then None
    else
      var t := Trim(Lower(raw.s));
      if t == "user" || t == "guest" then Some(Str(t)) else Some(Null)
  }

  /** Normalising an already normalised type changes nothing. */
  lemma NormaliseIdempotent(raw: Value)
    requires NormaliseType(raw).Some?
    ensures NormaliseType(NormaliseType(raw).value) == NormaliseType(raw)
  {
    var t := NormaliseType(raw).value;
    if t.Str? {
      NormalisedIsFixed(t.s);
    }
  }

  lemma NormalisedIsFixed(w: string)
    requires w == "user" || w == "guest"
    ensures NormaliseType(Str(w)) == Some(Str(w))
  {
    if w == "user" {
      assert Lower("user") == "user";
      TrimKeeps("user");
    } else {
      assert Lower("guest") == "guest";
      TrimKeeps("guest");
    }
  }

  // ---------------------------------------------------------------------
  // Event row

  /** `data.is_public !== undefined ? (data.is_public ? 1 : 0) : 1`. */
  function PublicFlag(v: Value): (r: Value)
    ensures r == Num(1) <==> v == Undefined || Truthy(v)
    ensures r == Num(0) <==> v != Undefined && !Truthy(v)
  {
    if v != Undefined then (if Truthy(v) then Num(1) else Num(0)) else Num(1)
  }

  /** The event row with its defaults: type `other`, status `draft`, the
      public flag, and `null` for the optional columns. */
  function EventRow(eventId: string, d: Payload, start: int, end: int, now: int): (e: Event)
    ensures e.id == eventId && e.groupId.None? && e.startTime == start && e.endTime == Some(end)
    ensures e.eventType == (if Truthy(d.eventType) then d.eventType else Str("other"))
    ensures e.status == (if Truthy(d.status) then d.status else Str("draft"))
    ensures e.isPublic == PublicFlag(d.isPublic) && e.isPublic in {Num(0), Num(1)}
    ensures e.name == d.name
    ensures e.location == (if Truthy(d.location) then d.location else Null)
    ensures e.description == (if Truthy(d.description) then d.description else Null)
    ensures e.createdBy == (if Truthy(d.createdBy) then d.createdBy else Null)
    ensures e.createdAt == now && e.updatedAt == now
  {
    Event(eventId, d.name, Or(d.eventType, Str("other")), None, start, Some(end),
          Or(d.location, Null), PublicFlag(d.isPublic), Or(d.description, Null),
          Or(d.status, Str("draft")), Or(d.createdBy, Null), now, now)
  }

  // ---------------------------------------------------------------------
  // Speakers

  /** `x.id || uuidv4()`: the client's id when truthy, otherwise the next
      fresh id (which is then consumed). */
  function IdOr(v: Value, uuid: Uuid, k: nat): (r: (Value, nat))
    ensures Truthy(v) ==> r == (v, k)
    ensures !Truthy(v) ==> r == (Str(uuid(k)), k + 1)
  {
    if Truthy(v) then (v, k) else (Str(uuid(k)), k + 1)
  }

  /** The number of fresh ids a run of `x.id || uuidv4()` draws: one per falsy id. */
  function Drawn(ids: seq<Value>): (n: nat)
    ensures n <= |ids|
  {
    if ids == [] then 0 else (if Truthy(ids[0]) then 0 else 1) + Drawn(ids[1..])
  }

  /** The id the `i`-th entry of a run receives when the counter starts at
      `k`: its own id when truthy, otherwise the fresh id after those the
      earlier entries drew. */
  function IdAt(ids: seq<Value>, i: nat, uuid: Uuid, k: nat): Value
    requires i < |ids|
  {
    if Truthy(ids[i]) then ids[i] else Str(uuid(k + Drawn(ids[..i])))
  }

  /** The first entry's id is the one `IdOr` gives it. */
  lemma IdAtFirst(ids: seq<Value>, uuid: Uuid, k: nat)
    requires ids != []
    ensures IdAt(ids, 0, uuid, k) == IdOr(ids[0], uuid, k).0
  {
    assert ids[..0] == [];
  }

  /** A later entry's id, counted from the counter the first entry left. */
  lemma IdAtTail(ids: seq<Value>, i: nat, uuid: Uuid, k: nat)
    requires 0 < i < |ids|
    ensures IdAt(ids[1..], i - 1, uuid, IdOr(ids[0], uuid, k).1) == IdAt(ids, i, uuid, k)
  {
    assert ids[..i][1..] == ids[1..][..i - 1];
    assert ids[..i][0] == ids[0];
  }

  /** The `id` fields of a section's entries, by a projection. */
  function Ids<T>(xs: seq<T>, id: T -> Value): (ids: seq<Value>)
    ensures |ids| == |xs| && forall i :: 0 <= i < |xs| ==> ids[i] == id(xs[i])
  {
    seq(|xs|, i requires 0 <= i < |xs| => id(xs[i]))
  }

  function PersonId(p: Person): Value { p.id }
  function SongId(sg: Song): Value { sg.id }
  function PresentationId(pr: Presentation): Value { pr.id }

  /** The row inserted for a speaker whose type normalised to `kind`. */
  function SpeakerRowOf(id: Value, eventId: string, sp: Person, kind: Value): (row: SpeakerRow)
    requires kind in {Str("user"), Str("guest"), Null}
    ensures row.speakerId != Null ==> row.speakerType == Str("user") && row.speakerId == sp.userId
    ensures row.speakerType == Str("user") ==> row.speakerId == Or(sp.userId, Null)
    ensures row.speakerName == Or(sp.name, Null)
    ensures row.translatorId == Null && row.translatorName == Null
  {
    var speakerId := if kind == Str("user") then Or(sp.userId, Null) else Null;
    SpeakerRow(id, eventId, kind, speakerId, Or(sp.name, Null), Null, Null)
  }

  /** A statement of the speaker section: an exception, or an insert of a
      row of this event with no translator, whose speaker id is set only for
      a `user` speaker. */
  predicate SpeakerStatement(st: Statement, eventId: string) {
    st.Exec? ==>
      && st.write.InsertSpeaker?
      && st.write.speaker.eventId == eventId
      && st.write.speaker.translatorId == Null
      && st.write.speaker.translatorName == Null
      && (st.write.speaker.speakerId != Null ==> st.write.speaker.speakerType == Str("user"))
  }

  /** No speaker's type throws when normalised. */
  predicate AllTyped(speakers: seq<Person>) {
    forall i :: 0 <= i < |speakers| ==> NormaliseType(speakers[i].kind).Some?
  }

  lemma AllTypedCons(speakers: seq<Person>)
    requires speakers != []
    ensures AllTyped(speakers) <==> NormaliseType(speakers[0].kind).Some? && AllTyped(speakers[1..])
  {
    if NormaliseType(speakers[0].kind).Some? && AllTyped(speakers[1..]) {
      forall i | 1 <= i < |speakers| ensures NormaliseType(speakers[i].kind).Some? {
        assert speakers[i] == speakers[1..][i - 1];
      }
    }
  }

  function PlanSpeakers(eventId: string, speakers: seq<Person>, uuid: Uuid, k: nat): (b: Built)
    ensures b.next >= k
    ensures NoThrow(b.plan) ==> |b.plan| == |speakers|
    ensures forall i :: 0 <= i < |b.plan| ==> SpeakerStatement(b.plan[i], eventId)
  {
    if speakers == [] then Built([], k)
    else
      var sp := speakers[0];
      var (id, k1) := IdOr(sp.id, uuid, k);
      match NormaliseType(sp.kind)
      case None =>
        var b := Built([Throw(ThrowNotString)], k1);
        assert !b.plan[0].Exec?;
        b
      case Some(kind) =>
        var rest := PlanSpeakers(eventId, speakers[1..], uuid, k1);
        var head := [Exec(InsertSpeaker(SpeakerRowOf(id, eventId, sp, kind)))];
        NoThrowAppend(head, rest.plan);
        assert forall i :: 0 <= i < |head + rest.plan| ==>
                 (head + rest.plan)[i] == if i == 0 then head[0] else rest.plan[i - 1];
        Built(head + rest.plan, rest.next)
  }

  /** The statement for the `i`-th speaker of a section whose counter starts
      at `k`: an exception for a non-string type, otherwise the insert of its
      row under its own id or the fresh id it draws. */
  function SpeakerAt(eventId: string, speakers: seq<Person>, i: nat, uuid: Uuid, k: nat): Statement
    requires i < |speakers|
  {
    match NormaliseType(speakers[i].kind)
    case None => Throw(ThrowNotString)
    case Some(kind) => Exec(InsertSpeaker(SpeakerRowOf(IdAt(Ids(speakers, PersonId), i, uuid, k), eventId, speakers[i], kind)))
  }

  /** The rows a speaker section inserts when none of the types throws. */
  function SpeakerRows(eventId: string, speakers: seq<Person>, uuid: Uuid, k: nat): (rows: seq<SpeakerRow>)
    ensures |rows| == |speakers|
  {
    seq(|speakers|, i requires 0 <= i < |speakers| =>
      SpeakerRowOf(IdAt(Ids(speakers, PersonId), i, uuid, k), eventId, speakers[i], NormaliseType(speakers[i].kind).GetOr(Null)))
  }

  /** The speaker section issues, in order, the statement of each speaker up
      to the first exception. */
  lemma SpeakerAtTail(eventId: string, speakers: seq<Person>, i: nat, uuid: Uuid, k: nat)
    requires 0 < i < |speakers|
    ensures SpeakerAt(eventId, speakers[1..], i - 1, uuid, IdOr(speakers[0].id, uuid, k).1) == SpeakerAt(eventId, speakers, i, uuid, k)
  {
    assert Ids(speakers[1..], PersonId) == Ids(speakers, PersonId)[1..];
    assert speakers[1..][i - 1] == speakers[i];
    IdAtTail(Ids(speakers, PersonId), i, uuid, k);
  }

  /** One step of the speaker section. */
  lemma SpeakersPlanCons(eventId: string, speakers: seq<Person>, uuid: Uuid, k: nat)
    requires speakers != []
    ensures PlanSpeakers(eventId, speakers, uuid, k).plan
            == if NormaliseType(speakers[0].kind).None? then [Throw(ThrowNotString)]
               else [SpeakerAt(eventId, speakers, 0, uuid, k)]
                    + PlanSpeakers(eventId, speakers[1..], uuid, IdOr(speakers[0].id, uuid, k).1).plan
  {
    IdAtFirst(Ids(speakers, PersonId), uuid, k);
  }

  lemma {:induction false} SpeakersPlanAt(eventId: string, speakers: seq<Person>, uuid: Uuid, k: nat)
    ensures var b := PlanSpeakers(eventId, speakers, uuid, k);
            && |b.plan| <= |speakers|
            && forall i :: 0 <= i < |b.plan| ==> b.plan[i] == SpeakerAt(eventId, speakers, i, uuid, k)
  {
    if speakers != [] {
      var k1 := IdOr(speakers[0].id, uuid, k).1;
      var b := PlanSpeakers(eventId, speakers, uuid, k);
      SpeakersPlanCons(eventId, speakers, uuid, k);
      if NormaliseType(speakers[0].kind).Some? {
        var rest := PlanSpeakers(eventId, speakers[1..], uuid, k1);
        SpeakersPlanAt(eventId, speakers[1..], uuid, k1);
        SpeakersShift(eventId, speakers, uuid, k, rest.plan);
      }
    }
  }

  lemma SpeakersShift(eventId: string, speakers: seq<Person>, uuid: Uuid, k: nat, rest: seq<Statement>)
    requires speakers != [] && |rest| < |speakers|
    requires forall i :: 0 <= i < |rest| ==> rest[i] == SpeakerAt(eventId, speakers[1..], i, uuid, IdOr(speakers[0].id, uuid, k).1)
    ensures forall i :: 0 <= i < |rest| + 1 ==> ([SpeakerAt(eventId, speakers, 0, uuid, k)] + rest)[i] == SpeakerAt(eventId, speakers, i, uuid, k)
  {
    var plan := [SpeakerAt(eventId, speakers, 0, uuid, k)] + rest;
    forall i | 1 <= i < |plan|
      ensures plan[i] == SpeakerAt(eventId, speakers, i, uuid, k)
    {
      assert plan[i] == rest[i - 1];
      SpeakerAtTail(eventId, speakers, i, uuid, k);
    }
  }

  // ---------------------------------------------------------------------
  // Translators

  /** `data.speakers?.some(...)`: some speaker entry whose raw type lowercases
      to `user` has the translator's `userId`, and the translator's own type
      normalised to `user`. `None` when the call throws: the speakers field
      is present but not an array, or a speaker's type is a non-string that
      `?.toLowerCase()` does not skip. */
  function SpeakerMatch(speakers: Items<Person>, translatorIsUser: bool, userId: Value): (r: Option<bool>)
    ensures speakers.Missing? ==> r == Some(false)
    ensures speakers.NotArray? ==> r.None?
    ensures r == Some(true) ==>
              (translatorIsUser && speakers.Array?
               && exists i :: 0 <= i < |speakers.elems| && SpeakerIsUser(speakers.elems[i]) && speakers.elems[i].userId == userId)
  {
    match speakers
    case Missing => Some(false)
    case NotArray => None
    case Array(xs) => SomeUserSpeaker(xs, translatorIsUser, userId)
  }

  predicate SpeakerIsUser(sp: Person) {
    sp.kind.Str? && Lower(sp.kind.s) == "user"
  }

  function SomeUserSpeaker(xs: seq<Person>, translatorIsUser: bool, userId: Value): (r: Option<bool>)
    ensures r == Some(true) ==>
              (translatorIsUser && exists i :: 0 <= i < |xs| && SpeakerIsUser(xs[i]) && xs[i].userId == userId)
    ensures r == Some(false) ==> forall i :: 0 <= i < |xs| ==>
              !(translatorIsUser && SpeakerIsUser(xs[i]) && xs[i].userId == userId)
  {
    if xs == [] then Some(false)
    else if xs[0].kind.Bool? || xs[0].kind.Num? then None
    else if SpeakerIsUser(xs[0]) && translatorIsUser && xs[0].userId == userId then Some(true)
    else
      var r := SomeUserSpeaker(xs[1..], translatorIsUser, userId);
      assert r == Some(true) ==> exists i :: 0 <= i < |xs| && SpeakerIsUser(xs[i]) && xs[i].userId == userId by {
        if r == Some(true) {
          var i :| 0 <= i < |xs[1..]| && SpeakerIsUser(xs[1..][i]) && xs[1..][i].userId == userId;
          assert xs[i + 1] == xs[1..][i];
        }
      }
      assert r == Some(false) ==> forall i :: 1 <= i < |xs| ==>
               !(translatorIsUser && SpeakerIsUser(xs[i]) && xs[i].userId == userId) by {
        if r == Some(false) {
          forall i | 1 <= i < |xs|
            ensures !(translatorIsUser && SpeakerIsUser(xs[i]) && xs[i].userId == userId)
          {
            assert xs[i] == xs[1..][i - 1];
          }
        }
      }
      r
  }

  /** The statement for one translator: the speaker-row update when it is
      merged into a user speaker, otherwise its own row with no speaker. */
  function TranslatorStep(eventId: string, speakers: Items<Person>, t: Person, uuid: Uuid, k: nat): (b: Built)
    ensures b.next >= k
    ensures |b.plan| == 1 && SpeakerWrites(b.plan)
    ensures b.plan[0].Exec? && b.plan[0].write.AttachTranslator? ==>
              NormaliseType(t.kind) == Some(Str("user")) && SpeakerMatch(speakers, true, t.userId) == Some(true)
              && b.plan[0].write == AttachTranslator(eventId, t.userId, Or(t.userId, Null), t.name)
    ensures b.plan[0].Exec? && !b.plan[0].write.AttachTranslator? ==>
              b.plan[0].write.InsertSpeaker?
              && b.plan[0].write.speaker.eventId == eventId
              && b.plan[0].write.speaker.speakerId == Null
              && b.plan[0].write.speaker.speakerName == Null
              && b.plan[0].write.speaker.translatorName == Or(t.name, Null)
              && (b.plan[0].write.speaker.translatorId != Null ==> b.plan[0].write.speaker.speakerType == Str("user"))
  {
    match NormaliseType(t.kind)
    case None => Built([Throw(ThrowNotString)], k)
    case Some(kind) =>
      match SpeakerMatch(speakers, kind == Str("user"), t.userId)
      case None => Built([Throw(ThrowNoSome)], k)
      case Some(merged) =>
        if merged && kind == Str("user") then
          if t.name == Undefined || t.userId == Undefined then Built([Throw(ThrowUndefined)], k)
          else Built([Exec(AttachTranslator(eventId, t.userId, Or(t.userId, Null), t.name))], k)
        else
          var (id, k1) := IdOr(t.id, uuid, k);
          var translatorId := if kind == Str("user") then Or(t.userId, Null) else Null;
          Built([Exec(InsertSpeaker(SpeakerRow(id, eventId, kind, Null, Null, translatorId, Or(t.name, Null))))], k1)
  }

  function PlanTranslators(eventId: string, speakers: Items<Person>, translators: seq<Person>, uuid: Uuid, k: nat): (b: Built)
    ensures b.next >= k
    ensures |b.plan| <= |translators|
    ensures NoThrow(b.plan) ==> |b.plan| == |translators|
    ensures SpeakerWrites(b.plan)
    decreases |translators|
  {
    if translators == [] then Built([], k)
    else
      var head := TranslatorStep(eventId, speakers, translators[0], uuid, k);
      if head.plan[0].Throw? then head
      else
        var rest := PlanTranslators(eventId, speakers, translators[1..], uuid, head.next);
        NoThrowAppend(head.plan, rest.plan);
        SpeakerWritesAppend(head.plan, rest.plan);
        Built(head.plan + rest.plan, rest.next)
  }

  /** The counter each translator of a section starts from: the first gets
      `k`, each later one what its predecessor left. */
  function TranslatorKeys(eventId: string, speakers: Items<Person>, translators: seq<Person>, uuid: Uuid, k: nat): (ks: seq<nat>)
    ensures |ks| == |translators|
    ensures translators != [] ==> ks[0] == k
    decreases |translators|
  {
    if translators == [] then []
    else [k] + TranslatorKeys(eventId, speakers, translators[1..], uuid, TranslatorStep(eventId, speakers, translators[0], uuid, k).next)
  }

  /** One step of the translator section after a statement that does not
      throw. */
  lemma TranslatorsPlanCons(eventId: string, speakers: Items<Person>, translators: seq<Person>, uuid: Uuid, k: nat)
    requires translators != [] && !TranslatorStep(eventId, speakers, translators[0], uuid, k).plan[0].Throw?
    ensures var head := TranslatorStep(eventId, speakers, translators[0], uuid, k);
            && PlanTranslators(eventId, speakers, translators, uuid, k).plan
               == head.plan + PlanTranslators(eventId, speakers, translators[1..], uuid, head.next).plan
            && TranslatorKeys(eventId, speakers, translators, uuid, k)
               == [k] + TranslatorKeys(eventId, speakers, translators[1..], uuid, head.next)
  {
  }

  /** Statement `i` of `plan` is the one translator `i` issues when its
      counter starts at `ks[i]`. */
  predicate StepsAt(eventId: string, speakers: Items<Person>, translators: seq<Person>, uuid: Uuid, ks: seq<nat>, plan: seq<Statement>)
    requires |ks| == |translators| && |plan| <= |translators|
  {
    forall i :: 0 <= i < |plan| ==> plan[i] == TranslatorStep(eventId, speakers, translators[i], uuid, ks[i]).plan[0]
  }

  lemma StepsAtCons(eventId: string, speakers: Items<Person>, translators: seq<Person>, uuid: Uuid, k: nat,
                    ks: seq<nat>, x: Statement, rest: seq<Statement>)
    requires translators != [] && |ks| == |translators| - 1 && |rest| <= |ks|
    requires x == TranslatorStep(eventId, speakers, translators[0], uuid, k).plan[0]
    requires StepsAt(eventId, speakers, translators[1..], uuid, ks, rest)
    ensures StepsAt(eventId, speakers, translators, uuid, [k] + ks, [x] + rest)
  {
    var plan, keys := [x] + rest, [k] + ks;
    forall i | 0 <= i < |plan|
      ensures plan[i] == TranslatorStep(eventId, speakers, translators[i], uuid, keys[i]).plan[0]
    {
      if i > 0 {
        assert plan[i] == rest[i - 1] && keys[i] == ks[i - 1] && translators[i] == translators[1..][i - 1];
      }
    }
  }

  /** The translator section issues, in order, the statement of each
      translator up to the first exception. */
  lemma {:induction false} TranslatorsPlanAt(eventId: string, speakers: Items<Person>, translators: seq<Person>, uuid: Uuid, k: nat)
    ensures StepsAt(eventId, speakers, translators, uuid, TranslatorKeys(eventId, speakers, translators, uuid, k),
                    PlanTranslators(eventId, speakers, translators, uuid, k).plan)
    decreases |translators|
  {
    if translators != [] {
      var head := TranslatorStep(eventId, speakers, translators[0], uuid, k);
      if !head.plan[0].Throw? {
        var rest := PlanTranslators(eventId, speakers, translators[1..], uuid, head.next);
        var ks' := TranslatorKeys(eventId, speakers, translators[1..], uuid, head.next);
        TranslatorsPlanCons(eventId, speakers, translators, uuid, k);
        TranslatorsPlanAt(eventId, speakers, translators[1..], uuid, head.next);
        assert head.plan == [head.plan[0]];
        StepsAtCons(eventId, speakers, translators, uuid, k, ks', head.plan[0], rest.plan);
      }
    }
  }

  /** Every write is a speaker insert or a translator attachment. */
  predicate SpeakerWrites(plan: seq<Statement>) {
    forall i :: 0 <= i < |plan| && plan[i].Exec? ==> plan[i].write.InsertSpeaker? || plan[i].write.AttachTranslator?
  }

  lemma SpeakerWritesAppend(a: seq<Statement>, b: seq<Statement>)
    requires SpeakerWrites(a) && SpeakerWrites(b)
    ensures SpeakerWrites(a + b)
  {
    forall i | 0 <= i < |a + b| && (a + b)[i].Exec?
      ensures (a + b)[i].write.InsertSpeaker? || (a + b)[i].write.AttachTranslator?
    {
      if i >= |a| { assert (a + b)[i] == b[i - |a|]; }
    }
  }

  // ---------------------------------------------------------------------
  // Songs and presentations

  /** A song row with its defaults: order 1, and `null` key and bpm, when
      the given values are falsy. */
  function SongRowOf(id: Value, eventId: string, song: Song): (row: SongRow)
    ensures row.order == (if Truthy(song.order) then song.order else Num(1))
    ensures row.key == (if Truthy(song.key) then song.key else Null)
    ensures row.bpm == (if Truthy(song.bpm) then song.bpm else Null)
    ensures row.title == song.title && row.eventId == eventId
  {
    SongRow(id, eventId, song.title, Or(song.order, Num(1)), Or(song.key, Null), Or(song.bpm, Null))
  }

  function PlanSongs(eventId: string, songs: seq<Song>, uuid: Uuid, k: nat): (b: Built)
    ensures b.next >= k
    ensures NoThrow(b.plan) <==> forall i :: 0 <= i < |songs| ==> songs[i].title != Undefined
    ensures NoThrow(b.plan) ==> |b.plan| == |songs|
    ensures forall i :: 0 <= i < |b.plan| && b.plan[i].Exec? ==>
              b.plan[i].write.InsertSong? && b.plan[i].write.song.eventId == eventId
  {
    if songs == [] then Built([], k)
    else
      var (id, k1) := IdOr(songs[0].id, uuid, k);
      if songs[0].title == Undefined then
        var b := Built([Throw(ThrowUndefined)], k1);
        assert !b.plan[0].Exec?;
        b
      else
        var rest := PlanSongs(eventId, songs[1..], uuid, k1);
        var head := [Exec(InsertSong(SongRowOf(id, eventId, songs[0])))];
        assert forall i :: 1 <= i < |songs| ==> songs[i] == songs[1..][i - 1];
        NoThrowAppend(head, rest.plan);
        Built(head + rest.plan, rest.next)
  }

  /** The statement for the `i`-th song: an exception for an undefined
      title, otherwise the insert of its row. */
  function SongAt(eventId: string, songs: seq<Song>, i: nat, uuid: Uuid, k: nat): Statement
    requires i < |songs|
  {
    if songs[i].title == Undefined then Throw(ThrowUndefined)
    else Exec(InsertSong(SongRowOf(IdAt(Ids(songs, SongId), i, uuid, k), eventId, songs[i])))
  }

  function SongRows(eventId: string, songs: seq<Song>, uuid: Uuid, k: nat): (rows: seq<SongRow>)
    ensures |rows| == |songs|
  {
    seq(|songs|, i requires 0 <= i < |songs| => SongRowOf(IdAt(Ids(songs, SongId), i, uuid, k), eventId, songs[i]))
  }

  /** The song section issues, in order, the statement of each song up to the
      first exception. */
  lemma SongAtTail(eventId: string, songs: seq<Song>, i: nat, uuid: Uuid, k: nat)
    requires 0 < i < |songs|
    ensures SongAt(eventId, songs[1..], i - 1, uuid, IdOr(songs[0].id, uuid, k).1) == SongAt(eventId, songs, i, uuid, k)
  {
    assert Ids(songs[1..], SongId) == Ids(songs, SongId)[1..];
    assert songs[1..][i - 1] == songs[i];
    IdAtTail(Ids(songs, SongId), i, uuid, k);
  }

  lemma {:induction false} SongsPlanAt(eventId: string, songs: seq<Song>, uuid: Uuid, k: nat)
    ensures var b := PlanSongs(eventId, songs, uuid, k);
            && |b.plan| <= |songs|
            && forall i :: 0 <= i < |b.plan| ==> b.plan[i] == SongAt(eventId, songs, i, uuid, k)
  {
    if songs != [] {
      var (id, k1) := IdOr(songs[0].id, uuid, k);
      var b := PlanSongs(eventId, songs, uuid, k);
      IdAtFirst(Ids(songs, SongId), uuid, k);
      if songs[0].title != Undefined {
        var rest := PlanSongs(eventId, songs[1..], uuid, k1);
        SongsPlanAt(eventId, songs[1..], uuid, k1);
        assert b.plan == [SongAt(eventId, songs, 0, uuid, k)] + rest.plan;
        SongsShift(eventId, songs, uuid, k, rest.plan);
      }
    }
  }

  lemma SongsShift(eventId: string, songs: seq<Song>, uuid: Uuid, k: nat, rest: seq<Statement>)
    requires songs != [] && |rest| < |songs|
    requires forall i :: 0 <= i < |rest| ==> rest[i] == SongAt(eventId, songs[1..], i, uuid, IdOr(songs[0].id, uuid, k).1)
    ensures forall i :: 0 <= i < |rest| + 1 ==> ([SongAt(eventId, songs, 0, uuid, k)] + rest)[i] == SongAt(eventId, songs, i, uuid, k)
  {
    var plan := [SongAt(eventId, songs, 0, uuid, k)] + rest;
    forall i | 1 <= i < |plan|
      ensures plan[i] == SongAt(eventId, songs, i, uuid, k)
    {
      assert plan[i] == rest[i - 1];
      SongAtTail(eventId, songs, i, uuid, k);
    }
  }

  /** A presentation row; `uploadedAt` falls back to the creation time. */
  function PresentationRowOf(id: Value, eventId: string, p: Presentation, now: int): (row: PresentationRow)
    ensures row.uploadedAt == (if Truthy(p.uploadedAt) then p.uploadedAt else Num(now))
    ensures row.fileName == p.name && row.fileUrl == p.url && row.eventId == eventId
  {
    PresentationRow(id, eventId, p.name, Or(p.size, Null), Or(p.fileType, Null), p.url, Or(p.uploadedAt, Num(now)))
  }

  function PlanPresentations(eventId: string, ps: seq<Presentation>, now: int, uuid: Uuid, k: nat): (b: Built)
    ensures b.next >= k
    ensures NoThrow(b.plan) <==> forall i :: 0 <= i < |ps| ==> ps[i].name != Undefined && ps[i].url != Undefined
    ensures NoThrow(b.plan) ==> |b.plan| == |ps|
    ensures forall i :: 0 <= i < |b.plan| && b.plan[i].Exec? ==>
              b.plan[i].write.InsertPresentation? && b.plan[i].write.presentation.eventId == eventId
  {
    if ps == [] then Built([], k)
    else
      var (id, k1) := IdOr(ps[0].id, uuid, k);
      if ps[0].name == Undefined || ps[0].url == Undefined then
        var b := Built([Throw(ThrowUndefined)], k1);
        assert !b.plan[0].Exec?;
        b
      else
        var rest := PlanPresentations(eventId, ps[1..], now, uuid, k1);
        var head := [Exec(InsertPresentation(PresentationRowOf(id, eventId, ps[0], now)))];
        assert forall i :: 1 <= i < |ps| ==> ps[i] == ps[1..][i - 1];
        NoThrowAppend(head, rest.plan);
        Built(head + rest.plan, rest.next)
  }

  /** The statement for the `i`-th presentation: an exception for an
      undefined name or url, otherwise the insert of its row. */
  function PresentationAt(eventId: string, ps: seq<Presentation>, i: nat, now: int, uuid: Uuid, k: nat): Statement
    requires i < |ps|
  {
    if ps[i].name == Undefined || ps[i].url == Undefined then Throw(ThrowUndefined)
    else Exec(InsertPresentation(PresentationRowOf(IdAt(Ids(ps, PresentationId), i, uuid, k), eventId, ps[i], now)))
  }

  function PresentationRows(eventId: string, ps: seq<Presentation>, now: int, uuid: Uuid, k: nat): (rows: seq<PresentationRow>)
    ensures |rows| == |ps|
  {
    seq(|ps|, i requires 0 <= i < |ps| => PresentationRowOf(IdAt(Ids(ps, PresentationId), i, uuid, k), eventId, ps[i], now))
  }

  /** The presentation section issues, in order, the statement of each
      presentation up to the first exception. */
  lemma PresentationAtTail(eventId: string, ps: seq<Presentation>, i: nat, now: int, uuid: Uuid, k: nat)
    requires 0 < i < |ps|
    ensures PresentationAt(eventId, ps[1..], i - 1, now, uuid, IdOr(ps[0].id, uuid, k).1) == PresentationAt(eventId, ps, i, now, uuid, k)
  {
    assert Ids(ps[1..], PresentationId) == Ids(ps, PresentationId)[1..];
    assert ps[1..][i - 1] == ps[i];
    IdAtTail(Ids(ps, PresentationId), i, uuid, k);
  }

  lemma {:induction false} PresentationsPlanAt(eventId: string, ps: seq<Presentation>, now: int, uuid: Uuid, k: nat)
    ensures var b := PlanPresentations(eventId, ps, now, uuid, k);
            && |b.plan| <= |ps|
            && forall i :: 0 <= i < |b.plan| ==> b.plan[i] == PresentationAt(eventId, ps, i, now, uuid, k)
  {
    if ps != [] {
      var (id, k1) := IdOr(ps[0].id, uuid, k);
      var b := PlanPresentations(eventId, ps, now, uuid, k);
      IdAtFirst(Ids(ps, PresentationId), uuid, k);
      if ps[0].name != Undefined && ps[0].url != Undefined {
        var rest := PlanPresentations(eventId, ps[1..], now, uuid, k1);
        PresentationsPlanAt(eventId, ps[1..], now, uuid, k1);
        assert b.plan == [PresentationAt(eventId, ps, 0, now, uuid, k)] + rest.plan;
        PresentationsShift(eventId, ps, now, uuid, k, rest.plan);
      }
    }
  }

  lemma PresentationsShift(eventId: string, ps: seq<Presentation>, now: int, uuid: Uuid, k: nat, rest: seq<Statement>)
    requires ps != [] && |rest| < |ps|
    requires forall i :: 0 <= i < |rest| ==> rest[i] == PresentationAt(eventId, ps[1..], i, now, uuid, IdOr(ps[0].id, uuid, k).1)
    ensures forall i :: 0 <= i < |rest| + 1 ==>
              ([PresentationAt(eventId, ps, 0, now, uuid, k)] + rest)[i] == PresentationAt(eventId, ps, i, now, uuid, k)
  {
    var plan := [PresentationAt(eventId, ps, 0, now, uuid, k)] + rest;
    forall i | 1 <= i < |plan|
      ensures plan[i] == PresentationAt(eventId, ps, i, now, uuid, k)
    {
      assert plan[i] == rest[i - 1];
      PresentationAtTail(eventId, ps, i, now, uuid, k);
    }
  }

  // ---------------------------------------------------------------------
  // Team assignments

  /** The four team keys the client uses and the display names they stand for. */
  const TeamKeyMapping: map<string, string> := map[
    "team-singer" := "Singer Team",
    "team-music" := "Music Team",
    "team-usher" := "Usher Team",
    "team-media" := "Media Team"]

  /** `teamKeyMapping[teamKey] || teamKey`. */
  function TeamName(teamKey: string): (name: string)
    ensures teamKey in TeamKeyMapping ==> name == TeamKeyMapping[teamKey]
    ensures teamKey !in TeamKeyMapping ==> name == teamKey
  {
    if teamKey in TeamKeyMapping then TeamKeyMapping[teamKey] else teamKey
  }

  /** `SELECT id FROM teams WHERE LOWER(name) LIKE LOWER('%name%') AND
      is_active = 1`, first row: the first active team, in storage order,
      whose lowercased name contains the lowercased needle. */
  function ResolveTeam(teams: seq<Team>, name: string): (r: Option<string>)
    ensures r.Some? <==> exists i :: 0 <= i < |teams| && TeamMatches(teams[i], name)
    ensures r.Some? ==>
              exists i :: (0 <= i < |teams| && teams[i].id == r.value && TeamMatches(teams[i], name)
                           && forall j :: 0 <= j < i ==> !TeamMatches(teams[j], name))
  {
    if teams == [] then None
    else if TeamMatches(teams[0], name) then Some(teams[0].id)
    else
      var r := ResolveTeam(teams[1..], name);
      assert r.Some? ==>
               exists i :: (1 <= i < |teams| && teams[i].id == r.value && TeamMatches(teams[i], name)
                            && forall j :: 0 <= j < i ==> !TeamMatches(teams[j], name)) by {
        if r.Some? {
          var i :| 0 <= i < |teams[1..]| && teams[1..][i].id == r.value && TeamMatches(teams[1..][i], name)
                   && forall j :: 0 <= j < i ==> !TeamMatches(teams[1..][j], name);
          assert teams[i + 1] == teams[1..][i];
          forall j | 1 <= j < i + 1
            ensures !TeamMatches(teams[j], name)
          {
            assert teams[j] == teams[1..][j - 1];
          }
        }
      }
      assert r.Some? <== exists i :: 0 <= i < |teams| && TeamMatches(teams[i], name) by {
        if exists i :: 0 <= i < |teams| && TeamMatches(teams[i], name) {
          var i :| 0 <= i < |teams| && TeamMatches(teams[i], name);
          assert i > 0;
          assert teams[1..][i - 1] == teams[i];
        }
      }
      r
  }

  /** An active team whose lowercased name contains the lowercased needle
      (`LIKE` under the case-insensitive collation, `is_active = 1`). */
  predicate TeamMatches(t: Team, name: string) {
    t.isActive && Contains(Lower(t.name), Lower(name))
  }

  /** One member row per listed assignee; each draws a fresh id. */
  function MemberRows(eventTeamId: string, members: seq<Assignee>, uuid: Uuid, k: nat): (plan: seq<Statement>)
    ensures |plan| == |members|
    ensures forall i :: 0 <= i < |plan| ==>
              plan[i] == Exec(InsertEventTeamMember(EventTeamMember(uuid(k + i), eventTeamId,
                Or(members[i].userId, Null), Or(members[i].roleInEvent, Null), Or(members[i].details, Null))))
  {
    if members == [] then []
    else
      [Exec(InsertEventTeamMember(EventTeamMember(uuid(k), eventTeamId, Or(members[0].userId, Null),
                                                  Or(members[0].roleInEvent, Null), Or(members[0].details, Null))))]
      + MemberRows(eventTeamId, members[1..], uuid, k + 1)
  }

  /** The member rows of one team link, in the order of its assignees. */
  function AssigneeRows(eventTeamId: string, members: seq<Assignee>, uuid: Uuid, k: nat): (rows: seq<EventTeamMember>)
    ensures |rows| == |members|
  {
    seq(|members|, i requires 0 <= i < |members| =>
      EventTeamMember(uuid(k + i), eventTeamId, Or(members[i].userId, Null), Or(members[i].roleInEvent, Null), Or(members[i].details, Null)))
  }

  /** Entry `e` of the assignment object produces the pair `p`: its member
      list is an array and its key names a team that resolves to `p.0`. */
  predicate ResolvesTo(teams: seq<Team>, e: (string, Items<Assignee>), p: (string, seq<Assignee>)) {
    e.1 == Array(p.1) && ResolveTeam(teams, TeamName(e.0)) == Some(p.0)
  }

  /** The pair one entry produces, if any. */
  function ResolvedEntry(teams: seq<Team>, e: (string, Items<Assignee>)): (r: Option<(string, seq<Assignee>)>)
    ensures r.Some? ==> ResolvesTo(teams, e, r.value)
    ensures forall p :: ResolvesTo(teams, e, p) ==> r == Some(p)
  {
    match (e.1, ResolveTeam(teams, TeamName(e.0)))
    case (Array(ms), Some(teamId)) => Some((teamId, ms))
    case _ => None
  }

  /** The team entries that produce writes: array member lists whose team
      resolves. */
  function Resolved(teams: seq<Team>, entries: seq<(string, Items<Assignee>)>): (r: seq<(string, seq<Assignee>)>)
    ensures |r| <= |entries|
    ensures forall p :: p in r <==> exists i :: 0 <= i < |entries| && ResolvesTo(teams, entries[i], p)
  {
    if entries == [] then []
    else
      var rest := Resolved(teams, entries[1..]);
      var head := ResolvedEntry(teams, entries[0]);
      var r := if head.Some? then [head.value] + rest else rest;
      ResolvedCons(teams, entries, head, rest, r);
      r
  }

  /** The step of `Resolved`: the first entry's pair, if any, before the rest. */
  lemma ResolvedCons(teams: seq<Team>, entries: seq<(string, Items<Assignee>)>, head: Option<(string, seq<Assignee>)>,
                     rest: seq<(string, seq<Assignee>)>, r: seq<(string, seq<Assignee>)>)
    requires entries != []
    requires head.Some? ==> ResolvesTo(teams, entries[0], head.value)
    requires forall p :: ResolvesTo(teams, entries[0], p) ==> head == Some(p)
    requires forall p :: p in rest <==> exists i :: 0 <= i < |entries[1..]| && ResolvesTo(teams, entries[1..][i], p)
    requires r == if head.Some? then [head.value] + rest else rest
    ensures forall p :: p in r <==> exists i :: 0 <= i < |entries| && ResolvesTo(teams, entries[i], p)
  {
    ResolvedTail(teams, entries, rest);
    forall p | p in r
      ensures exists i :: 0 <= i < |entries| && ResolvesTo(teams, entries[i], p)
    {
      if p !in rest {
        assert ResolvesTo(teams, entries[0], p);
      }
    }
    forall p: (string, seq<Assignee>) | exists i :: 0 <= i < |entries| && ResolvesTo(teams, entries[i], p)
      ensures p in r
    {
      if !ResolvesTo(teams, entries[0], p) {
        var i :| 0 <= i < |entries| && ResolvesTo(teams, entries[i], p);
        assert i != 0;
      }
    }
  }

  /** An entry resolves in the tail exactly when it resolves at a later index. */
  lemma ResolvedTail(teams: seq<Team>, entries: seq<(string, Items<Assignee>)>, rest: seq<(string, seq<Assignee>)>)
    requires entries != []
    requires forall p :: p in rest <==> exists i :: 0 <= i < |entries[1..]| && ResolvesTo(teams, entries[1..][i], p)
    ensures forall p :: p in rest <==> exists i :: 1 <= i < |entries| && ResolvesTo(teams, entries[i], p)
  {
    forall p | p in rest
      ensures exists i :: 1 <= i < |entries| && ResolvesTo(teams, entries[i], p)
    {
      var i :| 0 <= i < |entries[1..]| && ResolvesTo(teams, entries[1..][i], p);
      assert entries[i + 1] == entries[1..][i];
    }
    forall p: (string, seq<Assignee>) | exists i :: 1 <= i < |entries| && ResolvesTo(teams, entries[i], p)
      ensures p in rest
    {
      var i :| 1 <= i < |entries| && ResolvesTo(teams, entries[i], p);
      assert entries[1..][i - 1] == entries[i];
    }
  }

  function MemberTotal(rs: seq<(string, seq<Assignee>)>): nat {
    if rs == [] then 0 else |rs[0].1| + MemberTotal(rs[1..])
  }

  function CountLinks(plan: seq<Statement>): nat {
    if plan == [] then 0
    else (if plan[0].Exec? && plan[0].write.InsertEventTeam? then 1 else 0) + CountLinks(plan[1..])
  }

  lemma {:induction false} CountLinksAppend(a: seq<Statement>, b: seq<Statement>)
    ensures CountLinks(a + b) == CountLinks(a) + CountLinks(b)
  {
    if a == [] {
      assert a + b == b;
    } else {
      assert (a + b)[1..] == a[1..] + b;
      CountLinksAppend(a[1..], b);
    }
  }

  lemma {:induction false} MemberRowsHaveNoLinks(eventTeamId: string, members: seq<Assignee>, uuid: Uuid, k: nat)
    ensures CountLinks(MemberRows(eventTeamId, members, uuid, k)) == 0
  {
    if members != [] {
      MemberRowsHaveNoLinks(eventTeamId, members[1..], uuid, k + 1);
    }
  }

  /** The team section: for every entry whose member list is an array and
      whose team resolves (`Resolved`), one `event_teams` row followed by one
      member row per assignee; the other entries are skipped without a write
      and without drawing a fresh id. */
  function PlanTeams(eventId: string, rs: seq<(string, seq<Assignee>)>, uuid: Uuid, k: nat): (b: Built)
    ensures b.next >= k
  {
    if rs == [] then Built([], k)
    else
      var (teamId, ms) := rs[0];
      var link := Exec(InsertEventTeam(EventTeam(uuid(k), teamId, eventId)));
      var rows := MemberRows(uuid(k), ms, uuid, k + 1);
      var rest := PlanTeams(eventId, rs[1..], uuid, k + 1 + |ms|);
      Built([link] + rows + rest.plan, rest.next)
  }

  /** The `event_teams` rows of a team section: one per resolved entry, for
      its team and this event, under the fresh id drawn before its members'. */
  function TeamLinks(eventId: string, rs: seq<(string, seq<Assignee>)>, uuid: Uuid, k: nat): (links: seq<EventTeam>)
    ensures |links| == |rs|
    ensures forall i :: 0 <= i < |rs| ==> links[i].teamId == rs[i].0 && links[i].eventId == eventId
  {
    if rs == [] then []
    else
      var rest := TeamLinks(eventId, rs[1..], uuid, k + 1 + |rs[0].1|);
      assert forall i :: 1 <= i < |rs| ==> rs[i] == rs[1..][i - 1];
      [EventTeam(uuid(k), rs[0].0, eventId)] + rest
  }

  /** The member rows of a team section, each pointing at the link it
      follows. */
  function TeamMemberRows(rs: seq<(string, seq<Assignee>)>, uuid: Uuid, k: nat): (rows: seq<EventTeamMember>)
    ensures |rows| == MemberTotal(rs)
  {
    if rs == [] then []
    else AssigneeRows(uuid(k), rs[0].1, uuid, k + 1) + TeamMemberRows(rs[1..], uuid, k + 1 + |rs[0].1|)
  }

  /** Only team rows, never an exception. */
  predicate TeamWrites(plan: seq<Statement>, eventId: string) {
    forall i :: 0 <= i < |plan| ==>
      plan[i].Exec? && (plan[i].write.InsertEventTeamMember?
                        || (plan[i].write.InsertEventTeam? && plan[i].write.link.eventId == eventId))
  }

  lemma TeamWritesAppend(a: seq<Statement>, b: seq<Statement>, eventId: string)
    requires TeamWrites(a, eventId) && TeamWrites(b, eventId)
    ensures TeamWrites(a + b, eventId)
  {
    forall i | 0 <= i < |a + b|
      ensures (a + b)[i] == if i < |a| then a[i] else b[i - |a|]
    {
    }
  }

  /** The team section writes only team rows, linked to this event. */
  lemma {:induction false} TeamsPlanWrites(eventId: string, rs: seq<(string, seq<Assignee>)>, uuid: Uuid, k: nat)
    ensures TeamWrites(PlanTeams(eventId, rs, uuid, k).plan, eventId)
  {
    if rs != [] {
      var (teamId, ms) := rs[0];
      var link := Exec(InsertEventTeam(EventTeam(uuid(k), teamId, eventId)));
      var rows := MemberRows(uuid(k), ms, uuid, k + 1);
      TeamsPlanWrites(eventId, rs[1..], uuid, k + 1 + |ms|);
      TeamWritesAppend([link], rows, eventId);
      TeamWritesAppend([link] + rows, PlanTeams(eventId, rs[1..], uuid, k + 1 + |ms|).plan, eventId);
    }
  }

  /** The team section writes one `event_teams` row per resolved entry. */
  lemma {:induction false} TeamsPlanLinks(eventId: string, rs: seq<(string, seq<Assignee>)>, uuid: Uuid, k: nat)
    ensures CountLinks(PlanTeams(eventId, rs, uuid, k).plan) == |rs|
  {
    if rs != [] {
      LinksStep(eventId, rs, uuid, k);
      TeamsPlanLinks(eventId, rs[1..], uuid, k + 1 + |rs[0].1|);
    }
  }

  /** The first resolved entry contributes exactly one link. */
  lemma LinksStep(eventId: string, rs: seq<(string, seq<Assignee>)>, uuid: Uuid, k: nat)
    requires rs != []
    ensures CountLinks(PlanTeams(eventId, rs, uuid, k).plan)
            == 1 + CountLinks(PlanTeams(eventId, rs[1..], uuid, k + 1 + |rs[0].1|).plan)
  {
    var link, rows, rest := PlanTeamsUnfold(eventId, rs, uuid, k);
    MemberRowsHaveNoLinks(uuid(k), rs[0].1, uuid, k + 1);
    LinksOfBlock(link, rows, rest);
  }

  /** One step of the team section: the link, its member rows, the rest. */
  lemma PlanTeamsUnfold(eventId: string, rs: seq<(string, seq<Assignee>)>, uuid: Uuid, k: nat)
      returns (link: Statement, rows: seq<Statement>, rest: seq<Statement>)
    requires rs != []
    ensures link == Exec(InsertEventTeam(EventTeam(uuid(k), rs[0].0, eventId)))
    ensures rows == MemberRows(uuid(k), rs[0].1, uuid, k + 1)
    ensures rest == PlanTeams(eventId, rs[1..], uuid, k + 1 + |rs[0].1|).plan
    ensures PlanTeams(eventId, rs, uuid, k).plan == [link] + rows + rest
  {
    link := Exec(InsertEventTeam(EventTeam(uuid(k), rs[0].0, eventId)));
    rows := MemberRows(uuid(k), rs[0].1, uuid, k + 1);
    rest := PlanTeams(eventId, rs[1..], uuid, k + 1 + |rs[0].1|).plan;
  }

  lemma LinksOfBlock(link: Statement, rows: seq<Statement>, rest: seq<Statement>)
    requires link.Exec? && link.write.InsertEventTeam? && CountLinks(rows) == 0
    ensures CountLinks([link] + rows + rest) == 1 + CountLinks(rest)
  {
    assert CountLinks([link]) == 1;
    CountLinksAppend([link], rows);
    CountLinksAppend([link] + rows, rest);
  }

  /** The team section has one statement per resolved entry plus one per
      assignee of those entries. */
  lemma {:induction false} TeamsPlanLength(eventId: string, rs: seq<(string, seq<Assignee>)>, uuid: Uuid, k: nat)
    ensures |PlanTeams(eventId, rs, uuid, k).plan| == |rs| + MemberTotal(rs)
  {
    if rs != [] {
      TeamsPlanLength(eventId, rs[1..], uuid, k + 1 + |rs[0].1|);
    }
  }

  // ---------------------------------------------------------------------
  // The whole plan

  /** No statement inserts an event. */
  predicate NoEventInsert(plan: seq<Statement>) {
    forall i :: 0 <= i < |plan| && plan[i].Exec? ==> !plan[i].write.InsertEvent?
  }

  lemma NoEventInsertAppend(a: seq<Statement>, b: seq<Statement>)
    requires NoEventInsert(a) && NoEventInsert(b)
    ensures NoEventInsert(a + b)
  {
    forall i | 0 <= i < |a + b|
      ensures (a + b)[i] == if i < |a| then a[i] else b[i - |a|]
    {
    }
  }

  /** The sections of the plan after the event insert, each continuing the
      fresh-id counter where the previous one stopped; the event took id 0. */
  datatype Sections = Sections(speakers: Built, translators: Built, songs: Built, presentations: Built, teams: Built)

  /** The team entries that produce writes; none without an assignment object. */
  function TeamEntries(s: Store, d: Payload): seq<(string, seq<Assignee>)> {
    Resolved(s.teams, d.teamAssignments.GetOr([]))
  }

  function SectionsOf(s: Store, d: Payload, eventId: string, now: int, uuid: Uuid): Sections {
    var sp := PlanSpeakers(eventId, Elems(d.speakers), uuid, 1);
    var tr := PlanTranslators(eventId, d.speakers, Elems(d.translators), uuid, sp.next);
    var so := PlanSongs(eventId, Elems(d.songs), uuid, tr.next);
    var pr := PlanPresentations(eventId, Elems(d.presentations), now, uuid, so.next);
    Sections(sp, tr, so, pr, PlanTeams(eventId, TeamEntries(s, d), uuid, pr.next))
  }

  /** The statements after the event insert: speakers, translators, songs,
      presentations, then team assignments. */
  function Body(s: Store, d: Payload, eventId: string, now: int, uuid: Uuid): (plan: seq<Statement>)
    ensures NoEventInsert(plan)
  {
    var x := SectionsOf(s, d, eventId, now, uuid);
    assert NoEventInsert(x.translators.plan) by {
      assert SpeakerWrites(x.translators.plan);
    }
    assert NoEventInsert(x.teams.plan) by {
      TeamsPlanWrites(eventId, TeamEntries(s, d), uuid, x.presentations.next);
    }
    NoEventInsertAppend(x.speakers.plan, x.translators.plan);
    NoEventInsertAppend(x.speakers.plan + x.translators.plan, x.songs.plan);
    NoEventInsertAppend(x.speakers.plan + x.translators.plan + x.songs.plan, x.presentations.plan);
    NoEventInsertAppend(x.speakers.plan + x.translators.plan + x.songs.plan + x.presentations.plan, x.teams.plan);
    x.speakers.plan + x.translators.plan + x.songs.plan + x.presentations.plan + x.teams.plan
  }

  /** The statements `createEvent` issues, in order. The event takes the
      first fresh id. */
  function Plan(s: Store, d: Payload, now: int, uuid: Uuid): (plan: seq<Statement>)
    ensures plan != []
    ensures (d.startTime.None? || d.endTime.None? || d.name == Undefined) ==> plan[0].Throw?
    ensures plan[0].Exec? ==> plan[0].write == InsertEvent(EventRow(uuid(0), d, d.startTime.value, d.endTime.value, now))
    ensures NoEventInsert(plan[1..])
  {
    if d.startTime.None? || d.endTime.None? then [Throw(ThrowInvalidDate)]
    else if d.name == Undefined then [Throw(ThrowUndefined)]
    else
      var body := Body(s, d, uuid(0), now, uuid);
      var plan := [Exec(InsertEvent(EventRow(uuid(0), d, d.startTime.value, d.endTime.value, now)))] + body;
      assert plan[1..] == body;
      plan
  }

  // ---------------------------------------------------------------------
  // Running the transaction

  /** The rows of this event the speaker-update statement matches. */
  function AttachTo(rows: seq<SpeakerRow>, eventId: string, speakerId: Value, tid: Value, tname: Value): (r: seq<SpeakerRow>)
    ensures |r| == |rows|
    ensures forall i :: 0 <= i < |rows| ==>
              r[i] == if rows[i].eventId == eventId && SqlEq(rows[i].speakerId, speakerId) && rows[i].speakerType == Str("user")
                      then rows[i].(translatorId := tid, translatorName := tname) else rows[i]
  {
    if rows == [] then []
    else
      var row := rows[0];
      var row' := if row.eventId == eventId && SqlEq(row.speakerId, speakerId) && row.speakerType == Str("user")
                  then row.(translatorId := tid, translatorName := tname) else row;
      [row'] + AttachTo(rows[1..], eventId, speakerId, tid, tname)
  }

  /** The effect of one write. Writes touch only the six event tables. */
  function Apply(s: Store, w: Write): (r: Store)
    ensures r == s.(events := r.events, speakers := r.speakers, songs := r.songs,
                    presentations := r.presentations, eventTeams := r.eventTeams,
                    eventTeamMembers := r.eventTeamMembers)
  {
    match w
    case InsertEvent(e) => s.(events := s.events + [e])
    case InsertSpeaker(row) => s.(speakers := s.speakers + [row])
    case AttachTranslator(eventId, speakerId, tid, tname) =>
      s.(speakers := AttachTo(s.speakers, eventId, speakerId, tid, tname))
    case InsertSong(row) => s.(songs := s.songs + [row])
    case InsertPresentation(row) => s.(presentations := s.presentations + [row])
    case InsertEventTeam(link) => s.(eventTeams := s.eventTeams + [link])
    case InsertEventTeamMember(m) => s.(eventTeamMembers := s.eventTeamMembers + [m])
  }

  function ApplyAll(s: Store, ws: seq<Write>): Store
    decreases |ws|
  {
    if ws == [] then s else ApplyAll(Apply(s, ws[0]), ws[1..])
  }

  /** The index of the statement that stops the transaction: the first
      `Throw`, or the first write the database rejects (`faults` lists the
      indices of the writes that fail, e.g. on a duplicate client-supplied
      id); `None` when every statement succeeds. */
  function FirstFailure(plan: seq<Statement>, faults: set<nat>, i: nat): (r: Option<nat>)
    requires i <= |plan|
    ensures r.None? <==> forall j :: i <= j < |plan| ==> plan[j].Exec? && j !in faults
    ensures r.Some? ==> i <= r.value < |plan|
    decreases |plan| - i
  {
    if i == |plan| then None
    else if plan[i].Throw? || i in faults then Some(i)
    else FirstFailure(plan, faults, i + 1)
  }

  /** `createEvent`: on success every planned write is applied and the new
      event id is returned; on any failure the rollback leaves the store as
      it was, and the catch block ends in an exception of its own because
      the caught error shadows the `error` helper. */
  function CreateEvent(s: Store, d: Payload, now: int, uuid: Uuid, faults: set<nat>): (r: Attempt<string>)
    ensures var plan := Plan(s, d, now, uuid);
            r.outcome.Returned? <==> FirstFailure(plan, faults, 0).None?
    ensures r.outcome.Threw? ==> r.store == s
    ensures r.outcome.Returned? ==>
              && NoThrow(Plan(s, d, now, uuid))
              && r.store == ApplyAll(s, Writes(Plan(s, d, now, uuid)))
              && r.outcome.env == Succeed("EVENT_CREATED", "Event created successfully", Some(uuid(0)))
  {
    var plan := Plan(s, d, now, uuid);
    match FirstFailure(plan, faults, 0)
    case Some(_) => Attempt(s, Threw("TypeError: error is not a function"))
    case None =>
      Attempt(ApplyAll(s, Writes(plan)), Returned(Succeed("EVENT_CREATED", "Event created successfully", Some(uuid(0)))))
  }

  // ---------------------------------------------------------------------
  // Properties of a committed creation

  lemma {:induction false} LaterWritesKeepEvents(s: Store, ws: seq<Write>)
    requires forall i :: 0 <= i < |ws| ==> !ws[i].InsertEvent?
    ensures ApplyAll(s, ws).events == s.events
    decreases |ws|
  {
    if ws != [] {
      LaterWritesKeepEvents(Apply(s, ws[0]), ws[1..]);
    }
  }

  lemma {:induction false} ApplyAllAppend(s: Store, x: seq<Write>, y: seq<Write>)
    ensures ApplyAll(s, x + y) == ApplyAll(ApplyAll(s, x), y)
    decreases |x|
  {
    if x == [] {
      assert x + y == y;
    } else {
      assert (x + y)[0] == x[0] && (x + y)[1..] == x[1..] + y;
      ApplyAllAppend(Apply(s, x[0]), x[1..], y);
    }
  }

  lemma WritesAppend(a: seq<Statement>, b: seq<Statement>)
    requires NoThrow(a) && NoThrow(b)
    ensures NoThrow(a + b) && Writes(a + b) == Writes(a) + Writes(b)
  {
    NoThrowAppend(a, b);
    assert Writes(a + b) == Writes(a) + Writes(b);
  }

  lemma WritesAppend3(a: seq<Statement>, b: seq<Statement>, c: seq<Statement>)
    requires NoThrow(a) && NoThrow(b) && NoThrow(c)
    ensures NoThrow(a + b + c) && Writes(a + b + c) == Writes(a) + Writes(b) + Writes(c)
  {
    WritesAppend(a, b);
    WritesAppend(a + b, c);
  }

  /** Running two statement lists one after the other. */
  lemma ApplyPlanAppend(s: Store, a: seq<Statement>, b: seq<Statement>)
    requires NoThrow(a) && NoThrow(b)
    ensures NoThrow(a + b)
    ensures ApplyAll(s, Writes(a + b)) == ApplyAll(ApplyAll(s, Writes(a)), Writes(b))
  {
    WritesAppend(a, b);
    ApplyAllAppend(s, Writes(a), Writes(b));
  }

  /** One step of running a plan. */
  lemma ApplyPlanCons(s: Store, plan: seq<Statement>)
    requires plan != [] && NoThrow(plan)
    ensures NoThrow(plan[1..])
    ensures ApplyAll(s, Writes(plan)) == ApplyAll(Apply(s, plan[0].write), Writes(plan[1..]))
  {
    assert forall i :: 0 <= i < |plan[1..]| ==> plan[1..][i] == plan[i + 1];
    assert Writes(plan) == [plan[0].write] + Writes(plan[1..]);
  }

  function SpeakerInserts(rows: seq<SpeakerRow>): (ws: seq<Write>)
    ensures |ws| == |rows| && forall i :: 0 <= i < |rows| ==> ws[i] == InsertSpeaker(rows[i])
  {
    seq(|rows|, i requires 0 <= i < |rows| => InsertSpeaker(rows[i]))
  }

  lemma {:induction false} InsertSpeakersEffect(s: Store, rows: seq<SpeakerRow>)
    ensures ApplyAll(s, SpeakerInserts(rows)) == s.(speakers := s.speakers + rows)
    decreases |rows|
  {
    if rows == [] {
      assert s.speakers + rows == s.speakers;
    } else {
      assert SpeakerInserts(rows)[1..] == SpeakerInserts(rows[1..]);
      InsertSpeakersEffect(s.(speakers := s.speakers + [rows[0]]), rows[1..]);
      assert s.speakers + [rows[0]] + rows[1..] == s.speakers + rows;
    }
  }

  function SongInserts(rows: seq<SongRow>): (ws: seq<Write>)
    ensures |ws| == |rows| && forall i :: 0 <= i < |rows| ==> ws[i] == InsertSong(rows[i])
  {
    seq(|rows|, i requires 0 <= i < |rows| => InsertSong(rows[i]))
  }

  lemma {:induction false} InsertSongsEffect(s: Store, rows: seq<SongRow>)
    ensures ApplyAll(s, SongInserts(rows)) == s.(songs := s.songs + rows)
    decreases |rows|
  {
    if rows == [] {
      assert s.songs + rows == s.songs;
    } else {
      assert SongInserts(rows)[1..] == SongInserts(rows[1..]);
      InsertSongsEffect(s.(songs := s.songs + [rows[0]]), rows[1..]);
      assert s.songs + [rows[0]] + rows[1..] == s.songs + rows;
    }
  }

  function PresentationInserts(rows: seq<PresentationRow>): (ws: seq<Write>)
    ensures |ws| == |rows| && forall i :: 0 <= i < |rows| ==> ws[i] == InsertPresentation(rows[i])
  {
    seq(|rows|, i requires 0 <= i < |rows| => InsertPresentation(rows[i]))
  }

  lemma {:induction false} InsertPresentationsEffect(s: Store, rows: seq<PresentationRow>)
    ensures ApplyAll(s, PresentationInserts(rows)) == s.(presentations := s.presentations + rows)
    decreases |rows|
  {
    if rows == [] {
      assert s.presentations + rows == s.presentations;
    } else {
      assert PresentationInserts(rows)[1..] == PresentationInserts(rows[1..]);
      InsertPresentationsEffect(s.(presentations := s.presentations + [rows[0]]), rows[1..]);
      assert s.presentations + [rows[0]] + rows[1..] == s.presentations + rows;
    }
  }

  function MemberInserts(rows: seq<EventTeamMember>): (ws: seq<Write>)
    ensures |ws| == |rows| && forall i :: 0 <= i < |rows| ==> ws[i] == InsertEventTeamMember(rows[i])
  {
    seq(|rows|, i requires 0 <= i < |rows| => InsertEventTeamMember(rows[i]))
  }

  lemma {:induction false} InsertMembersEffect(s: Store, rows: seq<EventTeamMember>)
    ensures ApplyAll(s, MemberInserts(rows)) == s.(eventTeamMembers := s.eventTeamMembers + rows)
    decreases |rows|
  {
    if rows == [] {
      assert s.eventTeamMembers + rows == s.eventTeamMembers;
    } else {
      assert MemberInserts(rows)[1..] == MemberInserts(rows[1..]);
      InsertMembersEffect(s.(eventTeamMembers := s.eventTeamMembers + [rows[0]]), rows[1..]);
      assert s.eventTeamMembers + [rows[0]] + rows[1..] == s.eventTeamMembers + rows;
    }
  }

  /** The translator section changes the speaker table only. */
  lemma {:induction false} SpeakerWritesFrame(s: Store, plan: seq<Statement>)
    requires NoThrow(plan) && SpeakerWrites(plan)
    ensures ApplyAll(s, Writes(plan)) == s.(speakers := ApplyAll(s, Writes(plan)).speakers)
    decreases |plan|
  {
    if plan != [] {
      ApplyPlanCons(s, plan);
      assert SpeakerWrites(plan[1..]) by {
        assert forall i :: 0 <= i < |plan[1..]| ==> plan[1..][i] == plan[i + 1];
      }
      SpeakerWritesFrame(Apply(s, plan[0].write), plan[1..]);
    }
  }

  /** The speaker section throws exactly when some type does not normalise. */
  lemma {:induction false} SpeakersNoThrow(eventId: string, speakers: seq<Person>, uuid: Uuid, k: nat)
    ensures NoThrow(PlanSpeakers(eventId, speakers, uuid, k).plan) <==> AllTyped(speakers)
    decreases |speakers|
  {
    if speakers != [] {
      var k1 := IdOr(speakers[0].id, uuid, k).1;
      SpeakersPlanCons(eventId, speakers, uuid, k);
      AllTypedCons(speakers);
      SpeakersNoThrow(eventId, speakers[1..], uuid, k1);
      var rest := PlanSpeakers(eventId, speakers[1..], uuid, k1).plan;
      if NormaliseType(speakers[0].kind).Some? {
        NoThrowAppend([SpeakerAt(eventId, speakers, 0, uuid, k)], rest);
      } else {
        assert !NoThrow([Throw(ThrowNotString)]);
      }
    }
  }

  /** A speaker section without exceptions appends its rows. */
  lemma SpeakersEffect(s: Store, eventId: string, speakers: seq<Person>, uuid: Uuid, k: nat)
    requires AllTyped(speakers)
    ensures NoThrow(PlanSpeakers(eventId, speakers, uuid, k).plan)
            && ApplyAll(s, Writes(PlanSpeakers(eventId, speakers, uuid, k).plan))
            == s.(speakers := s.speakers + SpeakerRows(eventId, speakers, uuid, k))
  {
    var plan := PlanSpeakers(eventId, speakers, uuid, k).plan;
    var rows := SpeakerRows(eventId, speakers, uuid, k);
    SpeakersNoThrow(eventId, speakers, uuid, k);
    SpeakersPlanAt(eventId, speakers, uuid, k);
    assert Writes(plan) == SpeakerInserts(rows) by {
      forall i | 0 <= i < |plan|
        ensures Writes(plan)[i] == SpeakerInserts(rows)[i]
      {
        assert plan[i] == SpeakerAt(eventId, speakers, i, uuid, k);
      }
    }
    InsertSpeakersEffect(s, rows);
  }

  /** A song section without exceptions appends its rows. */
  lemma SongsEffect(s: Store, eventId: string, songs: seq<Song>, uuid: Uuid, k: nat)
    requires forall i :: 0 <= i < |songs| ==> songs[i].title != Undefined
    ensures ApplyAll(s, Writes(PlanSongs(eventId, songs, uuid, k).plan))
            == s.(songs := s.songs + SongRows(eventId, songs, uuid, k))
  {
    var plan := PlanSongs(eventId, songs, uuid, k).plan;
    var rows := SongRows(eventId, songs, uuid, k);
    SongsPlanAt(eventId, songs, uuid, k);
    assert Writes(plan) == SongInserts(rows) by {
      forall i | 0 <= i < |plan|
        ensures Writes(plan)[i] == SongInserts(rows)[i]
      {
        assert plan[i] == SongAt(eventId, songs, i, uuid, k);
      }
    }
    InsertSongsEffect(s, rows);
  }

  /** A presentation section without exceptions appends its rows. */
  lemma PresentationsEffect(s: Store, eventId: string, ps: seq<Presentation>, now: int, uuid: Uuid, k: nat)
    requires forall i :: 0 <= i < |ps| ==> ps[i].name != Undefined && ps[i].url != Undefined
    ensures ApplyAll(s, Writes(PlanPresentations(eventId, ps, now, uuid, k).plan))
            == s.(presentations := s.presentations + PresentationRows(eventId, ps, now, uuid, k))
  {
    var plan := PlanPresentations(eventId, ps, now, uuid, k).plan;
    var rows := PresentationRows(eventId, ps, now, uuid, k);
    PresentationsPlanAt(eventId, ps, now, uuid, k);
    assert Writes(plan) == PresentationInserts(rows) by {
      forall i | 0 <= i < |plan|
        ensures Writes(plan)[i] == PresentationInserts(rows)[i]
      {
        assert plan[i] == PresentationAt(eventId, ps, i, now, uuid, k);
      }
    }
    InsertPresentationsEffect(s, rows);
  }

  lemma AppendAssoc<T>(a: seq<T>, b: seq<T>, c: seq<T>)
    ensures a + b + c == a + (b + c)
  {
  }

  /** The first link of a team section and its member rows. */
  /** The member rows of one link are plain inserts of its assignee rows. */
  lemma MemberRowsWrites(eventTeamId: string, members: seq<Assignee>, uuid: Uuid, k: nat)
    ensures NoThrow(MemberRows(eventTeamId, members, uuid, k))
    ensures Writes(MemberRows(eventTeamId, members, uuid, k)) == MemberInserts(AssigneeRows(eventTeamId, members, uuid, k))
  {
    var plan := MemberRows(eventTeamId, members, uuid, k);
    var rows := AssigneeRows(eventTeamId, members, uuid, k);
    assert NoThrow(plan);
    forall i | 0 <= i < |plan|
      ensures Writes(plan)[i] == MemberInserts(rows)[i]
    {
      assert plan[i] == Exec(InsertEventTeamMember(rows[i]));
    }
  }

  /** The writes of a team section: each link followed by its member rows. */
  function TeamInserts(eventId: string, rs: seq<(string, seq<Assignee>)>, uuid: Uuid, k: nat): seq<Write>
    decreases |rs|
  {
    if rs == [] then []
    else [InsertEventTeam(EventTeam(uuid(k), rs[0].0, eventId))] + MemberInserts(AssigneeRows(uuid(k), rs[0].1, uuid, k + 1))
         + TeamInserts(eventId, rs[1..], uuid, k + 1 + |rs[0].1|)
  }

  /** The team section never throws, and its writes are `TeamInserts`. */
  lemma {:induction false} TeamsPlanInserts(eventId: string, rs: seq<(string, seq<Assignee>)>, uuid: Uuid, k: nat)
    ensures NoThrow(PlanTeams(eventId, rs, uuid, k).plan)
    ensures Writes(PlanTeams(eventId, rs, uuid, k).plan) == TeamInserts(eventId, rs, uuid, k)
    decreases |rs|
  {
    if rs != [] {
      var link, rows, rest := PlanTeamsUnfold(eventId, rs, uuid, k);
      MemberRowsWrites(uuid(k), rs[0].1, uuid, k + 1);
      TeamsPlanInserts(eventId, rs[1..], uuid, k + 1 + |rs[0].1|);
      assert NoThrow([link]) && Writes([link]) == [link.write];
      WritesAppend3([link], rows, rest);
      var w1, w2, w3 := [link.write], MemberInserts(AssigneeRows(uuid(k), rs[0].1, uuid, k + 1)),
                        TeamInserts(eventId, rs[1..], uuid, k + 1 + |rs[0].1|);
      assert TeamInserts(eventId, rs, uuid, k) == w1 + w2 + w3;
      assert Writes([link] + rows + rest) == w1 + w2 + w3;
    }
  }

  /** Running the team writes appends the links and their member rows. */
  lemma {:induction false} TeamInsertsEffect(s: Store, eventId: string, rs: seq<(string, seq<Assignee>)>, uuid: Uuid, k: nat)
    ensures ApplyAll(s, TeamInserts(eventId, rs, uuid, k))
            == s.(eventTeams := s.eventTeams + TeamLinks(eventId, rs, uuid, k),
                  eventTeamMembers := s.eventTeamMembers + TeamMemberRows(rs, uuid, k))
    decreases |rs|
  {
    if rs == [] {
      assert s.eventTeams + [] == s.eventTeams && s.eventTeamMembers + [] == s.eventTeamMembers;
    } else {
      var k' := k + 1 + |rs[0].1|;
      var lk := [EventTeam(uuid(k), rs[0].0, eventId)];
      var members := AssigneeRows(uuid(k), rs[0].1, uuid, k + 1);
      var s1 := s.(eventTeams := s.eventTeams + lk);
      var s2 := s1.(eventTeamMembers := s.eventTeamMembers + members);
      assert ApplyAll(s, [InsertEventTeam(lk[0])]) == s1;
      InsertMembersEffect(s1, members);
      ApplyAllAppend(s, [InsertEventTeam(lk[0])], MemberInserts(members));
      ApplyAllAppend(s, [InsertEventTeam(lk[0])] + MemberInserts(members), TeamInserts(eventId, rs[1..], uuid, k'));
      TeamInsertsEffect(s2, eventId, rs[1..], uuid, k');
      AppendAssoc(s.eventTeams, lk, TeamLinks(eventId, rs[1..], uuid, k'));
      AppendAssoc(s.eventTeamMembers, members, TeamMemberRows(rs[1..], uuid, k'));
    }
  }

  /** The team section appends its links and their member rows. */
  lemma TeamsEffect(s: Store, eventId: string, rs: seq<(string, seq<Assignee>)>, uuid: Uuid, k: nat)
    ensures NoThrow(PlanTeams(eventId, rs, uuid, k).plan)
    ensures ApplyAll(s, Writes(PlanTeams(eventId, rs, uuid, k).plan))
            == s.(eventTeams := s.eventTeams + TeamLinks(eventId, rs, uuid, k),
                  eventTeamMembers := s.eventTeamMembers + TeamMemberRows(rs, uuid, k))
  {
    TeamsPlanInserts(eventId, rs, uuid, k);
    TeamInsertsEffect(s, eventId, rs, uuid, k);
  }

  /** A committed creation adds exactly one event: the payload's, with its
      defaults, under the first fresh id. */
  lemma CommittedEvent(s: Store, d: Payload, now: int, uuid: Uuid, faults: set<nat>)
    requires CreateEvent(s, d, now, uuid, faults).outcome.Returned?
    ensures d.startTime.Some? && d.endTime.Some? && d.name != Undefined
    ensures CreateEvent(s, d, now, uuid, faults).store.events
            == s.events + [EventRow(uuid(0), d, d.startTime.value, d.endTime.value, now)]
  {
    PlanAddsOneEvent(s, Plan(s, d, now, uuid));
  }

  /** A plan that starts with an event insert and has no other adds exactly
      that event. */
  lemma PlanAddsOneEvent(s: Store, plan: seq<Statement>)
    requires NoThrow(plan) && plan != [] && plan[0].write.InsertEvent? && NoEventInsert(plan[1..])
    ensures ApplyAll(s, Writes(plan)).events == s.events + [plan[0].write.event]
  {
    ApplyPlanCons(s, plan);
    var later := Writes(plan[1..]);
    assert forall i :: 0 <= i < |later| ==> later[i] == plan[1..][i].write;
    LaterWritesKeepEvents(Apply(s, plan[0].write), later);
  }

  /** A committed creation appends every child row of the payload: the
      songs, presentations, team links and their members, each with the
      defaults of its row builder and the id rule `x.id || uuidv4()`; with no
      translators, the speaker rows too. */
  lemma CommittedChildren(s: Store, d: Payload, now: int, uuid: Uuid, faults: set<nat>)
    requires CreateEvent(s, d, now, uuid, faults).outcome.Returned?
    ensures var r := CreateEvent(s, d, now, uuid, faults).store;
            var x := SectionsOf(s, d, uuid(0), now, uuid);
            && r.songs == s.songs + SongRows(uuid(0), Elems(d.songs), uuid, x.translators.next)
            && r.presentations == s.presentations + PresentationRows(uuid(0), Elems(d.presentations), now, uuid, x.songs.next)
            && r.eventTeams == s.eventTeams + TeamLinks(uuid(0), TeamEntries(s, d), uuid, x.presentations.next)
            && r.eventTeamMembers == s.eventTeamMembers + TeamMemberRows(TeamEntries(s, d), uuid, x.presentations.next)
            && (Elems(d.translators) == [] ==> r.speakers == s.speakers + SpeakerRows(uuid(0), Elems(d.speakers), uuid, 1))
  {
    CommittedEvent(s, d, now, uuid, faults);
    var eventId := uuid(0);
    var x := SectionsOf(s, d, eventId, now, uuid);
    var ev := [Exec(InsertEvent(EventRow(eventId, d, d.startTime.value, d.endTime.value, now)))];
    var sp, tr, so, pr, te := x.speakers.plan, x.translators.plan, x.songs.plan, x.presentations.plan, x.teams.plan;
    PlanSections(s, d, now, uuid);
    RunSections(s, ev, sp, tr, so, pr, te);
    var s1 := ApplyAll(s, Writes(ev));
    assert s1 == s.(events := s.events + [ev[0].write.event]) by {
      ApplyPlanCons(s, ev);
    }
    SpeakersNoThrow(eventId, Elems(d.speakers), uuid, 1);
    SpeakersEffect(s1, eventId, Elems(d.speakers), uuid, 1);
    var s2 := s1.(speakers := s1.speakers + SpeakerRows(eventId, Elems(d.speakers), uuid, 1));
    var s3 := ApplyAll(s2, Writes(tr));
    SpeakerWritesFrame(s2, tr);
    SongsEffect(s3, eventId, Elems(d.songs), uuid, x.translators.next);
    var s4 := s3.(songs := s3.songs + SongRows(eventId, Elems(d.songs), uuid, x.translators.next));
    PresentationsEffect(s4, eventId, Elems(d.presentations), now, uuid, x.songs.next);
    var s5 := s4.(presentations := s4.presentations + PresentationRows(eventId, Elems(d.presentations), now, uuid, x.songs.next));
    TeamsEffect(s5, eventId, TeamEntries(s, d), uuid, x.presentations.next);
    if Elems(d.translators) == [] {
      assert tr == [] && s3 == s2;
    }
  }

  /** The plan of a creation with a valid date and a name: the event insert,
      then the five sections. */
  lemma PlanSections(s: Store, d: Payload, now: int, uuid: Uuid)
    requires d.startTime.Some? && d.endTime.Some? && d.name != Undefined
    ensures var x := SectionsOf(s, d, uuid(0), now, uuid);
            Plan(s, d, now, uuid)
            == [Exec(InsertEvent(EventRow(uuid(0), d, d.startTime.value, d.endTime.value, now)))]
               + x.speakers.plan + x.translators.plan + x.songs.plan + x.presentations.plan + x.teams.plan
  {
    var x := SectionsOf(s, d, uuid(0), now, uuid);
    var ev := [Exec(InsertEvent(EventRow(uuid(0), d, d.startTime.value, d.endTime.value, now)))];
    var sp, tr, so, pr, te := x.speakers.plan, x.translators.plan, x.songs.plan, x.presentations.plan, x.teams.plan;
    assert Plan(s, d, now, uuid) == ev + (sp + tr + so + pr + te);
    AppendAssoc(ev, sp + tr + so + pr, te);
    AppendAssoc(ev, sp + tr + so, pr);
    AppendAssoc(ev, sp + tr, so);
    AppendAssoc(ev, sp, tr);
  }

  /** Running six consecutive pieces of a plan without exceptions. */
  lemma RunSections(s: Store, a: seq<Statement>, b: seq<Statement>, c: seq<Statement>,
                    e: seq<Statement>, f: seq<Statement>, g: seq<Statement>)
    requires NoThrow(a + b + c + e + f + g)
    ensures NoThrow(a) && NoThrow(b) && NoThrow(c) && NoThrow(e) && NoThrow(f) && NoThrow(g)
    ensures ApplyAll(s, Writes(a + b + c + e + f + g))
            == ApplyAll(ApplyAll(ApplyAll(ApplyAll(ApplyAll(ApplyAll(s, Writes(a)), Writes(b)), Writes(c)), Writes(e)), Writes(f)), Writes(g))
  {
    NoThrowAppend(a + b + c + e + f, g);
    NoThrowAppend(a + b + c + e, f);
    NoThrowAppend(a + b + c, e);
    NoThrowAppend(a + b, c);
    NoThrowAppend(a, b);
    ApplyPlanAppend(s, a + b + c + e + f, g);
    ApplyPlanAppend(s, a + b + c + e, f);
    ApplyPlanAppend(s, a + b + c, e);
    ApplyPlanAppend(s, a + b, c);
    ApplyPlanAppend(s, a, b);
  }

  /** A failed creation leaves nothing behind: no event, speaker, song,
      presentation or team row of the payload persists. */
  lemma NothingPersistsOnFailure(s: Store, d: Payload, now: int, uuid: Uuid, faults: set<nat>)
    requires CreateEvent(s, d, now, uuid, faults).outcome.Threw?
    ensures CreateEvent(s, d, now, uuid, faults).store == s
  {
  }

  /** An invalid or missing date aborts the whole creation. */
  lemma InvalidDateAborts(s: Store, d: Payload, now: int, uuid: Uuid, faults: set<nat>)
    requires d.startTime.None? || d.endTime.None?
    ensures CreateEvent(s, d, now, uuid, faults) == Attempt(s, Threw("TypeError: error is not a function"))
  {
    var plan := Plan(s, d, now, uuid);
    assert plan[0].Throw?;
  }

  /** Once the plan has no exception in it, an injected database failure at
      any statement still rolls everything back. */
  lemma FaultRollsBack(s: Store, d: Payload, now: int, uuid: Uuid, faults: set<nat>, i: nat)
    requires i < |Plan(s, d, now, uuid)| && i in faults
    ensures CreateEvent(s, d, now, uuid, faults).store == s
  {
    var plan := Plan(s, d, now, uuid);
    assert !(plan[i].Exec? && i !in faults);
  }

  /** A translator who is also a user speaker adds no row: the statement is
      an update of that speaker's row. */
  lemma MergedTranslatorAddsNoRow(eventId: string, speakers: seq<Person>, t: Person, uuid: Uuid, k: nat, j: int)
    requires 0 <= j < |speakers| && SpeakerIsUser(speakers[j]) && speakers[j].userId == t.userId
    requires forall i :: 0 <= i < |speakers| ==> !speakers[i].kind.Bool? && !speakers[i].kind.Num?
    requires NormaliseType(t.kind) == Some(Str("user"))
    requires t.name != Undefined && t.userId != Undefined
    ensures TranslatorStep(eventId, Array(speakers), t, uuid, k).plan
            == [Exec(AttachTranslator(eventId, t.userId, Or(t.userId, Null), t.name))]
  {
    NoNonStringKindMatches(speakers, t.userId, j);
  }

  lemma {:induction false} NoNonStringKindMatches(xs: seq<Person>, userId: Value, j: int)
    requires 0 <= j < |xs| && SpeakerIsUser(xs[j]) && xs[j].userId == userId
    requires forall i :: 0 <= i < |xs| ==> !xs[i].kind.Bool? && !xs[i].kind.Num?
    ensures SomeUserSpeaker(xs, true, userId) == Some(true)
  {
    if !(SpeakerIsUser(xs[0]) && xs[0].userId == userId) {
      assert j > 0 && xs[1..][j - 1] == xs[j];
      NoNonStringKindMatches(xs[1..], userId, j - 1);
    }
  }

  /** A speaker stored with a user id always has type `user`, for every
      speaker entry of any payload. */
  lemma SpeakerIdOnlyForUsers(eventId: string, speakers: seq<Person>, uuid: Uuid, k: nat)
    ensures forall st :: st in PlanSpeakers(eventId, speakers, uuid, k).plan && st.Exec? ==>
              st.write.speaker.speakerId != Null ==> st.write.speaker.speakerType == Str("user")
  {
    var plan := PlanSpeakers(eventId, speakers, uuid, k).plan;
    forall st | st in plan && st.Exec?
      ensures st.write.speaker.speakerId != Null ==> st.write.speaker.speakerType == Str("user")
    {
      var i :| 0 <= i < |plan| && plan[i] == st;
    }
  }
}

=== FILE: event_reader.dfy ===
/** The read side of `services/coreEventService.js`: one event with its
    speakers, translators, songs, presentations and team assignments
    (`getEventById`), and the public listings of upcoming and past events. */
module EventReader {
  import opened Values
  import opened Text
  import opened Response
  import opened Store
  import opened Sequences
  import EventComposer

  // ---------------------------------------------------------------------
  // Team keys

  /** `` `team-${name.toLowerCase().replace(' team', '').replace(/\s+/g, '-')}` ``. */
  function TeamKey(teamName: string): string {
    "team-" + CollapseWhitespace(ReplaceFirst(Lower(teamName), " team", ""), "-")
  }

  /** A one-word display name followed by ` Team` reads back as `team-` and
      the lowercased word. */
  lemma TeamKeyOfSuffixed(w: string)
    requires NoWhitespace(w)
    ensures TeamKey(w + " Team") == "team-" + Lower(w)
  {
    LowerAppend(w, " Team");
    assert Lower(" Team") == " team";
    LowerNoWhitespace(w);
    assert ' ' !in Lower(w) by {
      assert forall i :: 0 <= i < |Lower(w)| ==> Lower(w)[i] != ' ';
    }
    ReplaceFirstAfter(Lower(w), " team", "");
    assert Lower(w) + "" == Lower(w);
  }

  /** The key derived when reading maps each display name of the create-side
      key table back to the key it came from. */
  lemma TeamKeyRoundTrip()
    ensures forall key :: key in EventComposer.TeamKeyMapping ==> TeamKey(EventComposer.TeamKeyMapping[key]) == key
  {
    forall key | key in EventComposer.TeamKeyMapping
      ensures TeamKey(EventComposer.TeamKeyMapping[key]) == key
    {
      var w := OneWordName(key);
      TeamKeyOfSuffixed(w);
    }
  }

  /** Every display name of the key table is one word followed by ` Team`,
      and its key is `team-` and that word in lower case. */
  lemma OneWordName(key: string) returns (w: string)
    requires key in EventComposer.TeamKeyMapping
    ensures NoWhitespace(w)
    ensures EventComposer.TeamKeyMapping[key] == w + " Team" && key == "team-" + Lower(w)
  {
    if key == "team-singer" {
      w := "Singer";
      Entry(key, w, "singer");
    } else if key == "team-music" {
      w := "Music";
      Entry(key, w, "music");
    } else if key == "team-usher" {
      w := "Usher";
      Entry(key, w, "usher");
    } else {
      w := "Media";
      Entry(key, w, "media");
    }
  }

  lemma Entry(key: string, w: string, lower: string)
    requires key in EventComposer.TeamKeyMapping
    requires EventComposer.TeamKeyMapping[key] == w + " Team" && key == "team-" + lower
    requires |w| == |lower| && NoWhitespace(w)
    requires forall i :: 0 <= i < |w| ==> LowerChar(w[i]) == lower[i]
    ensures key == "team-" + Lower(w)
  {
    assert Lower(w) == lower;
  }

  /** The four teams every event reports, even without members. */
  const RequiredTeams: seq<string> := ["team-singer", "team-music", "team-usher", "team-media"]

  // ---------------------------------------------------------------------
  // Speakers and translators

  predicate IsNull(v: Value) {
    v == Null || v == Undefined
  }

  /** The speaker query's filter: a row of this event with a speaker id or name. */
  predicate IsSpeakerRow(row: SpeakerRow, eventId: string) {
    row.eventId == eventId && (!IsNull(row.speakerId) || !IsNull(row.speakerName))
  }

  /** The translator query's filter: no speaker id or name, and a translator
      id or name. */
  predicate IsTranslatorRow(row: SpeakerRow, eventId: string) {
    row.eventId == eventId && IsNull(row.speakerId) && IsNull(row.speakerName)
    && (!IsNull(row.translatorId) || !IsNull(row.translatorName))
  }

  /** The two queries never report the same row. */
  lemma SpeakersTranslatorsDisjoint(row: SpeakerRow, eventId: string)
    ensures !(IsSpeakerRow(row, eventId) && IsTranslatorRow(row, eventId))
  {
  }

  /** A speaker or translator as reported. */
  datatype PersonView = PersonView(
    id: Value, kind: Value, name: Value, userId: Value, email: Value,
    translatorId: Value, translatorName: Value)

  /** `LEFT JOIN user u ON <col> = u.id`: the user's email, `null` without a match. */
  function EmailOf(users: map<string, Row>, id: Value): Value {
    if id.Str? && id.s in users then Column(users[id.s], "email") else Null
  }

  /** A speaker row as reported: user id and email only for type `user`. */
  function SpeakerView(users: map<string, Row>, row: SpeakerRow): (v: PersonView)
    ensures v.kind != Str("user") ==> v.userId == Null && v.email == Null
    ensures v.kind == Str("user") ==> v.userId == row.speakerId && v.email == EmailOf(users, row.speakerId)
    ensures v.name == row.speakerName && v.translatorId == row.translatorId && v.translatorName == row.translatorName
  {
    var isUser := row.speakerType == Str("user");
    PersonView(row.id, row.speakerType, row.speakerName,
               if isUser then row.speakerId else Null,
               if isUser then EmailOf(users, row.speakerId) else Null,
               row.translatorId, row.translatorName)
  }

  /** A translator-only row as reported, from the translator columns. */
  function TranslatorView(users: map<string, Row>, row: SpeakerRow): (v: PersonView)
    ensures v.kind != Str("user") ==> v.userId == Null && v.email == Null
    ensures v.kind == Str("user") ==> v.userId == row.translatorId && v.email == EmailOf(users, row.translatorId)
    ensures v.name == row.translatorName
  {
    var isUser := row.speakerType == Str("user");
    PersonView(row.id, row.speakerType, row.translatorName,
               if isUser then row.translatorId else Null,
               if isUser then EmailOf(users, row.translatorId) else Null,
               Null, Null)
  }

  function Speakers(users: map<string, Row>, rows: seq<SpeakerRow>, eventId: string): (r: seq<PersonView>)
    ensures |r| <= |rows|
    ensures forall v :: v in r ==> v.kind != Str("user") ==> v.userId == Null && v.email == Null
    ensures forall row :: row in rows && IsSpeakerRow(row, eventId) ==> SpeakerView(users, row) in r
    ensures forall v :: v in r ==> exists row :: row in rows && IsSpeakerRow(row, eventId) && v == SpeakerView(users, row)
  {
    if rows == [] then []
    else (if IsSpeakerRow(rows[0], eventId) then [SpeakerView(users, rows[0])] else []) + Speakers(users, rows[1..], eventId)
  }

  function Translators(users: map<string, Row>, rows: seq<SpeakerRow>, eventId: string): (r: seq<PersonView>)
    ensures |r| <= |rows|
    ensures forall v :: v in r ==> v.kind != Str("user") ==> v.userId == Null && v.email == Null
    ensures forall row :: row in rows && IsTranslatorRow(row, eventId) ==> TranslatorView(users, row) in r
    ensures forall v :: v in r ==> exists row :: row in rows && IsTranslatorRow(row, eventId) && v == TranslatorView(users, row)
  {
    if rows == [] then []
    else (if IsTranslatorRow(rows[0], eventId) then [TranslatorView(users, rows[0])] else []) + Translators(users, rows[1..], eventId)
  }

  function CountSpeakerRows(rows: seq<SpeakerRow>, eventId: string): nat {
    if rows == [] then 0 else (if IsSpeakerRow(rows[0], eventId) then 1 else 0) + CountSpeakerRows(rows[1..], eventId)
  }

  function CountTranslatorRows(rows: seq<SpeakerRow>, eventId: string): nat {
    if rows == [] then 0 else (if IsTranslatorRow(rows[0], eventId) then 1 else 0) + CountTranslatorRows(rows[1..], eventId)
  }

  function CountEventRows(rows: seq<SpeakerRow>, eventId: string): nat {
    if rows == [] then 0 else (if rows[0].eventId == eventId then 1 else 0) + CountEventRows(rows[1..], eventId)
  }

  /** Each row of the event is reported at most once across both lists, and
      exactly once when it names somebody. */
  lemma {:induction false} PartitionCounts(users: map<string, Row>, rows: seq<SpeakerRow>, eventId: string)
    ensures |Speakers(users, rows, eventId)| == CountSpeakerRows(rows, eventId)
    ensures |Translators(users, rows, eventId)| == CountTranslatorRows(rows, eventId)
    ensures CountSpeakerRows(rows, eventId) + CountTranslatorRows(rows, eventId) <= CountEventRows(rows, eventId)
  {
    if rows != [] {
      PartitionCounts(users, rows[1..], eventId);
    }
  }

  /** A translator the composer stores in its own row is reported among the
      translators as soon as that row names somebody. */
  lemma OwnTranslatorRowIsTranslator(row: SpeakerRow, eventId: string)
    requires row.eventId == eventId && row.speakerId == Null && row.speakerName == Null
    requires row.translatorId != Null || row.translatorName != Null
    requires row.translatorId != Undefined && row.translatorName != Undefined
    ensures IsTranslatorRow(row, eventId) && !IsSpeakerRow(row, eventId)
  {
  }

  // ---------------------------------------------------------------------
  // Songs, presentations and team assignments

  datatype SongView = SongView(id: Value, title: Value, order: Value, key: Value, bpm: Value)

  /** A song as reported: a missing key or bpm is reported as `null`. */
  function SongViewOf(row: SongRow): (v: SongView)
    ensures v.key != Undefined && v.bpm != Undefined
  {
    SongView(row.id, row.title, row.order, Or(row.key, Null), Or(row.bpm, Null))
  }

  function Songs(rows: seq<SongRow>, eventId: string): (r: seq<SongView>)
    ensures |r| <= |rows|
    ensures forall v :: v in r ==> v.key != Undefined && v.bpm != Undefined
    ensures forall row :: row in rows && row.eventId == eventId ==> SongViewOf(row) in r
    ensures forall v :: v in r ==> exists row :: row in rows && row.eventId == eventId && v == SongViewOf(row)
  {
    if rows == [] then []
    else
      (if rows[0].eventId == eventId then [SongViewOf(rows[0])] else [])
      + Songs(rows[1..], eventId)
  }

  function Presentations(rows: seq<PresentationRow>, eventId: string): (r: seq<PresentationRow>)
    ensures forall p :: p in r <==> p in rows && p.eventId == eventId
  {
    if rows == [] then []
    else (if rows[0].eventId == eventId then [rows[0]] else []) + Presentations(rows[1..], eventId)
  }

  /** A team member as reported. */
  datatype MemberView = MemberView(userId: Value, name: Value, roleInEvent: Value, details: Value)

  /** One row of `event_teams JOIN teams LEFT JOIN event_team_member LEFT
      JOIN user`: a team and one of its members, if it has any. */
  datatype AssignmentRow = AssignmentRow(teamName: string, member: Option<EventTeamMember>)

  function TeamOf(teams: seq<Team>, teamId: string): (r: Option<Team>)
    ensures r.Some? ==> r.value in teams && r.value.id == teamId
  {
    if teams == [] then None else if teams[0].id == teamId then Some(teams[0]) else TeamOf(teams[1..], teamId)
  }

  function MembersOfLink(members: seq<EventTeamMember>, eventTeamId: string): (r: seq<EventTeamMember>)
    ensures forall m :: m in r <==> m in members && m.eventTeamId == eventTeamId
  {
    if members == [] then []
    else (if members[0].eventTeamId == eventTeamId then [members[0]] else []) + MembersOfLink(members[1..], eventTeamId)
  }

  /** The rows of the joined query for the links of this event. */
  function AssignmentRows(s: Store, links: seq<EventTeam>, eventId: string): seq<AssignmentRow> {
    if links == [] then []
    else
      var link := links[0];
      var here :=
        if link.eventId != eventId then []
        else match TeamOf(s.teams, link.teamId)
          case None => []
          case Some(team) =>
            var ms := MembersOfLink(s.eventTeamMembers, link.id);
            if ms == [] then [AssignmentRow(team.name, None)]
            else seq(|ms|, i requires 0 <= i < |ms| => AssignmentRow(team.name, Some(ms[i])));
      here + AssignmentRows(s, links[1..], eventId)
  }

  /** A row is kept when it carries a truthy user id. */
  predicate Kept(row: AssignmentRow) {
    row.member.Some? && Truthy(row.member.value.userId)
  }

  function MemberViewOf(users: map<string, Row>, m: EventTeamMember): MemberView {
    var name := if m.userId.Str? && m.userId.s in users then SqlFullName(users[m.userId.s]) else Null;
    MemberView(m.userId, name, m.roleName, m.details)
  }

  /** The team keys of the rows that are kept. */
  function KeptKeys(rows: seq<AssignmentRow>): (ks: set<string>)
    ensures forall i :: 0 <= i < |rows| && Kept(rows[i]) ==> TeamKey(rows[i].teamName) in ks
  {
    if rows == [] then {}
    else (if Kept(rows[0]) then {TeamKey(rows[0].teamName)} else {}) + KeptKeys(rows[1..])
  }

  /** Every listed member has a truthy user id. */
  predicate AllTruthy(m: map<string, seq<MemberView>>) {
    forall k, v :: k in m && v in m[k] ==> Truthy(v.userId)
  }

  /** One step of the grouping: a kept row appends its member to its team's list. */
  function AddRow(users: map<string, Row>, acc: map<string, seq<MemberView>>, row: AssignmentRow): (m: map<string, seq<MemberView>>)
    requires AllTruthy(acc)
    ensures m.Keys == acc.Keys + (if Kept(row) then {TeamKey(row.teamName)} else {})
    ensures AllTruthy(m)
    ensures forall k :: k in acc ==> acc[k] <= m[k]
    ensures forall k :: k in m && k !in acc ==> |m[k]| > 0
    ensures Kept(row) ==> MemberViewOf(users, row.member.value) in m[TeamKey(row.teamName)]
  {
    if !Kept(row) then acc
    else
      var key := TeamKey(row.teamName);
      var before := if key in acc then acc[key] else [];
      acc[key := before + [MemberViewOf(users, row.member.value)]]
  }

  /** The `forEach` that groups kept rows by derived team key. */
  function Group(users: map<string, Row>, rows: seq<AssignmentRow>, acc: map<string, seq<MemberView>>): (m: map<string, seq<MemberView>>)
    requires AllTruthy(acc)
    ensures m.Keys == acc.Keys + KeptKeys(rows)
    ensures AllTruthy(m)
    ensures forall k :: k in acc ==> acc[k] <= m[k]
    ensures forall k :: k in m && k !in acc ==> |m[k]| > 0
  {
    if rows == [] then acc
    else Group(users, rows[1..], AddRow(users, acc, rows[0]))
  }

  /** Every kept row's member is listed under its row's team key. */
  lemma {:induction false} GroupPlaces(users: map<string, Row>, rows: seq<AssignmentRow>, acc: map<string, seq<MemberView>>)
    requires AllTruthy(acc)
    ensures forall i :: 0 <= i < |rows| && Kept(rows[i]) ==>
              MemberViewOf(users, rows[i].member.value) in Group(users, rows, acc)[TeamKey(rows[i].teamName)]
    decreases |rows|
  {
    if rows != [] {
      var acc' := AddRow(users, acc, rows[0]);
      var m := Group(users, rows, acc);
      assert m == Group(users, rows[1..], acc');
      GroupPlaces(users, rows[1..], acc');
      forall i | 0 <= i < |rows| && Kept(rows[i])
        ensures MemberViewOf(users, rows[i].member.value) in m[TeamKey(rows[i].teamName)]
      {
        if i == 0 {
          var key := TeamKey(rows[0].teamName);
          assert acc'[key] <= m[key];
        } else {
          assert rows[1..][i - 1] == rows[i];
        }
      }
    }
  }

  /** Adds an empty list for every required key that is still missing. */
  function Pad(m: map<string, seq<MemberView>>, keys: seq<string>): (r: map<string, seq<MemberView>>)
    ensures r.Keys == m.Keys + set k | k in keys
    ensures forall k :: k in m ==> r[k] == m[k]
    ensures forall k :: k in r && k !in m ==> r[k] == []
    decreases |keys|
  {
    if keys == [] then m
    else if keys[0] in m then Pad(m, keys[1..])
    else Pad(m[keys[0] := []], keys[1..])
  }

  /** The event as `getEventById` reports it. */
  datatype EventView = EventView(
    event: Event, isPublic: bool, speakers: seq<PersonView>, translators: seq<PersonView>,
    songs: seq<SongView>, presentations: seq<PresentationRow>,
    teamAssignments: map<string, seq<MemberView>>)

  function FindEvent(events: seq<Event>, id: string): (r: Option<Event>)
    ensures r.None? <==> forall i :: 0 <= i < |events| ==> events[i].id != id
    ensures r.Some? ==> r.value in events && r.value.id == id
  {
    if events == [] then None else if events[0].id == id then Some(events[0]) else FindEvent(events[1..], id)
  }

  /** `getEventById`. */
  function GetEventById(s: Store, id: string): (r: Envelope<EventView>)
    ensures FindEvent(s.events, id).None? <==> !r.Ok()
    ensures !r.Ok() ==> r == Fail("EVENT_NOT_FOUND", "Event not found")
    ensures r.Ok() ==> r.code == "EVENT_FETCHED" && r.data.Some?
    ensures r.Ok() ==>
              var v := r.data.value;
              && v.event.id == id
              && v.isPublic == (v.event.isPublic == Num(1))
              && v.teamAssignments.Keys == KeptKeys(AssignmentRows(s, s.eventTeams, id)) + (set k | k in RequiredTeams)
              && AllTruthy(v.teamAssignments)
              && |v.speakers| == CountSpeakerRows(s.speakers, id)
              && |v.translators| == CountTranslatorRows(s.speakers, id)
  {
    match FindEvent(s.events, id)
    case None => Fail("EVENT_NOT_FOUND", "Event not found")
    case Some(event) =>
      var grouped := Group(s.users, AssignmentRows(s, s.eventTeams, id), map[]);
      PartitionCounts(s.users, s.speakers, id);
      var padded := Pad(grouped, RequiredTeams);
      assert AllTruthy(padded) by {
        forall k, v | k in padded && v in padded[k]
          ensures Truthy(v.userId)
        {
          assert k in grouped;
        }
      }
      var view := EventView(
        event, event.isPublic == Num(1),
        Speakers(s.users, s.speakers, id), Translators(s.users, s.speakers, id),
        Songs(s.songs, id), Presentations(s.presentations, id),
        padded);
      Succeed("EVENT_FETCHED", "Event fetched successfully", Some(view))
  }

  // ---------------------------------------------------------------------
  // Listings

  /** `filters.type` of a listing: the list of accepted types, `None` when
      the filter is off (falsy or `all`). `Err` when the value is truthy but
      not a string, so `split` throws. */
  datatype TypeFilter = Off | Types(types: seq<string>) | NotString

  function ParseTypeFilter(v: Value): (r: TypeFilter)
    ensures !Truthy(v) || v == Str("all") ==> r == Off
    ensures Truthy(v) && v.Str? && v != Str("all") ==> r == Types(Split(v.s, ','))
  {
    if !Truthy(v) || v == Str("all") then Off
    else if v.Str? then Types(Split(v.s, ','))
    else NotString
  }

  predicate TypeAccepted(e: Event, f: TypeFilter)
    requires !f.NotString?
  {
    f.Off? || (e.eventType.Str? && e.eventType.s in f.types)
  }

  /** `start_time >= now AND status = 'published' AND is_public = 1` and the type filter. */
  predicate Upcoming(e: Event, now: int, f: TypeFilter)
    requires !f.NotString?
  {
    e.startTime >= now && e.status == Str("published") && e.isPublic == Num(1) && TypeAccepted(e, f)
  }

  function SelectUpcoming(events: seq<Event>, now: int, f: TypeFilter): (r: seq<Event>)
    requires !f.NotString?
    ensures forall e :: e in r <==> e in events && Upcoming(e, now, f)
  {
    if events == [] then []
    else (if Upcoming(events[0], now, f) then [events[0]] else []) + SelectUpcoming(events[1..], now, f)
  }

  datatype Listing = Listing(events: seq<Event>, count: nat)

  /** `getAllEventPublic`: published public events starting at or after now,
      restricted to the listed types unless the filter is `all`, earliest
      first; the count is the number of events listed. */
  function GetAllEventPublic(s: Store, now: int, typeFilter: Value): (r: Envelope<Listing>)
    ensures ParseTypeFilter(typeFilter).NotString? <==> !r.Ok()
    ensures !r.Ok() ==> r.code == "FETCH_FAILED"
    ensures r.Ok() ==>
              var f := ParseTypeFilter(typeFilter);
              && r.code == "EVENTS_FETCHED" && r.data.Some?
              && r.data.value.count == |r.data.value.events|
              && (forall e :: e in r.data.value.events <==> e in s.events && Upcoming(e, now, f))
              && (forall i, j :: 0 <= i < j < |r.data.value.events| ==>
                    r.data.value.events[i].startTime <= r.data.value.events[j].startTime)
  {
    var f := ParseTypeFilter(typeFilter);
    if f.NotString? then Fail("FETCH_FAILED", "Failed to retrieve events", Some("filters.type.split is not a function"))
    else
      var key := (e: Event) => e.startTime;
      var selected := SelectUpcoming(s.events, now, f);
      var events := SortBy(selected, key);
      SortByMembers(selected, key);
      assert forall i, j :: 0 <= i < j < |events| ==> key(events[i]) <= key(events[j]);
      Succeed("EVENTS_FETCHED", "Upcoming published events retrieved successfully", Some(Listing(events, |events|)))
  }

  /** Filters of the past-event listing, as given by the caller. The
      calendar fields of a timestamp come from `yearOf`/`monthOf`, which
      stand for MySQL's date functions. */
  datatype PastFilters = PastFilters(year: Value, month: Value, typeFilter: Value)

  /** `if (filters.x) { const x = parseInt(filters.x); ... }`: a falsy field
      applies no filter, any other is parsed, possibly to `NaN`. */
  function Applied(v: Value): (r: Option<Parsed>)
    ensures r.None? <==> !Truthy(v)
  {
    if Truthy(v) then Some(ParseInt(Render(v))) else None
  }

  /** Whether a calendar field passes a parsed filter. `NaN` passes nothing:
      the year bounds become the text `NaN-01-01 00:00:00`, which no
      timestamp lies within, and no month equals `NaN`. */
  predicate Passes(field: int, filter: Parsed) {
    filter.Int? && filter.n == field
  }

  /** `end_time < NOW() AND status = 'published' AND is_public = 1`, the year
      (or, without one, `start_time <= NOW()`), the month and the type filter. */
  predicate Past(e: Event, now: int, p: PastFilters, f: TypeFilter, yearOf: int -> int, monthOf: int -> int)
    requires !f.NotString?
  {
    && e.endTime.Some? && e.endTime.value < now
    && e.status == Str("published") && e.isPublic == Num(1)
    && (match Applied(p.year)
        case Some(y) => Passes(yearOf(e.startTime), y)
        case None => e.startTime <= now)
    && (Applied(p.month).Some? ==> Passes(monthOf(e.startTime), Applied(p.month).value))
    && TypeAccepted(e, f)
  }

  /** A number other than 0, or the decimal text of any integer (`"0"` is
      truthy), filters on exactly that value. */
  lemma NumericFilters(n: int)
    ensures n != 0 ==> Applied(Num(n)) == Some(Int(n))
    ensures Applied(Str(IntToString(n))) == Some(Int(n))
  {
    ParseIntRoundTrip(n);
    NatToStringDigits(if n < 0 then -n else n);
  }

  /** A year or month filter that does not parse lists nothing. */
  lemma {:induction false} UnparsedFilterListsNothing(events: seq<Event>, now: int, p: PastFilters, f: TypeFilter, yearOf: int -> int, monthOf: int -> int)
    requires !f.NotString?
    requires Applied(p.year) == Some(NaN) || Applied(p.month) == Some(NaN)
    ensures SelectPast(events, now, p, f, yearOf, monthOf) == []
  {
    if events != [] {
      assert !Past(events[0], now, p, f, yearOf, monthOf);
      UnparsedFilterListsNothing(events[1..], now, p, f, yearOf, monthOf);
    }
  }

  function SelectPast(events: seq<Event>, now: int, p: PastFilters, f: TypeFilter, yearOf: int -> int, monthOf: int -> int): (r: seq<Event>)
    requires !f.NotString?
    ensures forall e :: e in r <==> e in events && Past(e, now, p, f, yearOf, monthOf)
  {
    if events == [] then []
    else (if Past(events[0], now, p, f, yearOf, monthOf) then [events[0]] else []) + SelectPast(events[1..], now, p, f, yearOf, monthOf)
  }

  /** The past-event listing also echoes the filters it was given. */
  datatype PostListing = PostListing(events: seq<Event>, count: nat, filters: PastFilters)

  /** `getAllPostEventPublic`: published public events that have ended,
      latest first. */
  function GetAllPostEventPublic(s: Store, now: int, p: PastFilters, yearOf: int -> int, monthOf: int -> int): (r: Envelope<PostListing>)
    ensures ParseTypeFilter(p.typeFilter).NotString? <==> !r.Ok()
    ensures !r.Ok() ==> r.code == "FETCH_FAILED"
    ensures r.Ok() ==>
              var f := ParseTypeFilter(p.typeFilter);
              && r.code == "POST_EVENTS_FETCHED" && r.data.Some?
              && r.data.value.count == |r.data.value.events|
              && r.data.value.filters == p
              && (forall e :: e in r.data.value.events <==> e in s.events && Past(e, now, p, f, yearOf, monthOf))
              && (forall i, j :: 0 <= i < j < |r.data.value.events| ==>
                    r.data.value.events[i].startTime >= r.data.value.events[j].startTime)
  {
    var f := ParseTypeFilter(p.typeFilter);
    if f.NotString? then Fail("FETCH_FAILED", "Failed to retrieve post events", Some("filters.type.split is not a function"))
    else
      var key := (e: Event) => -e.startTime;
      var selected := SelectPast(s.events, now, p, f, yearOf, monthOf);
      var events := SortBy(selected, key);
      SortByMembers(selected, key);
      assert forall i, j :: 0 <= i < j < |events| ==> key(events[i]) <= key(events[j]);
      Succeed("POST_EVENTS_FETCHED", "Post events retrieved successfully", Some(PostListing(events, |events|, p)))
  }

  /** An event the composer creates starts as a draft unless the payload says
      otherwise, so by default it is not listed publicly. */
  lemma DraftsAreNotListed(e: Event, now: int, typeFilter: Value)
    requires e.status == Str("draft")
    requires !ParseTypeFilter(typeFilter).NotString?
    ensures !Upcoming(e, now, ParseTypeFilter(typeFilter))
  {
  }
}

=== FILE: response.dfy ===
/** The uniform reply of every service operation: `{success, code, message,
    data}` on success and `{success, code, message, errors}` on failure. */
module Response {
  import opened Values

  /** A success envelope carries `data` and no `errors` key; a failure
      envelope carries `errors` and no `data` key. The payload of a success
      is typed per operation; the error detail is a string. */
  datatype Envelope<+D> =
    | Success(code: string, message: string, data: Option<D>)
    | Error(code: string, message: string, errors: Option<string>)
  {
    /** The `success` flag of the JSON object. */
    predicate Ok() {
      Success?
    }
  }

  /** `success(code, message, data = null)`. */
  function Succeed<D>(code: string, message: string, data: Option<D> := None): (r: Envelope<D>)
    ensures r.Ok()
    ensures r.code == code && r.message == message
    ensures r.data == data
  {
    Success(code, message, data)
  }

  /** `error(code, message, errors = null)`. */
  function Fail<D>(code: string, message: string, errors: Option<string> := None): (r: Envelope<D>)
    ensures !r.Ok()
    ensures r.code == code && r.message == message
    ensures r.errors == errors
  {
    Error(code, message, errors)
  }

  /** The flag decides which payload key an envelope has, and the two
      helpers leave the payload null when it is omitted. */
  lemma EnvelopeShape<D>(code: string, message: string)
    ensures Succeed<D>(code, message).data == None
    ensures Fail<D>(code, message).errors == None
    ensures forall e: Envelope<D> :: e.Ok() <==> e.Success?
  {
  }

  /** The outcome of an operation that may also end in an exception the
      service does not catch (the HTTP layer turns it into a 500 reply). */
  datatype Outcome<+D> = Returned(env: Envelope<D>) | Threw(reason: string)
}

=== FILE: sequences.dfy ===
/** Sequence utilities standing in for what the database or the JavaScript
    runtime does with row lists: `ORDER BY` (a stable insertion sort),
    `[...new Set(xs)]` (first-occurrence de-duplication), and counting
    distinct values. */
module Sequences {

  ghost predicate SortedBy<T>(xs: seq<T>, key: T -> int) {
    forall i, j :: 0 <= i < j < |xs| ==> key(xs[i]) <= key(xs[j])
  }

  predicate Distinct<T(==)>(xs: seq<T>) {
    forall i, j :: 0 <= i < j < |xs| ==> xs[i] != xs[j]
  }

  /** Inserts `x` before the first element whose key is not smaller. */
  function Insert<T>(x: T, xs: seq<T>, key: T -> int): (r: seq<T>)
    requires SortedBy(xs, key)
    ensures SortedBy(r, key)
    ensures multiset(r) == multiset(xs) + multiset{x}
  {
    if xs == [] || key(x) <= key(xs[0]) then [x] + xs
    else
      var rest := Insert(x, xs[1..], key);
      assert xs == [xs[0]] + xs[1..];
      HeadBelow(xs[0], x, xs[1..], rest, key);
      [xs[0]] + rest
  }

  /** Every element of an insertion into the tail of a sorted list is at
      least its head, when the inserted key is too. */
  lemma HeadBelow<T>(h: T, x: T, tail: seq<T>, rest: seq<T>, key: T -> int)
    requires SortedBy([h] + tail, key) && key(h) <= key(x)
    requires SortedBy(rest, key) && multiset(rest) == multiset(tail) + multiset{x}
    ensures SortedBy([h] + rest, key)
  {
    forall k | 0 <= k < |rest|
      ensures key(h) <= key(rest[k])
    {
      assert rest[k] in multiset(rest);
      if rest[k] != x {
        assert rest[k] in multiset(tail);
        assert rest[k] in tail;
        var j :| 0 <= j < |tail| && tail[j] == rest[k];
        assert ([h] + tail)[0] == h && ([h] + tail)[j + 1] == tail[j];
        assert key(([h] + tail)[0]) <= key(([h] + tail)[j + 1]);
      }
    }
    forall i, j | 0 <= i < j < |[h] + rest|
      ensures key(([h] + rest)[i]) <= key(([h] + rest)[j])
    {
      assert ([h] + rest)[j] == rest[j - 1];
      if i > 0 {
        assert ([h] + rest)[i] == rest[i - 1];
      }
    }
  }

  /** A relation that holds between the heads and between the tails of two
      lists holds between them index by index. */
  lemma PairwiseCons<A, B>(p: (A, B) -> bool, xs: seq<A>, h: B, rest: seq<B>)
    requires xs != [] && |rest| == |xs| - 1 && p(xs[0], h)
    requires forall i :: 0 <= i < |rest| ==> p(xs[1..][i], rest[i])
    ensures forall i :: 0 <= i < |xs| ==> p(xs[i], ([h] + rest)[i])
  {
    forall i | 0 <= i < |xs|
      ensures p(xs[i], ([h] + rest)[i])
    {
      if i > 0 {
        assert xs[i] == xs[1..][i - 1] && ([h] + rest)[i] == rest[i - 1];
      }
    }
  }

  /** `ORDER BY key ASC`, keeping storage order among equal keys. */
  function SortBy<T>(xs: seq<T>, key: T -> int): (r: seq<T>)
    ensures SortedBy(r, key)
    ensures multiset(r) == multiset(xs)
  {
    if xs == [] then []
    else
      assert xs == [xs[0]] + xs[1..];
      Insert(xs[0], SortBy(xs[1..], key), key)
  }

  /** `[...new Set(xs)]`: each value once, at its first occurrence. */
  function Dedup<T(==, !new)>(xs: seq<T>): (r: seq<T>)
    ensures Distinct(r)
    ensures forall x :: x in r <==> x in xs
    ensures |r| <= |xs|
  {
    DedupFrom(xs, {})
  }

  function DedupFrom<T(==, !new)>(xs: seq<T>, seen: set<T>): (r: seq<T>)
    ensures Distinct(r)
    ensures forall x :: x in r <==> x in xs && x !in seen
    ensures |r| <= |xs|
  {
    if xs == [] then []
    else if xs[0] in seen then DedupFrom(xs[1..], seen)
    else [xs[0]] + DedupFrom(xs[1..], seen + {xs[0]})
  }

  /** A list without repetitions has as many elements as its set of values. */
  lemma {:induction false} DistinctCard<T>(xs: seq<T>)
    requires Distinct(xs)
    ensures |set x | x in xs| == |xs|
  {
    if xs != [] {
      DistinctCard(xs[1..]);
      assert (set x | x in xs) == {xs[0]} + (set x | x in xs[1..]);
      assert xs[0] !in (set x | x in xs[1..]);
    }
  }

  /** A list with as many elements as distinct values has no repetitions. */
  lemma {:induction false} CardDistinct<T>(xs: seq<T>)
    requires |set x | x in xs| == |xs|
    ensures Distinct(xs)
  {
    if xs != [] {
      var tail := set x | x in xs[1..];
      assert (set x | x in xs) == {xs[0]} + tail;
      assert |tail| <= |xs[1..]| by { SetOfSeqCard(xs[1..]); }
      assert xs[0] !in tail;
      CardDistinct(xs[1..]);
      forall i, j | 0 <= i < j < |xs|
        ensures xs[i] != xs[j]
      {
        if i == 0 {
          assert xs[j] in tail;
        } else {
          assert xs[i] == xs[1..][i - 1] && xs[j] == xs[1..][j - 1];
        }
      }
    }
  }

  lemma {:induction false} SetOfSeqCard<T>(xs: seq<T>)
    ensures |set x | x in xs| <= |xs|
  {
    if xs != [] {
      SetOfSeqCard(xs[1..]);
      assert (set x | x in xs) == {xs[0]} + (set x | x in xs[1..]);
    }
  }

  lemma DistinctConcat<T>(a: seq<T>, b: seq<T>)
    requires Distinct(a) && Distinct(b)
    requires forall x :: x in b ==> x !in a
    ensures Distinct(a + b)
  {
    forall i, j | 0 <= i < j < |a + b|
      ensures (a + b)[i] != (a + b)[j]
    {
      if j >= |a| {
        assert (a + b)[j] == b[j - |a|] && b[j - |a|] in b;
        if i >= |a| {
          assert (a + b)[i] == b[i - |a|];
        } else {
          assert (a + b)[i] == a[i] && a[i] in a;
        }
      }
    }
  }

  lemma {:induction false} SubsetCard<T>(a: set<T>, b: set<T>)
    requires a <= b
    ensures |a| <= |b|
  {
    if a != {} {
      var x :| x in a;
      SubsetCard(a - {x}, b - {x});
    }
  }

  /** Sorting keeps exactly the same elements. */
  lemma SortByMembers<T>(xs: seq<T>, key: T -> int)
    ensures forall x :: x in SortBy(xs, key) <==> x in xs
  {
    var r := SortBy(xs, key);
    forall x
      ensures x in r <==> x in xs
    {
      assert x in r <==> x in multiset(r);
      assert x in xs <==> x in multiset(xs);
    }
  }

  /** Removing the element at `i` removes one occurrence of it. */
  lemma RemoveAtMultiset<T>(b: seq<T>, i: int)
    requires 0 <= i < |b|
    ensures multiset(b[..i] + b[i + 1..]) == multiset(b) - multiset{b[i]}
  {
    assert b == b[..i] + ([b[i]] + b[i + 1..]);
    assert multiset(b) == multiset(b[..i]) + multiset{b[i]} + multiset(b[i + 1..]);
  }
}

=== FILE: store.dfy ===
/** The MySQL database as an immutable value: one field per table. Tables
    whose row order the services expose are sequences in storage order;
    tables only ever looked up by primary key are maps. Statements that match
    several rows (`UPDATE ... WHERE`, `DELETE ... WHERE`) act on all of them. */
module Store {
  import opened Values
  import opened Text
  import opened Response

  /** A `user` row: column name to value. The user id is the map key of
      `Store.users`, so it is not repeated among the columns. */
  type Row = map<string, Value>

  datatype Role = Role(id: int, name: Value)

  /** `events`. `groupId` is set by comcell events only; columns an insert
      leaves out hold `Null` (the schema defaults are not part of the model). */
  datatype Event = Event(
    id: string, name: Value, eventType: Value, groupId: Option<string>,
    startTime: int, endTime: Option<int>, location: Value, isPublic: Value,
    description: Value, status: Value, createdBy: Value, createdAt: int, updatedAt: int)

  /** `event_attendance`. */
  datatype Attendance = Attendance(
    id: string, eventId: string, userId: string, status: Value, notes: Value,
    updatedAt: Option<int>)

  /** `event_speaker`: a speaker, a translator-only entry, or a speaker with
      a translator attached. */
  datatype SpeakerRow = SpeakerRow(
    id: Value, eventId: string, speakerType: Value, speakerId: Value, speakerName: Value,
    translatorId: Value, translatorName: Value)

  /** `event_songs`. */
  datatype SongRow = SongRow(id: Value, eventId: string, title: Value, order: Value, key: Value, bpm: Value)

  /** `event_presentations`. */
  datatype PresentationRow = PresentationRow(
    id: Value, eventId: string, fileName: Value, fileSize: Value, fileType: Value,
    fileUrl: Value, uploadedAt: Value)

  /** `event_teams`: a team linked to an event. */
  datatype EventTeam = EventTeam(id: string, teamId: string, eventId: string)

  /** `event_team_member`. */
  datatype EventTeamMember = EventTeamMember(
    id: string, eventTeamId: string, userId: Value, roleName: Value, details: Value)

  /** `comcell_group`. */
  datatype Group = Group(
    name: Value, category: Value, description: Value,
    leaderId: Option<string>, coLeaderId: Option<string>)

  /** `comcell_group_members`. */
  datatype GroupMember = GroupMember(groupId: string, userId: string, role: string)

  /** `teams`. */
  datatype Team = Team(id: string, name: string, isActive: bool, isProtected: bool)

  /** `team_members`. */
  datatype TeamMember = TeamMember(
    id: string, teamId: string, userId: string, role: Value, isActive: Value, note: Value,
    updatedAt: Option<int>)

  /** `team_positions`, keyed by position id. */
  datatype Position = Position(labelText: string, teamType: Option<string>)

  /** `team_member_positions`. */
  datatype MemberPosition = MemberPosition(id: string, teamId: string, userId: string, positionId: string)

  /** `videos`; a video is listed only while `isActive` is 1. `createDate`
      is the instant of the insert. */
  datatype Video = Video(
    id: string, title: Value, youtubeUrl: Value, embedUrl: Value, thumbnailUrl: Value,
    description: Value, eventDate: Value, createBy: Value, isActive: Value,
    createDate: int, updateDate: Option<int>)

  /** `tags`. */
  datatype Tag = Tag(id: string, name: string, isActive: bool)

  /** `video_tags`. */
  datatype VideoTag = VideoTag(id: string, videoId: string, tagId: string)

  datatype Store = Store(
    users: map<string, Row>,
    roles: seq<Role>,
    events: seq<Event>,
    attendance: seq<Attendance>,
    speakers: seq<SpeakerRow>,
    songs: seq<SongRow>,
    presentations: seq<PresentationRow>,
    eventTeams: seq<EventTeam>,
    eventTeamMembers: seq<EventTeamMember>,
    groups: map<string, Group>,
    groupMembers: seq<GroupMember>,
    teams: seq<Team>,
    teamMembers: seq<TeamMember>,
    positions: map<string, Position>,
    memberPositions: seq<MemberPosition>,
    videos: seq<Video>,
    tags: seq<Tag>,
    videoTags: seq<VideoTag>)

  /** What a service call leaves behind: the database and the envelope it returns. */
  datatype Reply<+D> = Reply(store: Store, env: Envelope<D>)

  /** The same for an operation that can also end in an uncaught exception. */
  datatype Attempt<+D> = Attempt(store: Store, outcome: Outcome<D>)

  /** An id taken from a request body: text, or absent (`undefined` and
      `null`); other JSON values are not modelled. */
  type Id = Option<string>

  /** The fresh-id oracle: the k-th `uuidv4()` call of one service call. */
  type Uuid = nat -> string

  /** A column of a user row as JavaScript reads it: a missing column is `undefined`. */
  function Column(row: Row, col: string): Value {
    if col in row then row[col] else Undefined
  }

  /** SQL `CONCAT(u.first_name, ' ', u.last_name)`: `NULL` as soon as either
      name is not a string. */
  function SqlFullName(row: Row): (r: Value)
    ensures r.Str? <==> Column(row, "first_name").Str? && Column(row, "last_name").Str?
  {
    match (Column(row, "first_name"), Column(row, "last_name"))
    case (Str(f), Str(l)) => Str(f + " " + l)
    case _ => Null
  }

  /** How a template literal prints a value. */
  function Render(v: Value): string {
    match v
    case Undefined => "undefined"
    case Null => "null"
    case Bool(b) => if b then "true" else "false"
    case Num(n) => IntToString(n)
    case Str(s) => s
  }

  /** The membership rows of one comcell group, in storage order. */
  function MembersOf(rows: seq<GroupMember>, groupId: string): (r: seq<string>)
    ensures |r| <= |rows|
    ensures forall u :: u in r <==> exists i :: 0 <= i < |rows| && rows[i].groupId == groupId && rows[i].userId == u
  {
    if rows == [] then []
    else (if rows[0].groupId == groupId then [rows[0].userId] else []) + MembersOf(rows[1..], groupId)
  }

  /** Some `comcell_group_members` row belongs to this user. */
  predicate InAnyGroup(rows: seq<GroupMember>, userId: string) {
    exists i :: 0 <= i < |rows| && rows[i].userId == userId
  }

  /** Some row links this user to this group. */
  predicate IsGroupMember(rows: seq<GroupMember>, groupId: string, userId: string) {
    exists i :: 0 <= i < |rows| && rows[i].groupId == groupId && rows[i].userId == userId
  }
}

=== FILE: team_type.dfy ===
/** `extractTeamType`: the team type is what follows the `team-` prefix of a
    team id, e.g. `team-media` has type `media`. */
module TeamType {
  import opened Values
  import opened Text

  /** The argument of `extractTeamType`: a string, or any other JavaScript
      value (which the function rejects). */
  datatype Arg = Text(s: string) | NotText

  const Prefix: string := "team"

  /** The team type of `arg`: the parts after the first `-`-separated part,
      re-joined with `-`, when that first part is exactly `team` and there is
      at least one more part; `None` (JavaScript `null`) otherwise. The
      argument defaults to the empty string. */
  function ExtractTeamType(arg: Arg := Text("")): (r: Option<string>)
    ensures arg.NotText? ==> r.None?
    ensures arg == Text("") ==> r.None?
  {
    match arg
    case NotText => None
    case Text(s) =>
      var parts := Split(s, '-');
      if |parts| < 2 || parts[0] != Prefix then None
      else Some(Join(parts[1..], '-'))
  }

  /** Prefixing any string with `team-` makes it the extracted type,
      including the empty string. */
  lemma {:induction false} RoundTrip(t: string)
    ensures ExtractTeamType(Text("team-" + t)) == Some(t)
  {
    assert "team-" + t == Prefix + ['-'] + t;
    SplitAfterPrefix(Prefix, t, '-');
    JoinSplit(t, '-');
    assert ([Prefix] + Split(t, '-'))[1..] == Split(t, '-');
  }

  /** A non-null result is exactly what followed `team-` in the input. */
  lemma {:induction false} Converse(arg: Arg)
    ensures ExtractTeamType(arg).Some? ==> arg == Text("team-" + ExtractTeamType(arg).value)
  {
    if arg.Text? && ExtractTeamType(arg).Some? {
      var parts := Split(arg.s, '-');
      JoinSplit(arg.s, '-');
      assert Join(parts, '-') == parts[0] + ['-'] + Join(parts[1..], '-');
    }
  }

  /** Together: a string has team type `t` if and only if it is `team-` + `t`. */
  lemma Characterisation(s: string, t: string)
    ensures ExtractTeamType(Text(s)) == Some(t) <==> s == "team-" + t
  {
    Converse(Text(s));
    RoundTrip(t);
  }
}

=== FILE: teams.dfy ===
/** `services/teamService.js`: the ministry teams, who belongs to each, and
    the positions a member holds within a team. Team and user ids from a
    route are text; the ids in a request body are `Store.Id`s. */
module Teams {
  import opened Values
  import opened Text
  import opened Response
  import opened Store
  import Sequences
  import TeamType

  predicate TeamExists(s: Store, teamId: string) {
    exists i :: 0 <= i < |s.teams| && s.teams[i].id == teamId
  }

  /** Some `team_members` row links this user to this team. */
  predicate IsTeamMember(rows: seq<TeamMember>, teamId: string, userId: string) {
    exists i :: 0 <= i < |rows| && rows[i].teamId == teamId && rows[i].userId == userId
  }

  /** At most one `team_members` row per (team, user) pair. */
  predicate OneRowEach(rows: seq<TeamMember>) {
    forall i, j :: 0 <= i < j < |rows| ==> !(rows[i].teamId == rows[j].teamId && rows[i].userId == rows[j].userId)
  }

  /** Some `team_member_positions` row gives this member this position. */
  predicate HoldsPosition(rows: seq<MemberPosition>, teamId: string, userId: string, positionId: string) {
    exists i :: 0 <= i < |rows| && rows[i].teamId == teamId && rows[i].userId == userId && rows[i].positionId == positionId
  }

  // ---------------------------------------------------------------------
  // Main and other teams
  // ---------------------------------------------------------------------

  /** `SELECT * FROM teams WHERE is_protected = p`, in storage order. */
  function WithProtection(teams: seq<Team>, p: bool): (r: seq<Team>)
    ensures forall t :: t in r <==> t in teams && t.isProtected == p
  {
    if teams == [] then []
    else (if teams[0].isProtected == p then [teams[0]] else []) + WithProtection(teams[1..], p)
  }

  /** `getAllMainTeams`: the protected teams, or `NOT_FOUND` when there are none. */
  function MainTeams(s: Store): (r: Envelope<seq<Team>>)
    ensures r.Ok() <==> exists t :: t in s.teams && t.isProtected
    ensures r.Ok() ==> r.code == "TEAMS_FETCHED" && r.data.Some?
    ensures r.Ok() ==> forall t :: t in r.data.value <==> t in s.teams && t.isProtected
    ensures !r.Ok() ==> r.code == "NOT_FOUND"
  {
    var teams := WithProtection(s.teams, true);
    if teams == [] then Fail("NOT_FOUND", "No main teams found")
    else
      assert teams[0] in teams;
      Succeed("TEAMS_FETCHED", "All main teams successfully fetched", Some(teams))
  }

  /** `getAllOtherTeams`: the unprotected teams, or `NOT_FOUND` when there are none. */
  function OtherTeams(s: Store): (r: Envelope<seq<Team>>)
    ensures r.Ok() <==> exists t :: t in s.teams && !t.isProtected
    ensures r.Ok() ==> r.code == "TEAMS_FETCHED" && r.data.Some?
    ensures r.Ok() ==> forall t :: t in r.data.value <==> t in s.teams && !t.isProtected
    ensures !r.Ok() ==> r.code == "NOT_FOUND"
  {
    var teams := WithProtection(s.teams, false);
    if teams == [] then Fail("NOT_FOUND", "No 'other' teams found")
    else
      assert teams[0] in teams;
      Succeed("TEAMS_FETCHED", "All 'other' teams successfully fetched", Some(teams))
  }

  /** The two listings split the table: together they hold every row once. */
  lemma {:induction false} ProtectionPartition(teams: seq<Team>)
    ensures |WithProtection(teams, true)| + |WithProtection(teams, false)| == |teams|
  {
    if teams != [] {
      ProtectionPartition(teams[1..]);
    }
  }

  /** Some listing succeeds exactly when there is a team at all, and no team
      appears in both. */
  lemma MainOrOther(s: Store)
    ensures MainTeams(s).Ok() || OtherTeams(s).Ok() <==> s.teams != []
    ensures MainTeams(s).Ok() && OtherTeams(s).Ok() ==>
      forall t :: !(t in MainTeams(s).data.value && t in OtherTeams(s).data.value)
  {
    if s.teams != [] {
      assert s.teams[0] in s.teams;
    }
  }

  // ---------------------------------------------------------------------
  // Members and non-members
  // ---------------------------------------------------------------------

  /** `getTeamMembers`, as far as `getAllNonMembers` uses it: the user ids of
      the team's membership rows whose user exists (the inner join with
      `user`), or `TEAM_NOT_FOUND`. */
  function TeamMembers(s: Store, teamId: string): (r: Envelope<set<string>>)
    ensures r.Ok() <==> TeamExists(s, teamId)
    ensures !r.Ok() ==> r.code == "TEAM_NOT_FOUND"
    ensures r.Ok() ==> r.data.Some?
    ensures r.Ok() ==> forall u :: u in r.data.value <==> u in s.users && IsTeamMember(s.teamMembers, teamId, u)
  {
    if !TeamExists(s, teamId) then Fail("TEAM_NOT_FOUND", "No team with that id found")
    else
      var rows := s.teamMembers;
      Succeed("MEMBER_FETCHED", "Successfully fetched members",
        Some(set i | 0 <= i < |rows| && rows[i].teamId == teamId && rows[i].userId in s.users :: rows[i].userId))
  }

  /** `getAllNonMembers`: the user rows whose id is not among the member ids.
      For an unknown team the member listing is an error envelope without
      `data`, so the `|| []` fallback makes every user a non-member. */
  function NonMembers(s: Store, teamId: string): (r: Envelope<map<string, Row>>)
    ensures r.Ok() && r.code == "NON_MEMBERS_FETCHED" && r.data.Some?
    ensures r.data.value.Keys <= s.users.Keys
    ensures forall u :: u in r.data.value ==> r.data.value[u] == s.users[u]
  {
    var listed := TeamMembers(s, teamId);
    var memberIds := if listed.Success? && listed.data.Some? then listed.data.value else {};
    Succeed("NON_MEMBERS_FETCHED", "Successfully fetched non-members",
      Some(map u | u in s.users && u !in memberIds :: s.users[u]))
  }

  /** A user is listed as a non-member exactly when the team is unknown or
      the user has no membership row in it. */
  lemma NonMembersExactly(s: Store, teamId: string, u: string)
    ensures u in NonMembers(s, teamId).data.value <==>
      u in s.users && !(TeamExists(s, teamId) && IsTeamMember(s.teamMembers, teamId, u))
  {
  }

  /** For an unknown team every user is a non-member. */
  lemma NonMembersOfUnknownTeam(s: Store, teamId: string)
    requires !TeamExists(s, teamId)
    ensures NonMembers(s, teamId).data.value == s.users
  {
  }

  // ---------------------------------------------------------------------
  // Positions
  // ---------------------------------------------------------------------

  /** The position id derived from a label: `pos-`, then the label
      lower-cased with every white-space character removed. */
  function PositionId(labelText: string): (r: string)
    ensures |r| >= 4 && r[..4] == "pos-"
    ensures NoWhitespace(r[4..])
  {
    "pos-" + RemoveWhitespace(Lower(labelText))
  }

  /** Labels that differ only in letter case give the same id. */
  lemma PositionIdIgnoresCase(labelText: string)
    ensures PositionId(Lower(labelText)) == PositionId(labelText)
  {
    LowerIdempotent(labelText);
  }

  lemma {:induction false} RemoveAllWhitespace(w: string)
    requires forall k :: 0 <= k < |w| ==> IsWhitespace(w[k])
    ensures RemoveWhitespace(w) == []
  {
    if w != [] {
      RemoveAllWhitespace(w[1..]);
    }
  }

  /** White space anywhere in a label does not change the id. */
  lemma PositionIdIgnoresSpace(a: string, w: string, b: string)
    requires forall k :: 0 <= k < |w| ==> IsWhitespace(w[k])
    ensures PositionId(a + w + b) == PositionId(a + b)
  {
    var la, lw, lb := Lower(a), Lower(w), Lower(b);
    LowerAppend(a + w, b);
    LowerAppend(a, w);
    LowerAppend(a, b);
    assert forall k :: 0 <= k < |lw| ==> IsWhitespace(lw[k]) by {
      forall k | 0 <= k < |lw|
        ensures IsWhitespace(lw[k])
      {
        assert lw[k] == LowerChar(w[k]);
      }
    }
    RemoveAllWhitespace(lw);
    RemoveWhitespaceAppend(la + lw, lb);
    RemoveWhitespaceAppend(la, lw);
    RemoveWhitespaceAppend(la, lb);
    assert RemoveWhitespace(la + lw) == RemoveWhitespace(la);
    assert RemoveWhitespace(Lower(a + w + b)) == RemoveWhitespace(Lower(a + b));
  }

  /** The `data` of `POSITION_CREATED`. */
  datatype NewPosition = NewPosition(id: string, labelText: string, teamType: Option<string>)

  /** `label.toLowerCase()` on a label that is not text. */
  function LabelNotText(v: Value): string {
    NotAMethod("label", "toLowerCase", v)
  }

  /** The call created a position. */
  predicate Created(r: Attempt<NewPosition>) {
    r.outcome.Returned? && r.outcome.env.Ok()
  }

  /** `createPosition`: for a known team, derive the position id from the
      labelText and insert `(id, labelText, team type)` unless the id is taken. */
  function CreatePosition(s: Store, teamId: string, labelText: Value): (r: Attempt<NewPosition>)
    ensures !TeamExists(s, teamId) ==> r == Attempt(s, Returned(Fail("TEAM_NOT_FOUND", "No team with that id found")))
    ensures TeamExists(s, teamId) && !labelText.Str? ==> r == Attempt(s, Threw(LabelNotText(labelText)))
    ensures Created(r) <==> TeamExists(s, teamId) && labelText.Str? && PositionId(labelText.s) !in s.positions
    ensures TeamExists(s, teamId) && labelText.Str? && PositionId(labelText.s) in s.positions ==>
      r == Attempt(s, Returned(Fail("POSITION_EXISTS", "Position with that label already exists")))
    ensures Created(r) ==>
      var id := PositionId(labelText.s);
      && r.outcome.env.code == "POSITION_CREATED"
      && r.outcome.env.data.Some? && r.outcome.env.data.value.id == id
      && r.store == s.(positions := r.store.positions)
      && r.store.positions.Keys == s.positions.Keys + {id}
      && (forall k :: k in s.positions ==> r.store.positions[k] == s.positions[k])
      && r.store.positions[id] == Position(labelText.s, r.outcome.env.data.value.teamType)
  {
    if !TeamExists(s, teamId) then Attempt(s, Returned(Fail("TEAM_NOT_FOUND", "No team with that id found")))
    else if !labelText.Str? then Attempt(s, Threw(LabelNotText(labelText)))
    else
      var teamType := TeamType.ExtractTeamType(TeamType.Text(teamId));
      var id := PositionId(labelText.s);
      if id in s.positions then Attempt(s, Returned(Fail("POSITION_EXISTS", "Position with that label already exists")))
      else
        Attempt(s.(positions := s.positions[id := Position(labelText.s, teamType)]),
          Returned(Succeed("POSITION_CREATED", "New position successfully created",
            Some(NewPosition(id, labelText.s, teamType)))))
  }

  /** A created position's team type is `t` exactly when the team id is
      `team-` followed by `t`. */
  lemma CreatedTeamType(s: Store, teamId: string, labelText: Value, t: string)
    requires Created(CreatePosition(s, teamId, labelText))
    ensures CreatePosition(s, teamId, labelText).outcome.env.data.value.teamType == Some(t) <==> teamId == "team-" + t
  {
    TeamType.Characterisation(teamId, t);
  }

  /** Once a label has been created, any label with the same id (another
      letter case, other white space) is refused and changes nothing. */
  lemma CreateTwice(s: Store, teamId: string, a: string, b: string)
    requires Created(CreatePosition(s, teamId, Str(a)))
    requires PositionId(b) == PositionId(a)
    ensures var s' := CreatePosition(s, teamId, Str(a)).store;
      CreatePosition(s', teamId, Str(b)) == Attempt(s', Returned(Fail("POSITION_EXISTS", "Position with that label already exists")))
  {
  }

  /** Some member holds this position. */
  predicate InUse(s: Store, positionId: string) {
    exists i :: 0 <= i < |s.memberPositions| && s.memberPositions[i].positionId == positionId
  }

  /** `deletePosition`: only an existing position nobody holds is removed. */
  function DeletePosition(s: Store, positionId: string): (r: Reply<string>)
    ensures r.env.Ok() <==> positionId in s.positions && !InUse(s, positionId)
    ensures !r.env.Ok() ==> r.store == s
    ensures positionId !in s.positions ==> r.env.code == "POSITION_NOT_FOUND"
    ensures positionId in s.positions && InUse(s, positionId) ==> r.env.code == "POSITION_IN_USE"
    ensures r.env.Ok() ==> r.env.code == "POSITION_DELETED" && r.env.data == Some(positionId)
    ensures r.env.Ok() ==> r.store == s.(positions := r.store.positions) && r.store.positions.Keys == s.positions.Keys - {positionId}
    ensures forall k :: k in r.store.positions ==> r.store.positions[k] == s.positions[k]
  {
    if positionId !in s.positions then Reply(s, Fail("POSITION_NOT_FOUND", "No position with that id found"))
    else if InUse(s, positionId) then
      Reply(s, Fail("POSITION_IN_USE", "Cannot delete position because it is still assigned to team members"))
    else
      Reply(s.(positions := s.positions - {positionId}),
        Succeed("POSITION_DELETED", "Position successfully deleted", Some(positionId)))
  }

  /** Deleting a position just created, while nobody holds it, restores the
      database exactly. */
  lemma CreateThenDelete(s: Store, teamId: string, labelText: string)
    requires Created(CreatePosition(s, teamId, Str(labelText)))
    requires !InUse(s, PositionId(labelText))
    ensures DeletePosition(CreatePosition(s, teamId, Str(labelText)).store, PositionId(labelText)).store == s
  {
    var s' := CreatePosition(s, teamId, Str(labelText)).store;
    assert s'.positions - {PositionId(labelText)} == s.positions;
  }

  /** A second delete of the same position finds nothing. */
  lemma DeletePositionTwice(s: Store, positionId: string)
    requires DeletePosition(s, positionId).env.Ok()
    ensures var s' := DeletePosition(s, positionId).store;
      DeletePosition(s', positionId) == Reply(s', Fail("POSITION_NOT_FOUND", "No position with that id found"))
  {
  }

  // ---------------------------------------------------------------------
  // Member details
  // ---------------------------------------------------------------------

  /** The body of a detail update: each field is `Undefined` when absent;
      `positionIds` is `None` unless `position_ids` is an array. */
  datatype MemberUpdate = MemberUpdate(role: Value, isActive: Value, note: Value, positionIds: Option<seq<string>>)

  /** At least one of `role`, `is_active`, `note` is present. */
  predicate AnyField(u: MemberUpdate) {
    !u.role.Undefined? || !u.isActive.Undefined? || !u.note.Undefined?
  }

  /** One `team_members` row after `UPDATE ... SET <present fields>,
      updated_at = NOW()`. */
  function PatchRow(row: TeamMember, u: MemberUpdate, now: int): (r: TeamMember)
    ensures r.id == row.id && r.teamId == row.teamId && r.userId == row.userId
    ensures r.role == (if u.role.Undefined? then row.role else u.role)
    ensures r.isActive == (if u.isActive.Undefined? then row.isActive else u.isActive)
    ensures r.note == (if u.note.Undefined? then row.note else u.note)
    ensures r.updatedAt == Some(now)
  {
    var role := if u.role.Undefined? then row.role else u.role;
    var isActive := if u.isActive.Undefined? then row.isActive else u.isActive;
    var note := if u.note.Undefined? then row.note else u.note;
    row.(role := role, isActive := isActive, note := note, updatedAt := Some(now))
  }

  /** The `UPDATE` applied to every row of this (team, user). */
  function Patch(rows: seq<TeamMember>, teamId: string, userId: string, u: MemberUpdate, now: int): (r: seq<TeamMember>)
    ensures |r| == |rows|
    ensures forall i :: 0 <= i < |rows| && !(rows[i].teamId == teamId && rows[i].userId == userId) ==> r[i] == rows[i]
    ensures forall i :: 0 <= i < |rows| && rows[i].teamId == teamId && rows[i].userId == userId ==> r[i] == PatchRow(rows[i], u, now)
  {
    seq(|rows|, i requires 0 <= i < |rows| =>
      if rows[i].teamId == teamId && rows[i].userId == userId then PatchRow(rows[i], u, now) else rows[i])
  }

  /** The position rows of everyone but this member. */
  function OthersPositions(rows: seq<MemberPosition>, teamId: string, userId: string): (r: seq<MemberPosition>)
    ensures forall p :: p in r <==> p in rows && !(p.teamId == teamId && p.userId == userId)
    ensures |r| <= |rows|
  {
    if rows == [] then []
    else
      (if rows[0].teamId == teamId && rows[0].userId == userId then [] else [rows[0]])
      + OthersPositions(rows[1..], teamId, userId)
  }

  /** One new position row per id, the k-th taking the k-th fresh id. */
  function PositionRows(ids: seq<string>, teamId: string, userId: string, uuid: Uuid): (r: seq<MemberPosition>)
    ensures |r| == |ids|
    ensures forall i :: 0 <= i < |ids| ==> r[i] == MemberPosition(uuid(i), teamId, userId, ids[i])
  {
    seq(|ids|, i requires 0 <= i < |ids| => MemberPosition(uuid(i), teamId, userId, ids[i]))
  }

  /** No position is given twice to this member. */
  predicate PositionsOnce(rows: seq<MemberPosition>, teamId: string, userId: string) {
    forall i, j ::
      (0 <= i < j < |rows| && rows[i].teamId == teamId && rows[i].userId == userId
       && rows[j].teamId == teamId && rows[j].userId == userId) ==> rows[i].positionId != rows[j].positionId
  }

  /** The member's position rows replaced by one row per distinct id. */
  function ReplacePositions(rows: seq<MemberPosition>, teamId: string, userId: string, ids: seq<string>, uuid: Uuid)
    : (r: seq<MemberPosition>)
    ensures forall p :: HoldsPosition(r, teamId, userId, p) <==> p in ids
    ensures PositionsOnce(r, teamId, userId)
    ensures forall p: MemberPosition :: !(p.teamId == teamId && p.userId == userId) ==> (p in r <==> p in rows)
  {
    var others := OthersPositions(rows, teamId, userId);
    var added := PositionRows(Sequences.Dedup(ids), teamId, userId, uuid);
    HoldsAfterReplace(others, added, teamId, userId, ids, uuid);
    others + added
  }

  lemma HoldsAfterReplace(others: seq<MemberPosition>, added: seq<MemberPosition>, teamId: string, userId: string,
                          ids: seq<string>, uuid: Uuid)
    requires forall p :: p in others ==> !(p.teamId == teamId && p.userId == userId)
    requires added == PositionRows(Sequences.Dedup(ids), teamId, userId, uuid)
    ensures forall p :: HoldsPosition(others + added, teamId, userId, p) <==> p in ids
    ensures PositionsOnce(others + added, teamId, userId)
  {
    var rows := others + added;
    var d := Sequences.Dedup(ids);
    assert forall k :: 0 <= k < |others| ==> !(rows[k].teamId == teamId && rows[k].userId == userId) by {
      forall k | 0 <= k < |others|
        ensures !(rows[k].teamId == teamId && rows[k].userId == userId)
      {
        assert rows[k] == others[k] && others[k] in others;
      }
    }
    forall i, j | 0 <= i < j < |rows| && rows[i].teamId == teamId && rows[i].userId == userId
      && rows[j].teamId == teamId && rows[j].userId == userId
      ensures rows[i].positionId != rows[j].positionId
    {
      assert rows[i] == added[i - |others|] && rows[j] == added[j - |others|];
    }
    forall p
      ensures HoldsPosition(rows, teamId, userId, p) <==> p in ids
    {
      if p in ids {
        var i :| 0 <= i < |d| && d[i] == p;
        assert rows[|others| + i] == added[i];
      }
      if HoldsPosition(rows, teamId, userId, p) {
        var i :| 0 <= i < |rows| && rows[i].teamId == teamId && rows[i].userId == userId && rows[i].positionId == p;
        assert rows[i] == added[i - |others|];
      }
    }
  }

  /** `setMemberDetail`: for a member of a known team, write the present
      fields (and the timestamp) when there is at least one, then, when
      `position_ids` is an array, replace the member's positions in this
      team with its distinct ids. */
  function SetMemberDetail(s: Store, teamId: string, userId: string, u: MemberUpdate, now: int, uuid: Uuid): (r: Reply<()>)
    ensures r.env.Ok() <==> TeamExists(s, teamId) && IsTeamMember(s.teamMembers, teamId, userId)
    ensures !TeamExists(s, teamId) ==> r == Reply(s, Fail("TEAM_NOT_FOUND", "No team with that id found"))
    ensures TeamExists(s, teamId) && !IsTeamMember(s.teamMembers, teamId, userId) ==>
      r == Reply(s, Fail("NOT_FOUND", "No member with that id in this team"))
    ensures r.env.Ok() ==> r.env.code == "MEMBER_UPDATED"
    ensures r.store == s.(teamMembers := r.store.teamMembers, memberPositions := r.store.memberPositions)
    ensures !AnyField(u) ==> r.store.teamMembers == s.teamMembers
    ensures u.positionIds.None? ==> r.store.memberPositions == s.memberPositions
    ensures r.env.Ok() && AnyField(u) ==> r.store.teamMembers == Patch(s.teamMembers, teamId, userId, u, now)
    ensures r.env.Ok() && u.positionIds.Some? ==>
      forall p :: HoldsPosition(r.store.memberPositions, teamId, userId, p) <==> p in u.positionIds.value
    ensures r.env.Ok() && u.positionIds.Some? ==> PositionsOnce(r.store.memberPositions, teamId, userId)
    ensures forall p: MemberPosition :: !(p.teamId == teamId && p.userId == userId) ==>
      (p in r.store.memberPositions <==> p in s.memberPositions)
  {
    if !TeamExists(s, teamId) then Reply(s, Fail("TEAM_NOT_FOUND", "No team with that id found"))
    else if !IsTeamMember(s.teamMembers, teamId, userId) then
      Reply(s, Fail("NOT_FOUND", "No member with that id in this team"))
    else
      var members := if AnyField(u) then Patch(s.teamMembers, teamId, userId, u, now) else s.teamMembers;
      var held :=
        if u.positionIds.None? then s.memberPositions
        else ReplacePositions(s.memberPositions, teamId, userId, u.positionIds.value, uuid);
      Reply(s.(teamMembers := members, memberPositions := held), Succeed("MEMBER_UPDATED", "Member details updated successfully"))
  }

  lemma PatchTwice(rows: seq<TeamMember>, teamId: string, userId: string, u: MemberUpdate, now: int)
    ensures Patch(Patch(rows, teamId, userId, u, now), teamId, userId, u, now) == Patch(rows, teamId, userId, u, now)
  {
    var once := Patch(rows, teamId, userId, u, now);
    var twice := Patch(once, teamId, userId, u, now);
    forall i | 0 <= i < |rows|
      ensures twice[i] == once[i]
    {
    }
  }

  lemma {:induction false} OthersAppend(a: seq<MemberPosition>, b: seq<MemberPosition>, teamId: string, userId: string)
    ensures OthersPositions(a + b, teamId, userId) == OthersPositions(a, teamId, userId) + OthersPositions(b, teamId, userId)
  {
    if a == [] {
      assert a + b == b;
    } else {
      assert (a + b)[0] == a[0] && (a + b)[1..] == a[1..] + b;
      OthersAppend(a[1..], b, teamId, userId);
    }
  }

  lemma {:induction false} OthersOfOthers(a: seq<MemberPosition>, teamId: string, userId: string)
    requires forall p :: p in a ==> !(p.teamId == teamId && p.userId == userId)
    ensures OthersPositions(a, teamId, userId) == a
  {
    if a != [] {
      assert a[0] in a;
      OthersOfOthers(a[1..], teamId, userId);
      assert a == [a[0]] + a[1..];
    }
  }

  lemma {:induction false} OthersOfOwn(a: seq<MemberPosition>, teamId: string, userId: string)
    requires forall i :: 0 <= i < |a| ==> a[i].teamId == teamId && a[i].userId == userId
    ensures OthersPositions(a, teamId, userId) == []
  {
    if a != [] {
      OthersOfOwn(a[1..], teamId, userId);
    }
  }

  /** Replacing the positions again with the same ids and fresh ids changes nothing. */
  lemma ReplaceTwice(rows: seq<MemberPosition>, teamId: string, userId: string, ids: seq<string>, uuid: Uuid)
    ensures var once := ReplacePositions(rows, teamId, userId, ids, uuid);
      ReplacePositions(once, teamId, userId, ids, uuid) == once
  {
    var others := OthersPositions(rows, teamId, userId);
    var added := PositionRows(Sequences.Dedup(ids), teamId, userId, uuid);
    OthersAppend(others, added, teamId, userId);
    OthersOfOthers(others, teamId, userId);
    OthersOfOwn(added, teamId, userId);
    assert OthersPositions(others + added, teamId, userId) == others;
  }

  /** Sending the same detail update twice (same clock, same fresh ids)
      leaves the database as the first one left it. */
  lemma SetMemberDetailTwice(s: Store, teamId: string, userId: string, u: MemberUpdate, now: int, uuid: Uuid)
    requires SetMemberDetail(s, teamId, userId, u, now, uuid).env.Ok()
    ensures var s' := SetMemberDetail(s, teamId, userId, u, now, uuid).store;
      SetMemberDetail(s', teamId, userId, u, now, uuid) == Reply(s', Succeed("MEMBER_UPDATED", "Member details updated successfully"))
  {
    var s' := SetMemberDetail(s, teamId, userId, u, now, uuid).store;
    var i :| 0 <= i < |s.teamMembers| && s.teamMembers[i].teamId == teamId && s.teamMembers[i].userId == userId;
    if AnyField(u) {
      PatchTwice(s.teamMembers, teamId, userId, u, now);
    }
    assert s'.teamMembers[i].teamId == teamId && s'.teamMembers[i].userId == userId;
    if u.positionIds.Some? {
      ReplaceTwice(s.memberPositions, teamId, userId, u.positionIds.value, uuid);
    }
  }

  // ---------------------------------------------------------------------
  // Adding and removing members
  // ---------------------------------------------------------------------

  /** The request ids that pass the loop's two checks, both made against the
      database as it was before the call: the user exists, and has no row in
      this team. A repeated id passes each time. */
  function Admissible(s: Store, teamId: string, ids: seq<Id>): (r: seq<string>)
    ensures |r| <= |ids|
    ensures forall u :: u in r <==> Some(u) in ids && u in s.users && !IsTeamMember(s.teamMembers, teamId, u)
  {
    if ids == [] then []
    else
      assert ids == [ids[0]] + ids[1..];
      var rest := Admissible(s, teamId, ids[1..]);
      if ids[0].Some? && ids[0].value in s.users && !IsTeamMember(s.teamMembers, teamId, ids[0].value)
      then [ids[0].value] + rest
      else rest
  }

  /** The inserted rows: role `member`, active, the k-th with the k-th fresh id. */
  function JoinedRows(teamId: string, picks: seq<string>, uuid: Uuid, now: int): (r: seq<TeamMember>)
    ensures |r| == |picks|
    ensures forall i :: 0 <= i < |picks| ==> r[i] == TeamMember(uuid(i), teamId, picks[i], Str("member"), Num(1), Null, Some(now))
  {
    seq(|picks|, i requires 0 <= i < |picks| => TeamMember(uuid(i), teamId, picks[i], Str("member"), Num(1), Null, Some(now)))
  }

  lemma MembersAfterJoin(rows: seq<TeamMember>, teamId: string, picks: seq<string>, uuid: Uuid, now: int)
    ensures forall t, u :: IsTeamMember(rows + JoinedRows(teamId, picks, uuid, now), t, u) <==>
      IsTeamMember(rows, t, u) || (t == teamId && u in picks)
  {
    var joined := JoinedRows(teamId, picks, uuid, now);
    var all := rows + joined;
    forall t, u
      ensures IsTeamMember(all, t, u) <==> IsTeamMember(rows, t, u) || (t == teamId && u in picks)
    {
      if IsTeamMember(rows, t, u) {
        var i :| 0 <= i < |rows| && rows[i].teamId == t && rows[i].userId == u;
        assert all[i] == rows[i];
      }
      if t == teamId && u in picks {
        var i :| 0 <= i < |picks| && picks[i] == u;
        assert all[|rows| + i] == joined[i];
      }
      if IsTeamMember(all, t, u) {
        var i :| 0 <= i < |all| && all[i].teamId == t && all[i].userId == u;
        if i < |rows| {
          assert all[i] == rows[i];
        } else {
          assert all[i] == joined[i - |rows|];
        }
      }
    }
  }

  /** The end of `addMemberToTeam`, given the ids that passed the checks. */
  function Admit(s: Store, teamId: string, picks: seq<string>, uuid: Uuid, now: int): (r: Reply<()>)
    ensures r.env.Ok() <==> TeamExists(s, teamId) && picks != []
    ensures !TeamExists(s, teamId) ==> r == Reply(s, Fail("TEAM_NOT_FOUND", "No team with that id found"))
    ensures TeamExists(s, teamId) && picks == [] ==> r == Reply(s, Fail("NO_VALID_MEMBERS", "No valid users to add"))
    ensures r.env.Ok() ==> r.env.code == "MEMBERS_ADDED"
    ensures r.store == s.(teamMembers := r.store.teamMembers)
    ensures r.env.Ok() ==> r.store.teamMembers == s.teamMembers + JoinedRows(teamId, picks, uuid, now)
    ensures forall t, u :: IsTeamMember(r.store.teamMembers, t, u) <==>
      IsTeamMember(s.teamMembers, t, u) || (r.env.Ok() && t == teamId && u in picks)
  {
    MembersAfterJoin(s.teamMembers, teamId, picks, uuid, now);
    if !TeamExists(s, teamId) then Reply(s, Fail("TEAM_NOT_FOUND", "No team with that id found"))
    else if picks == [] then Reply(s, Fail("NO_VALID_MEMBERS", "No valid users to add"))
    else
      Reply(s.(teamMembers := s.teamMembers + JoinedRows(teamId, picks, uuid, now)),
        Succeed("MEMBERS_ADDED", IntToString(|picks|) + " members successfully added to team"))
  }

  /** `addMemberToTeam` as written: one new row per id that passes the checks. */
  function AddMembers(s: Store, teamId: string, userIds: seq<Id>, uuid: Uuid, now: int): (r: Reply<()>)
    ensures r.env.Ok() <==>
      (TeamExists(s, teamId) && exists u :: Some(u) in userIds && u in s.users && !IsTeamMember(s.teamMembers, teamId, u))
    ensures !TeamExists(s, teamId) ==> r == Reply(s, Fail("TEAM_NOT_FOUND", "No team with that id found"))
    ensures TeamExists(s, teamId) && !r.env.Ok() ==> r == Reply(s, Fail("NO_VALID_MEMBERS", "No valid users to add"))
    ensures r.store == s.(teamMembers := r.store.teamMembers)
    ensures r.env.Ok() ==> |r.store.teamMembers| > |s.teamMembers| && r.store.teamMembers[..|s.teamMembers|] == s.teamMembers
    ensures forall i :: |s.teamMembers| <= i < |r.store.teamMembers| ==>
      var m := r.store.teamMembers[i];
      m.teamId == teamId && m.role == Str("member") && m.isActive == Num(1) && Some(m.userId) in userIds
    ensures forall t, u :: IsTeamMember(r.store.teamMembers, t, u) <==>
      IsTeamMember(s.teamMembers, t, u) || (r.env.Ok() && t == teamId && Some(u) in userIds && u in s.users)
  {
    var picks := Admissible(s, teamId, userIds);
    assert picks != [] ==> picks[0] in picks;
    Admit(s, teamId, picks, uuid, now)
  }

  /** The two rows a repeated id produces for a user not yet in the team. */
  lemma RepeatedIdTwoRows(s: Store, teamId: string, u: string, uuid: Uuid, now: int)
    requires TeamExists(s, teamId) && u in s.users && !IsTeamMember(s.teamMembers, teamId, u)
    ensures var after := AddMembers(s, teamId, [Some(u), Some(u)], uuid, now).store.teamMembers;
      && |after| == |s.teamMembers| + 2
      && after[|s.teamMembers|].teamId == teamId && after[|s.teamMembers|].userId == u
      && after[|s.teamMembers| + 1].teamId == teamId && after[|s.teamMembers| + 1].userId == u
      && !OneRowEach(after)
  {
    var ids := [Some(u), Some(u)];
    assert ids[1..] == [Some(u)] && [Some(u)][1..] == [];
    assert Admissible(s, teamId, ids) == [u, u];
  }

  /** `addMemberToTeam` as evidently intended: an id already accepted in
      this call is skipped like an existing member. */
  function AddMembersFixed(s: Store, teamId: string, userIds: seq<Id>, uuid: Uuid, now: int): (r: Reply<()>)
    ensures r.env.Ok() <==>
      (TeamExists(s, teamId) && exists u :: Some(u) in userIds && u in s.users && !IsTeamMember(s.teamMembers, teamId, u))
    ensures r.store == s.(teamMembers := r.store.teamMembers)
    ensures forall t, u :: IsTeamMember(r.store.teamMembers, t, u) <==>
      IsTeamMember(s.teamMembers, t, u) || (r.env.Ok() && t == teamId && Some(u) in userIds && u in s.users)
    ensures OneRowEach(s.teamMembers) ==> OneRowEach(r.store.teamMembers)
  {
    var picks := Sequences.Dedup(Admissible(s, teamId, userIds));
    assert picks != [] ==> picks[0] in picks;
    JoinKeepsOneRow(s.teamMembers, teamId, picks, uuid, now);
    Admit(s, teamId, picks, uuid, now)
  }

  /** Appending rows for distinct users not yet in the team keeps one row per pair. */
  lemma JoinKeepsOneRow(rows: seq<TeamMember>, teamId: string, picks: seq<string>, uuid: Uuid, now: int)
    ensures OneRowEach(rows) && Sequences.Distinct(picks) && (forall u :: u in picks ==> !IsTeamMember(rows, teamId, u))
      ==> OneRowEach(rows + JoinedRows(teamId, picks, uuid, now))
  {
    if !(OneRowEach(rows) && Sequences.Distinct(picks) && (forall u :: u in picks ==> !IsTeamMember(rows, teamId, u))) {
      return;
    }
    var joined := JoinedRows(teamId, picks, uuid, now);
    var all := rows + joined;
    forall i, j | 0 <= i < j < |all|
      ensures !(all[i].teamId == all[j].teamId && all[i].userId == all[j].userId)
    {
      if j >= |rows| {
        assert all[j] == joined[j - |rows|] && picks[j - |rows|] in picks;
        if i < |rows| {
          assert all[i] == rows[i];
        } else {
          assert all[i] == joined[i - |rows|];
        }
      }
    }
  }

  /** The membership rows of everyone but this (team, user). */
  function DropMember(rows: seq<TeamMember>, teamId: string, userId: string): (r: seq<TeamMember>)
    ensures forall m :: m in r <==> m in rows && !(m.teamId == teamId && m.userId == userId)
  {
    if rows == [] then []
    else
      (if rows[0].teamId == teamId && rows[0].userId == userId then [] else [rows[0]])
      + DropMember(rows[1..], teamId, userId)
  }

  /** `removeMemberFromTeam`: delete the membership and every position the
      user holds in that team. The team itself is not looked up. */
  function RemoveMember(s: Store, teamId: string, userId: string): (r: Reply<()>)
    ensures r.env.Ok() <==> IsTeamMember(s.teamMembers, teamId, userId)
    ensures !r.env.Ok() ==> r == Reply(s, Fail("NOT_FOUND", "No such member in this team"))
    ensures r.env.Ok() ==> r.env.code == "MEMBER_REMOVED"
    ensures r.store == s.(teamMembers := r.store.teamMembers, memberPositions := r.store.memberPositions)
    ensures !IsTeamMember(r.store.teamMembers, teamId, userId)
    ensures forall p :: !HoldsPosition(r.store.memberPositions, teamId, userId, p) || !r.env.Ok()
    ensures forall m: TeamMember :: !(m.teamId == teamId && m.userId == userId) ==>
      (m in r.store.teamMembers <==> m in s.teamMembers)
    ensures forall p: MemberPosition :: !(p.teamId == teamId && p.userId == userId) ==>
      (p in r.store.memberPositions <==> p in s.memberPositions)
  {
    if !IsTeamMember(s.teamMembers, teamId, userId) then Reply(s, Fail("NOT_FOUND", "No such member in this team"))
    else
      var members := DropMember(s.teamMembers, teamId, userId);
      var held := OthersPositions(s.memberPositions, teamId, userId);
      assert forall i :: 0 <= i < |members| ==> members[i] in members;
      assert forall i :: 0 <= i < |held| ==> held[i] in held;
      Reply(s.(teamMembers := members, memberPositions := held), Succeed("MEMBER_REMOVED", "Member successfully removed from team"))
  }

  /** A second removal finds nothing. */
  lemma RemoveTwice(s: Store, teamId: string, userId: string)
    ensures var s' := RemoveMember(s, teamId, userId).store;
      RemoveMember(s', teamId, userId) == Reply(s', Fail("NOT_FOUND", "No such member in this team"))
  {
  }

  lemma {:induction false} DropAppend(a: seq<TeamMember>, b: seq<TeamMember>, teamId: string, userId: string)
    ensures DropMember(a + b, teamId, userId) == DropMember(a, teamId, userId) + DropMember(b, teamId, userId)
  {
    if a == [] {
      assert a + b == b;
    } else {
      assert (a + b)[0] == a[0] && (a + b)[1..] == a[1..] + b;
      DropAppend(a[1..], b, teamId, userId);
    }
  }

  lemma {:induction false} DropOfOthers(a: seq<TeamMember>, teamId: string, userId: string)
    requires !IsTeamMember(a, teamId, userId)
    ensures DropMember(a, teamId, userId) == a
  {
    if a != [] {
      assert !IsTeamMember(a[1..], teamId, userId) by {
        forall i | 0 <= i < |a[1..]|
          ensures !(a[1..][i].teamId == teamId && a[1..][i].userId == userId)
        {
          assert a[1..][i] == a[i + 1];
        }
      }
      DropOfOthers(a[1..], teamId, userId);
      assert a == [a[0]] + a[1..];
    }
  }

  /** Adding one user and removing them again restores the membership table. */
  lemma AddThenRemove(s: Store, teamId: string, u: string, uuid: Uuid, now: int)
    requires TeamExists(s, teamId) && u in s.users && !IsTeamMember(s.teamMembers, teamId, u)
    ensures var s1 := AddMembers(s, teamId, [Some(u)], uuid, now).store;
      RemoveMember(s1, teamId, u).store.teamMembers == s.teamMembers
  {
    assert [Some(u)][1..] == [];
    assert Admissible(s, teamId, [Some(u)]) == [u];
    var joined := JoinedRows(teamId, [u], uuid, now);
    DropAppend(s.teamMembers, joined, teamId, u);
    DropOfOthers(s.teamMembers, teamId, u);
    assert joined == [joined[0]] && joined[0].teamId == teamId && joined[0].userId == u;
    assert DropMember(joined, teamId, u) == [];
  }
}

=== FILE: text.dfy ===
/** String helpers the services use on names, keys and labels: ASCII case
    folding, whitespace trimming and collapsing, substring search, first-match
    replacement, and split/join on a one-character separator with the
    semantics of JavaScript's `String.prototype.split` and `Array.prototype.join`. */
module Text {

  /** The characters JavaScript's `trim()` and the regular expression `\s`
      treat as white space, restricted to ASCII. */
  predicate IsWhitespace(c: char) {
    c == ' ' || c == '\t' || c == '\n' || c == '\r' || c as int == 11 || c as int == 12
  }

  predicate NoWhitespace(s: string) {
    forall i :: 0 <= i < |s| ==> !IsWhitespace(s[i])
  }

  function LowerChar(c: char): char {
    if 'A' <= c <= 'Z' then (c as int + 32) as char else c
  }

  /** `toLowerCase()` on ASCII letters; every other character is kept. */
  function Lower(s: string): (r: string)
    ensures |r| == |s|
    ensures forall i :: 0 <= i < |s| ==> r[i] == LowerChar(s[i])
  {
    seq(|s|, i requires 0 <= i < |s| => LowerChar(s[i]))
  }

  lemma LowerAppend(a: string, b: string)
    ensures Lower(a + b) == Lower(a) + Lower(b)
  {
    assert Lower(a + b) == Lower(a) + Lower(b);
  }

  /** Lowercasing is idempotent. */
  lemma LowerIdempotent(s: string)
    ensures Lower(Lower(s)) == Lower(s)
  {
    assert forall i :: 0 <= i < |s| ==> LowerChar(LowerChar(s[i])) == LowerChar(s[i]);
  }

  /** Lowercasing never introduces white space. */
  lemma LowerNoWhitespace(s: string)
    requires NoWhitespace(s)
    ensures NoWhitespace(Lower(s))
  {
  }

  /** Drops leading white space. */
  function TrimStart(s: string): (r: string)
    ensures |r| <= |s| && r == s[|s| - |r|..]
    ensures forall k :: 0 <= k < |s| - |r| ==> IsWhitespace(s[k])
    ensures r == [] || !IsWhitespace(r[0])
  {
    if s != [] && IsWhitespace(s[0]) then
      var r := TrimStart(s[1..]);
      assert s[1..][|s| - 1 - |r|..] == s[|s| - |r|..];
      assert forall k :: 1 <= k < |s| - |r| ==> s[k] == s[1..][k - 1];
      r
    else s
  }

  /** Drops trailing white space. */
  function TrimEnd(s: string): (r: string)
    ensures |r| <= |s| && r == s[..|r|]
    ensures forall k :: |r| <= k < |s| ==> IsWhitespace(s[k])
    ensures r == [] || !IsWhitespace(r[|r| - 1])
  {
    if s != [] && IsWhitespace(s[|s| - 1]) then TrimEnd(s[..|s| - 1]) else s
  }

  /** `trim()`: the longest infix of `s` that neither starts nor ends with
      white space, everything cut off being white space. */
  function Trim(s: string): (r: string)
    ensures r == [] || (!IsWhitespace(r[0]) && !IsWhitespace(r[|r| - 1]))
    ensures exists i :: TrimmedAt(s, r, i)
  {
    var t := TrimStart(s);
    var r := TrimEnd(t);
    TrimWitness(s, t, r);
    r
  }

  lemma TrimWitness(s: string, t: string, r: string)
    requires |t| <= |s| && t == s[|s| - |t|..]
    requires forall k :: 0 <= k < |s| - |t| ==> IsWhitespace(s[k])
    requires |r| <= |t| && r == t[..|r|]
    requires forall k :: |r| <= k < |t| ==> IsWhitespace(t[k])
    ensures TrimmedAt(s, r, |s| - |t|)
  {
    var i := |s| - |t|;
    assert s[i..i + |r|] == r by {
      assert t == s[i..] && r == t[..|r|];
    }
    forall k | i + |r| <= k < |s|
      ensures IsWhitespace(s[k])
    {
      assert s[k] == t[k - i];
      assert IsWhitespace(t[k - i]);
    }
  }

  /** A string that neither starts nor ends with white space is its own trim. */
  lemma TrimKeeps(s: string)
    requires s == [] || (!IsWhitespace(s[0]) && !IsWhitespace(s[|s| - 1]))
    ensures Trim(s) == s
  {
    assert TrimStart(s) == s;
    assert TrimEnd(s) == s;
  }

  /** `r` is the infix of `s` at index `i`, and everything around it is white space. */
  predicate TrimmedAt(s: string, r: string, i: int) {
    && 0 <= i <= |s| - |r|
    && s[i..i + |r|] == r
    && (forall k :: 0 <= k < i ==> IsWhitespace(s[k]))
    && (forall k :: i + |r| <= k < |s| ==> IsWhitespace(s[k]))
  }

  /** `replace(/\s+/g, '')`: every white-space character removed. */
  function RemoveWhitespace(s: string): (r: string)
    ensures NoWhitespace(r)
    ensures |r| <= |s|
    ensures NoWhitespace(s) ==> r == s
  {
    if s == [] then []
    else if IsWhitespace(s[0]) then RemoveWhitespace(s[1..])
    else [s[0]] + RemoveWhitespace(s[1..])
  }

  /** Removing white space works piecewise. */
  lemma {:induction false} RemoveWhitespaceAppend(a: string, b: string)
    ensures RemoveWhitespace(a + b) == RemoveWhitespace(a) + RemoveWhitespace(b)
  {
    if a != [] {
      assert (a + b)[0] == a[0] && (a + b)[1..] == a[1..] + b;
      RemoveWhitespaceAppend(a[1..], b);
      if !IsWhitespace(a[0]) {
        assert RemoveWhitespace(a + b) == [a[0]] + RemoveWhitespace(a[1..] + b);
        assert RemoveWhitespace(a) == [a[0]] + RemoveWhitespace(a[1..]);
      }
    } else {
      assert a + b == b;
    }
  }

  /** `replace(/\s+/g, sep)`: every maximal run of white space becomes `sep`. */
  function CollapseWhitespace(s: string, sep: string): (r: string)
    ensures NoWhitespace(s) ==> r == s
    decreases |s|
  {
    if s == [] then []
    else if IsWhitespace(s[0]) then
      var rest := TrimStart(s);
      assert |rest| < |s|;
      sep + CollapseWhitespace(rest, sep)
    else [s[0]] + CollapseWhitespace(s[1..], sep)
  }

  /** `s.replace(pat, rep)` with a string pattern: only the first occurrence
      is replaced; an absent pattern leaves `s` as it is. */
  function ReplaceFirst(s: string, pat: string, rep: string): (r: string)
    ensures !Contains(s, pat) ==> r == s
  {
    if |s| < |pat| then s
    else if s[..|pat|] == pat then rep + s[|pat|..]
    else [s[0]] + ReplaceFirst(s[1..], pat, rep)
  }

  /** When the pattern's first character does not occur in `p`, the first
      occurrence of the pattern in `p + pat` is the appended one. */
  lemma {:induction false} ReplaceFirstAfter(p: string, pat: string, rep: string)
    requires pat != [] && pat[0] !in p
    ensures ReplaceFirst(p + pat, pat, rep) == p + rep
  {
    if p == [] {
      assert p + pat == pat;
    } else {
      var q := p + pat;
      assert q[0] == p[0] && p[0] != pat[0];
      assert q[..|pat|] != pat by {
        assert q[..|pat|][0] == q[0];
      }
      assert q[1..] == p[1..] + pat;
      assert pat[0] !in p[1..] by {
        assert forall c :: c in p[1..] ==> c in p;
      }
      ReplaceFirstAfter(p[1..], pat, rep);
      assert [p[0]] + (p[1..] + rep) == p + rep;
    }
  }

  /** Substring test, the meaning of SQL `LIKE '%sub%'` without wildcards in `sub`. */
  predicate Contains(s: string, sub: string)
    decreases |s|
  {
    sub <= s || (s != [] && Contains(s[1..], sub))
  }

  /** `sub` occurs in `s` starting at index `i`. */
  predicate OccursAt(s: string, sub: string, i: int) {
    0 <= i <= |s| - |sub| && s[i..i + |sub|] == sub
  }

  lemma {:induction false} OccursThenContains(s: string, sub: string, i: int)
    requires OccursAt(s, sub, i)
    ensures Contains(s, sub)
    decreases i
  {
    if i == 0 {
      assert s[..|sub|] == sub;
    } else {
      assert s[1..][i - 1..i - 1 + |sub|] == s[i..i + |sub|];
      OccursThenContains(s[1..], sub, i - 1);
    }
  }

  /** `Contains` holds exactly when the pattern occurs at some index. */
  lemma {:induction false} ContainsAt(s: string, sub: string)
    ensures Contains(s, sub) <==> exists i :: OccursAt(s, sub, i)
    decreases |s|
  {
    if Contains(s, sub) {
      if sub <= s {
        assert OccursAt(s, sub, 0);
      } else {
        ContainsAt(s[1..], sub);
        var i :| OccursAt(s[1..], sub, i);
        assert s[i + 1..i + 1 + |sub|] == s[1..][i..i + |sub|];
        assert OccursAt(s, sub, i + 1);
      }
    }
    if exists i :: OccursAt(s, sub, i) {
      var i :| OccursAt(s, sub, i);
      OccursThenContains(s, sub, i);
    }
  }

  /** `s.split(sep)` with a one-character separator: never empty, and no part
      contains the separator. */
  function Split(s: string, sep: char): (parts: seq<string>)
    ensures |parts| >= 1
    ensures forall i :: 0 <= i < |parts| ==> sep !in parts[i]
  {
    if s == [] then [""]
    else
      var rest := Split(s[1..], sep);
      if s[0] == sep then [""] + rest
      else [[s[0]] + rest[0]] + rest[1..]
  }

  /** `parts.join(sep)`; the empty list joins to the empty string. */
  function Join(parts: seq<string>, sep: char): string {
    if |parts| == 0 then ""
    else if |parts| == 1 then parts[0]
    else parts[0] + [sep] + Join(parts[1..], sep)
  }

  /** Joining the parts of a split gives back the string. */
  lemma {:induction false} JoinSplit(s: string, sep: char)
    ensures Join(Split(s, sep), sep) == s
  {
    if s != [] {
      var rest := Split(s[1..], sep);
      JoinSplit(s[1..], sep);
      if s[0] == sep {
        assert ([""] + rest)[1..] == rest;
      } else if |rest| == 1 {
      } else {
        var parts := [[s[0]] + rest[0]] + rest[1..];
        assert parts[1..] == rest[1..];
        assert Join(rest, sep) == rest[0] + [sep] + Join(rest[1..], sep);
      }
    }
  }

  /** A separator-free prefix followed by the separator splits off as the first part. */
  lemma {:induction false} SplitAfterPrefix(p: string, s: string, sep: char)
    requires sep !in p
    ensures Split(p + [sep] + s, sep) == [p] + Split(s, sep)
  {
    if p == [] {
      assert p + [sep] + s == [sep] + s;
      assert ([sep] + s)[1..] == s;
    } else {
      SplitAfterPrefix(p[1..], s, sep);
      var whole := p + [sep] + s;
      assert whole[1..] == p[1..] + [sep] + s;
      assert [p[0]] + p[1..] == p;
    }
  }

  function DigitChar(d: nat): char
    requires d < 10
  {
    "0123456789"[d]
  }

  function NatToString(n: nat): string {
    if n < 10 then [DigitChar(n)] else NatToString(n / 10) + [DigitChar(n % 10)]
  }

  /** Decimal rendering of an integer, as a template literal prints it. */
  function IntToString(i: int): string {
    if i < 0 then "-" + NatToString(-i) else NatToString(i)
  }

  /** The result of `parseInt`: an integer, or `NaN` when no digit follows
      the optional sign and radix prefix. */
  datatype Parsed = Int(n: int) | NaN

  /** The value of `c` as a digit in `base` (10 or 16), or -1. */
  function DigitOf(c: char, base: nat): (d: int)
    ensures -1 <= d < base || (d == -1)
  {
    var v := if '0' <= c <= '9' then c as int - '0' as int
             else if 'a' <= c <= 'z' then c as int - 'a' as int + 10
             else if 'A' <= c <= 'Z' then c as int - 'A' as int + 10
             else -1;
    if 0 <= v < base then v else -1
  }

  /** The number of leading digits of `s` in `base`. */
  function DigitRun(s: string, base: nat): (k: nat)
    ensures k <= |s|
    ensures forall i :: 0 <= i < k ==> DigitOf(s[i], base) >= 0
    ensures k < |s| ==> DigitOf(s[k], base) == -1
  {
    if s == [] || DigitOf(s[0], base) == -1 then 0 else 1 + DigitRun(s[1..], base)
  }

  /** The number a string of digits in `base` denotes, most significant first. */
  function DigitsValue(s: string, base: nat): nat
    requires forall i :: 0 <= i < |s| ==> DigitOf(s[i], base) >= 0
  {
    if s == [] then 0 else DigitsValue(s[..|s| - 1], base) * base + DigitOf(s[|s| - 1], base)
  }

  /** `s` without a leading `+` or `-`. */
  function Unsigned(t: string): (u: string)
    ensures |u| <= |t|
  {
    if t != [] && (t[0] == '-' || t[0] == '+') then t[1..] else t
  }

  /** Whether the digits are hexadecimal: a `0x` or `0X` prefix. */
  predicate HexPrefixed(u: string) {
    |u| >= 2 && u[0] == '0' && (u[1] == 'x' || u[1] == 'X')
  }

  /** The magnitude `parseInt` reads from unsigned text, or `NaN`. */
  function ParseMagnitude(u: string): (r: Parsed)
    ensures r.Int? ==> r.n >= 0
  {
    var base := if HexPrefixed(u) then 16 else 10;
    var body := if HexPrefixed(u) then u[2..] else u;
    var k := DigitRun(body, base);
    if k == 0 then NaN else Int(DigitsValue(body[..k], base))
  }

  /** `parseInt(s)` without a radix: leading white space, an optional sign,
      then a `0x`/`0X` prefix for hexadecimal or else decimal, and the longest
      run of digits after it. Trailing characters are ignored. */
  function ParseInt(s: string): (r: Parsed)
    ensures var t := TrimStart(s);
            t == [] || (t[0] != '-' && t[0] != '+' && DigitOf(t[0], 10) == -1) ==> r == NaN
    ensures var t := TrimStart(s);
            r.Int? && t != [] && t[0] == '-' ==> r.n <= 0
  {
    var t := TrimStart(s);
    match ParseMagnitude(Unsigned(t))
    case NaN => NaN
    case Int(n) => Int(if t != [] && t[0] == '-' then -n else n)
  }

  lemma DigitOfDigitChar(d: nat)
    requires d < 10
    ensures DigitOf(DigitChar(d), 10) == d
    ensures DigitChar(d) != '-' && DigitChar(d) != '+' && !IsWhitespace(DigitChar(d))
    ensures DigitChar(d) == '0' <==> d == 0
  {
  }

  lemma {:induction false} NatToStringDigits(n: nat)
    ensures |NatToString(n)| > 0
    ensures forall i :: 0 <= i < |NatToString(n)| ==> DigitOf(NatToString(n)[i], 10) >= 0
    ensures DigitsValue(NatToString(n), 10) == n
    ensures NatToString(n)[0] == '0' ==> n == 0 && |NatToString(n)| == 1
    ensures NatToString(n)[0] != '-' && NatToString(n)[0] != '+' && !IsWhitespace(NatToString(n)[0])
  {
    DigitOfDigitChar(n % 10);
    if n >= 10 {
      NatToStringDigits(n / 10);
      var p := NatToString(n / 10);
      var s := NatToString(n);
      assert s == p + [DigitChar(n % 10)];
      assert s[..|s| - 1] == p;
      assert s[0] == p[0];
    }
  }

  lemma DigitRunAll(s: string, base: nat)
    requires forall i :: 0 <= i < |s| ==> DigitOf(s[i], base) >= 0
    ensures DigitRun(s, base) == |s|
  {
  }

  lemma MagnitudeOfDecimal(m: nat)
    ensures ParseMagnitude(NatToString(m)) == Int(m)
    ensures NatToString(m)[0] != '-' && NatToString(m)[0] != '+' && !IsWhitespace(NatToString(m)[0])
  {
    var d := NatToString(m);
    NatToStringDigits(m);
    DigitRunAll(d, 10);
    assert d[..|d|] == d;
    assert !HexPrefixed(d);
  }

  lemma TrimStartKeeps(s: string)
    requires s != [] && !IsWhitespace(s[0])
    ensures TrimStart(s) == s
  {
  }

  lemma ParseIntNat(m: nat)
    ensures ParseInt(NatToString(m)) == Int(m)
  {
    MagnitudeOfDecimal(m);
    var d := NatToString(m);
    TrimStartKeeps(d);
    assert Unsigned(d) == d;
  }

  lemma ParseIntNegative(m: nat)
    ensures ParseInt("-" + NatToString(m)) == Int(-(m as int))
  {
    MagnitudeOfDecimal(m);
    var s := "-" + NatToString(m);
    assert s[0] == '-';
    TrimStartKeeps(s);
    assert Unsigned(s) == NatToString(m);
  }

  /** `parseInt` reads back the decimal rendering of every integer, so a
      number passed in place of numeric text parses to itself. */
  lemma ParseIntRoundTrip(i: int)
    ensures ParseInt(IntToString(i)) == Int(i)
  {
    if i < 0 {
      assert IntToString(i) == "-" + NatToString(-i);
      ParseIntNegative(-i);
    } else {
      assert IntToString(i) == NatToString(i);
      ParseIntNat(i);
    }
  }
}

=== FILE: users.dfy ===
/** `services/userService.js`: listing users, one user's safe detail, and
    the three writes a user row receives (profile, role, status). A user row
    is a map from column name to value; `NOW()` is stored as `Num(now)`. */
module Users {
  import opened Values
  import opened Text
  import opened Response
  import opened Store

  /** The columns a profile edit may write. */
  const Editable: set<string> :=
    {"first_name", "last_name", "phone_number", "address", "city", "province", "postal_code", "DOB"}

  /** The columns the user detail copies from the row, next to `id` and `role_name`. */
  const Safe: set<string> :=
    {"role_id", "first_name", "last_name", "email", "phone_number", "address", "city", "province",
     "postal_code", "last_login", "is_active", "create_at", "update_at", "DOB"}

  /** The column every write stamps with `NOW()`. */
  const Stamp: string := "update_at"

  /** What the detail shows: the safe columns, the id and the role name. */
  const Shown: set<string> := Safe + {"id", "role_name"}

  lemma EditableAreSafe()
    ensures Editable <= Safe && Stamp in Safe && Stamp !in Editable
  {
  }

  lemma ShownFacts()
    ensures "password" !in Shown && "id" !in Safe && "role_name" !in Safe
  {
  }

  // ---------------------------------------------------------------------
  // Role lookups
  // ---------------------------------------------------------------------

  /** `SELECT * FROM role WHERE name = ?`, first row. */
  function RoleNamed(roles: seq<Role>, name: Value): (r: Option<Role>)
    ensures r.None? <==> forall i :: 0 <= i < |roles| ==> !SqlEq(roles[i].name, name)
    ensures r.Some? ==> r.value in roles && SqlEq(r.value.name, name)
  {
    if roles == [] then None
    else if SqlEq(roles[0].name, name) then Some(roles[0])
    else
      var r := RoleNamed(roles[1..], name);
      assert forall i :: 1 <= i < |roles| ==> roles[i] == roles[1..][i - 1];
      r
  }

  /** `SELECT name FROM role WHERE id = ?`, first row; also the `LEFT JOIN
      role r ON u.role_id = r.id` of the listing. */
  function RoleWithId(roles: seq<Role>, id: Value): (r: Option<Role>)
    ensures r.None? <==> forall i :: 0 <= i < |roles| ==> !SqlEq(Num(roles[i].id), id)
    ensures r.Some? ==> r.value in roles && SqlEq(Num(r.value.id), id)
  {
    if roles == [] then None
    else if SqlEq(Num(roles[0].id), id) then Some(roles[0])
    else
      var r := RoleWithId(roles[1..], id);
      assert forall i :: 1 <= i < |roles| ==> roles[i] == roles[1..][i - 1];
      r
  }

  /** The primary key of `role`. */
  predicate UniqueRoleIds(roles: seq<Role>) {
    forall i, j :: 0 <= i < j < |roles| ==> roles[i].id != roles[j].id
  }

  /** With unique ids, looking a role up by its own id finds that role. */
  lemma RoleById(roles: seq<Role>, role: Role)
    requires UniqueRoleIds(roles) && role in roles
    ensures RoleWithId(roles, Num(role.id)) == Some(role)
  {
    var found := RoleWithId(roles, Num(role.id)).value;
    var i :| 0 <= i < |roles| && roles[i] == found;
    var j :| 0 <= j < |roles| && roles[j] == role;
    assert i == j;
  }

  // ---------------------------------------------------------------------
  // Reads
  // ---------------------------------------------------------------------

  /** The role name the detail shows: the name of the role row with the
      user's `role_id`, which may itself be null, or "Unknown" when there is
      no such row. */
  function DetailRoleName(s: Store, row: Row): (r: Value)
    ensures RoleWithId(s.roles, Column(row, "role_id")).None? ==> r == Str("Unknown")
    ensures RoleWithId(s.roles, Column(row, "role_id")).Some? ==> r == RoleWithId(s.roles, Column(row, "role_id")).value.name
  {
    match RoleWithId(s.roles, Column(row, "role_id"))
    case Some(role) => role.name
    case None => Str("Unknown")
  }

  /** `getUserDetailById`: the safe columns of the user, the id and the role
      name; never the password. */
  function GetUserDetail(s: Store, userId: string): (r: Envelope<Row>)
    ensures r.Ok() <==> userId in s.users
    ensures !r.Ok() ==> r == Fail("USER_NOT_FOUND", "User not found.")
    ensures r.Ok() ==> r.code == "USER_DETAIL_FETCHED" && r.data.Some?
    ensures r.Ok() ==> r.data.value.Keys == Shown
    ensures r.Ok() ==> "password" !in r.data.value
    ensures r.Ok() ==> forall k :: k in Safe ==> r.data.value[k] == Column(s.users[userId], k)
    ensures r.Ok() ==> r.data.value["id"] == Str(userId) && r.data.value["role_name"] == DetailRoleName(s, s.users[userId])
  {
    if userId !in s.users then Fail("USER_NOT_FOUND", "User not found.")
    else
      var row := s.users[userId];
      var roleName := DetailRoleName(s, row);
      ShownFacts();
      Succeed("USER_DETAIL_FETCHED", "User details successfully fetched.",
        Some(map k | k in Shown ::
          if k == "id" then Str(userId) else if k == "role_name" then roleName else Column(row, k)))
  }

  /** One entry of the user listing. */
  datatype Listing = Listing(name: string, email: Value, roleName: Value, lastLogin: Value)

  /** An entry: the name is the two name columns as a template literal prints
      them, and a falsy joined role name reads "Unknown". */
  function ListingOf(s: Store, row: Row): (r: Listing)
    ensures r.email == Column(row, "email") && r.lastLogin == Column(row, "last_login")
    ensures r.name == Render(Column(row, "first_name")) + " " + Render(Column(row, "last_name"))
    ensures Truthy(r.roleName)
    ensures RoleWithId(s.roles, Column(row, "role_id")).Some? && Truthy(RoleWithId(s.roles, Column(row, "role_id")).value.name)
      ==> r.roleName == RoleWithId(s.roles, Column(row, "role_id")).value.name
  {
    var joined := match RoleWithId(s.roles, Column(row, "role_id")) case Some(role) => role.name case None => Null;
    Listing(Render(Column(row, "first_name")) + " " + Render(Column(row, "last_name")),
      Column(row, "email"), Or(joined, Str("Unknown")), Column(row, "last_login"))
  }

  /** `getAllUsers`: one entry per user. */
  function GetAllUsers(s: Store): (r: Envelope<map<string, Listing>>)
    ensures r.Ok() && r.code == "USERS_FETCHED" && r.data.Some?
    ensures r.data.value.Keys == s.users.Keys
    ensures forall u :: u in r.data.value ==> r.data.value[u] == ListingOf(s, s.users[u])
  {
    Succeed("USERS_FETCHED", "Users successfully fetched.", Some(map u | u in s.users :: ListingOf(s, s.users[u])))
  }

  /** The listing and the detail agree on the role name unless the detail's
      is falsy, in which case the listing says "Unknown": a role row whose
      name is null reads null in the detail and "Unknown" in the listing. */
  lemma ListingAgreesWithDetail(s: Store, userId: string)
    requires userId in s.users
    ensures var shown := GetUserDetail(s, userId).data.value["role_name"];
      GetAllUsers(s).data.value[userId].roleName == Or(shown, Str("Unknown"))
  {
  }

  // ---------------------------------------------------------------------
  // Writes
  // ---------------------------------------------------------------------

  /** The whitelisted keys present (not `undefined`) in the request body. */
  function Provided(newData: Row): (r: set<string>)
    ensures r <= Editable
    ensures forall k :: k in r <==> k in Editable && Column(newData, k) != Undefined
  {
    set k | k in Editable && Column(newData, k) != Undefined
  }

  /** A row after `UPDATE user SET <provided fields>`: an explicit null is
      written, every other column is kept. */
  function Edited(row: Row, newData: Row): (r: Row)
    ensures forall k :: k in Provided(newData) ==> k in r && r[k] == newData[k]
    ensures forall k :: k !in Provided(newData) ==> (k in r <==> k in row) && (k in row ==> r[k] == row[k])
  {
    map k | k in row.Keys + Provided(newData) :: if k in Provided(newData) then newData[k] else row[k]
  }

  /** `editUserProfile`: write the whitelisted fields that are present, read
      the row back, then stamp it. The returned row is the one read before
      the stamp; a missing user is updated nowhere and reads back as
      `undefined`, which the envelope turns into `null`. */
  function EditProfile(s: Store, userId: string, newData: Row, now: int): (r: Reply<Row>)
    ensures r.env.Ok() <==> Provided(newData) != {}
    ensures !r.env.Ok() ==> r == Reply(s, Fail("NO_FIELDS_PROVIDED", "No valid fields provided to update."))
    ensures r.env.Ok() ==> r.env.code == "PROFILE_UPDATED"
    ensures r.store == s.(users := r.store.users) && r.store.users.Keys == s.users.Keys
    ensures forall u :: u in s.users && u != userId ==> r.store.users[u] == s.users[u]
    ensures userId !in s.users ==> r.store == s
    ensures userId !in s.users && r.env.Ok() ==> r.env.data == None
    ensures r.env.Ok() && userId in s.users ==>
      && r.env.data == Some(Edited(s.users[userId], newData))
      && r.store.users[userId] == Edited(s.users[userId], newData)[Stamp := Num(now)]
  {
    var provided := Provided(newData);
    if provided == {} then Reply(s, Fail("NO_FIELDS_PROVIDED", "No valid fields provided to update."))
    else if userId !in s.users then Reply(s, Succeed("PROFILE_UPDATED", "Profile updated successfully."))
    else
      var edited := Edited(s.users[userId], newData);
      Reply(s.(users := s.users[userId := edited[Stamp := Num(now)]]),
        Succeed("PROFILE_UPDATED", "Profile updated successfully.", Some(edited)))
  }

  /** Keys outside the whitelist make no difference. */
  lemma EditIgnoresOtherKeys(s: Store, userId: string, newData: Row, now: int)
    ensures var kept := map k | k in newData && k in Editable :: newData[k];
      EditProfile(s, userId, kept, now) == EditProfile(s, userId, newData, now)
  {
    var kept := map k | k in newData && k in Editable :: newData[k];
    assert Provided(kept) == Provided(newData);
    if userId in s.users {
      assert Edited(s.users[userId], kept) == Edited(s.users[userId], newData);
    }
  }

  /** After a successful edit the detail shows every provided value, and the
      columns the edit did not provide as they were. */
  lemma EditThenDetail(s: Store, userId: string, newData: Row, now: int)
    requires userId in s.users && Provided(newData) != {}
    ensures var d := GetUserDetail(EditProfile(s, userId, newData, now).store, userId).data.value;
      && (forall k :: k in Provided(newData) ==> d[k] == newData[k])
      && (forall k :: k in Safe && k !in Provided(newData) && k != Stamp ==> d[k] == Column(s.users[userId], k))
      && d[Stamp] == Num(now)
  {
    EditableAreSafe();
  }

  /** The same edit at the same instant a second time changes nothing more. */
  lemma EditTwice(s: Store, userId: string, newData: Row, now: int)
    ensures var s' := EditProfile(s, userId, newData, now).store;
      EditProfile(s', userId, newData, now).store == s'
  {
    var s' := EditProfile(s, userId, newData, now).store;
    if userId in s.users && Provided(newData) != {} {
      EditedTwice(s.users[userId], newData, now);
      assert s'.users[userId := s'.users[userId]] == s'.users;
    }
  }

  /** Writing the same fields and stamp over an edited row gives that row. */
  lemma EditedTwice(row: Row, newData: Row, now: int)
    ensures var once := Edited(row, newData)[Stamp := Num(now)];
      Edited(once, newData)[Stamp := Num(now)] == once
  {
    EditableAreSafe();
    var once := Edited(row, newData)[Stamp := Num(now)];
    var twice := Edited(once, newData)[Stamp := Num(now)];
    assert twice.Keys == once.Keys;
    forall k | k in once
      ensures twice[k] == once[k]
    {
    }
  }

  /** `setRole`: an existing user gets the id of the first role with that
      name, and the stamp. */
  function SetRole(s: Store, userId: string, roleName: Value, now: int): (r: Reply<()>)
    ensures r.env.Ok() <==> userId in s.users && RoleNamed(s.roles, roleName).Some?
    ensures userId !in s.users ==> r == Reply(s, Fail("NOT_FOUND", "No user with that id found"))
    ensures userId in s.users && RoleNamed(s.roles, roleName).None? ==>
      r == Reply(s, Fail("NOT_FOUND", "No role with that name found"))
    ensures r.env.Ok() ==> r.env.code == "ROLE_CHANGED"
    ensures r.store == s.(users := r.store.users) && r.store.users.Keys == s.users.Keys
    ensures forall u :: u in s.users && u != userId ==> r.store.users[u] == s.users[u]
    ensures r.env.Ok() ==>
      r.store.users[userId] == s.users[userId]["role_id" := Num(RoleNamed(s.roles, roleName).value.id)][Stamp := Num(now)]
  {
    if userId !in s.users then Reply(s, Fail("NOT_FOUND", "No user with that id found"))
    else
      match RoleNamed(s.roles, roleName)
      case None => Reply(s, Fail("NOT_FOUND", "No role with that name found"))
      case Some(role) =>
        var row := s.users[userId]["role_id" := Num(role.id)][Stamp := Num(now)];
        Reply(s.(users := s.users[userId := row]), Succeed("ROLE_CHANGED", "User role has successfully changed"))
  }

  /** After a role change the detail names the role that was asked for,
      provided role ids are unique. */
  lemma SetRoleThenDetail(s: Store, userId: string, roleName: Value, now: int)
    requires UniqueRoleIds(s.roles)
    requires SetRole(s, userId, roleName, now).env.Ok()
    ensures var d := GetUserDetail(SetRole(s, userId, roleName, now).store, userId).data.value;
      SqlEq(d["role_name"], roleName)
  {
    var role := RoleNamed(s.roles, roleName).value;
    RoleById(s.roles, role);
  }

  /** `setStatus`: only a boolean is accepted, checked before the user
      lookup; MySQL stores it as 1 or 0. */
  function SetStatus(s: Store, userId: string, isActive: Value, now: int): (r: Reply<()>)
    ensures r.env.Ok() <==> isActive.Bool? && userId in s.users
    ensures !isActive.Bool? ==> r == Reply(s, Fail("INVALID_TYPE", "is_active must be a boolean"))
    ensures isActive.Bool? && userId !in s.users ==> r == Reply(s, Fail("NOT_FOUND", "No user with that id found"))
    ensures r.env.Ok() ==> r.env.code == "STATUS_CHANGED"
    ensures r.store == s.(users := r.store.users) && r.store.users.Keys == s.users.Keys
    ensures forall u :: u in s.users && u != userId ==> r.store.users[u] == s.users[u]
    ensures r.env.Ok() ==> r.store.users[userId] == s.users[userId]["is_active" := Num(if isActive.b then 1 else 0)][Stamp := Num(now)]
  {
    if !isActive.Bool? then Reply(s, Fail("INVALID_TYPE", "is_active must be a boolean"))
    else if userId !in s.users then Reply(s, Fail("NOT_FOUND", "No user with that id found"))
    else
      var row := s.users[userId]["is_active" := Num(if isActive.b then 1 else 0)][Stamp := Num(now)];
      Reply(s.(users := s.users[userId := row]), Succeed("STATUS_CHANGED", "User status has successfully changed"))
  }

  /** After a status change the detail reports the flag as 1 or 0, and its truthiness is the flag. */
  lemma SetStatusThenDetail(s: Store, userId: string, active: bool, now: int)
    requires userId in s.users
    ensures var d := GetUserDetail(SetStatus(s, userId, Bool(active), now).store, userId).data.value;
      d["is_active"] == Num(if active then 1 else 0) && (Truthy(d["is_active"]) <==> active)
  {
    EditableAreSafe();
  }
}

=== FILE: values.dfy ===
/** JavaScript values as the services receive them in request payloads and
    hand them to the database driver, with the truthiness rules the code
    relies on (`x || fallback`, `if (x)`). */
module Values {

  datatype Option<+T> = None | Some(value: T) {
    function GetOr(default: T): T {
      match this
      case Some(v) => v
      case None => default
    }
  }

  /** A scalar JavaScript value. `Undefined` is an absent key; numbers are
      integers (floating point is not modelled). */
  datatype Value = Undefined | Null | Bool(b: bool) | Num(n: int) | Str(s: string)

  predicate Truthy(v: Value) {
    match v
    case Undefined => false
    case Null => false
    case Bool(b) => b
    case Num(n) => n != 0
    case Str(s) => s != ""
  }

  /** `v || fallback`. */
  function Or(v: Value, fallback: Value): (r: Value)
    ensures Truthy(v) ==> r == v
    ensures !Truthy(v) ==> r == fallback
  {
    if Truthy(v) then v else fallback
  }

  /** What a `DB.query` placeholder stores: the driver formats `undefined`
      as SQL `NULL`. */
  function Stored(v: Value): (r: Value)
    ensures r != Undefined
    ensures v != Undefined ==> r == v
  {
    if v == Undefined then Null else v
  }

  /** The `TypeError` V8 raises for `receiver.method()` when the value is
      not a string: reading a property of `null` or `undefined` fails
      first, any other value has no such method. */
  function NotAMethod(receiver: string, name: string, v: Value): string {
    match v
    case Null => CannotRead(v, name)
    case Undefined => CannotRead(v, name)
    case _ => "TypeError: " + receiver + "." + name + " is not a function"
  }

  /** The `TypeError` V8 raises for reading property `name` of `null`, or of
      `undefined` for any other value. */
  function CannotRead(v: Value, name: string): string {
    "TypeError: Cannot read properties of " + (if v == Null then "null" else "undefined") + " (reading '" + name + "')"
  }

  /** SQL `NULL` compares equal to nothing, not even another `NULL`. */
  predicate SqlEq(a: Value, b: Value) {
    a != Null && a != Undefined && a == b
  }
}

=== FILE: videos.dfy ===
/** `services/videoService.js`: the video library and its tags. Deletes are
    soft: a video or a tag is hidden by setting `isActive = 0`. A tag's flag
    is kept as a boolean, `isActive = 0` being `false`. The columns an insert
    leaves to the schema (`isActive`, `createDate`) take the values the
    soft-delete design relies on: active, and the instant of the insert. */
module Videos {
  import opened Values
  import opened Text
  import opened Response
  import opened Store
  import Sequences

  /** The `tags` field of a request body. */
  datatype TagsArg =
    | Omitted                  // `undefined`: the destructuring default `[]` applies
    | Items(items: seq<Value>) // an array
    | Chars(text: string)      // a string: `length` and `for...of` see its characters
    | NullTags                 // `null`: reading `length` throws
    | NoLength                 // a number, boolean or object: `length` is `undefined`

  /** The request body of a create or an update. */
  datatype VideoBody = VideoBody(
    title: Value, youtubeUrl: Value, embedUrl: Value, thumbnailUrl: Value, description: Value,
    eventDate: Value, isActive: Value, createBy: Value, tags: TagsArg)

  /** What `isActive = 1` matches. */
  predicate Active(v: Video) {
    v.isActive == Num(1)
  }

  /** How MySQL stores a flag sent in JSON: booleans become 1 and 0,
      `undefined` becomes `NULL`. */
  function Flag(v: Value): (r: Value)
    ensures r == Num(1) <==> v == Num(1) || v == Bool(true)
  {
    match v
    case Bool(b) => Num(if b then 1 else 0)
    case _ => Stored(v)
  }

  // ---------------------------------------------------------------------
  // Tags
  // ---------------------------------------------------------------------

  /** `SELECT id FROM tags WHERE name = ? LIMIT 1`: the first tag with that
      name, whether active or not. */
  function TagNamed(tags: seq<Tag>, name: string): (r: Option<Tag>)
    ensures r.None? <==> forall i :: 0 <= i < |tags| ==> tags[i].name != name
    ensures r.Some? ==> r.value in tags && r.value.name == name
  {
    if tags == [] then None
    else if tags[0].name == name then Some(tags[0])
    else
      assert forall i :: 1 <= i < |tags| ==> tags[i] == tags[1..][i - 1];
      TagNamed(tags[1..], name)
  }

  /** No two tags share a name. */
  predicate UniqueNames(tags: seq<Tag>) {
    forall i, j :: 0 <= i < j < |tags| ==> tags[i].name != tags[j].name
  }

  /** The two tables the tag attach writes: `tags` and `video_tags`. */
  datatype Library = Library(tags: seq<Tag>, links: seq<VideoTag>)

  function LibraryOf(s: Store): Library {
    Library(s.tags, s.videoTags)
  }

  /** Some link of this video reaches a tag with this name. */
  predicate Linked(lib: Library, videoId: string, name: string) {
    exists j, i :: 0 <= j < |lib.links| && 0 <= i < |lib.tags| && lib.links[j].videoId == videoId
      && lib.tags[i].id == lib.links[j].tagId && lib.tags[i].name == name
  }

  /** `b` is `a` with rows appended to either table. */
  predicate Grows(a: Library, b: Library) {
    && |a.tags| <= |b.tags| && b.tags[..|a.tags|] == a.tags
    && |a.links| <= |b.links| && b.links[..|a.links|] == a.links
  }

  lemma GrowsTrans(a: Library, b: Library, c: Library)
    requires Grows(a, b) && Grows(b, c)
    ensures Grows(a, c)
  {
    assert c.tags[..|b.tags|][..|a.tags|] == c.tags[..|a.tags|];
    assert c.links[..|b.links|][..|a.links|] == c.links[..|a.links|];
  }

  /** Appending rows never undoes a link. */
  lemma LinkedMono(a: Library, b: Library, videoId: string, name: string)
    requires Grows(a, b) && Linked(a, videoId, name)
    ensures Linked(b, videoId, name)
  {
    var j, i :| 0 <= j < |a.links| && 0 <= i < |a.tags| && a.links[j].videoId == videoId
      && a.tags[i].id == a.links[j].tagId && a.tags[i].name == name;
    assert b.links[j] == b.links[..|a.links|][j];
    assert b.tags[i] == b.tags[..|a.tags|][i];
  }

  /** One non-blank trimmed name: reuse the tag with that name or create it
      with the next fresh id, then link it with the fresh id after that. */
  function AttachOne(lib: Library, videoId: string, name: string, uuid: Uuid, k: nat): (r: (Library, nat))
    ensures Grows(lib, r.0) && r.1 > k
    ensures Linked(r.0, videoId, name)
    ensures |r.0.links| == |lib.links| + 1 && r.0.links[|lib.links|].videoId == videoId
    ensures TagNamed(lib.tags, name).Some? ==> r.0.tags == lib.tags
    ensures UniqueNames(lib.tags) ==> UniqueNames(r.0.tags)
  {
    match TagNamed(lib.tags, name)
    case Some(t) =>
      var i :| 0 <= i < |lib.tags| && lib.tags[i] == t;
      var links := lib.links + [VideoTag(uuid(k), videoId, t.id)];
      assert links[|lib.links|].tagId == lib.tags[i].id;
      (Library(lib.tags, links), k + 1)
    case None =>
      var tags := lib.tags + [Tag(uuid(k), name, true)];
      var links := lib.links + [VideoTag(uuid(k + 1), videoId, uuid(k))];
      assert links[|lib.links|].tagId == tags[|lib.tags|].id;
      (Library(tags, links), k + 2)
  }

  /** The number of entries that are strings and not blank once trimmed. */
  function NonBlank(names: seq<Value>): nat {
    if names == [] then 0
    else (if names[0].Str? && Trim(names[0].s) != "" then 1 else 0) + NonBlank(names[1..])
  }

  /** Every entry is a string. */
  predicate AllText(names: seq<Value>) {
    forall i :: 0 <= i < |names| ==> names[i].Str?
  }

  lemma AllTextCons(names: seq<Value>)
    requires names != []
    ensures AllText(names) <==> names[0].Str? && AllText(names[1..])
  {
    assert forall i :: 1 <= i < |names| ==> names[i] == names[1..][i - 1];
  }

  /** Every row appended to `links` on the way from `a` to `b` links `videoId`. */
  predicate AddsOnly(a: Library, b: Library, videoId: string)
    requires Grows(a, b)
  {
    forall j :: |a.links| <= j < |b.links| ==> b.links[j].videoId == videoId
  }

  lemma AddsOnlyTrans(a: Library, b: Library, c: Library, videoId: string)
    requires Grows(a, b) && Grows(b, c) && AddsOnly(a, b, videoId) && AddsOnly(b, c, videoId)
    ensures Grows(a, c) && AddsOnly(a, c, videoId)
  {
    GrowsTrans(a, b, c);
    forall j | |a.links| <= j < |b.links|
      ensures c.links[j] == b.links[j]
    {
      assert c.links[j] == c.links[..|b.links|][j];
    }
  }

  /** The outcome of `attachTagsToVideo`: the two tables, the next unused
      fresh id, and the exception that stopped the loop, if any. */
  datatype Attached = Attached(lib: Library, next: nat, failure: Option<string>)

  /** `tagName.trim()` on an entry that is not a string. */
  function NotAString(tagName: Value): string {
    NotAMethod("tagName", "trim", tagName)
  }

  /** One string entry: skipped when blank once trimmed, attached otherwise. */
  function AttachEntry(lib: Library, videoId: string, entry: string, uuid: Uuid, k: nat): (r: (Library, nat))
    ensures Grows(lib, r.0) && AddsOnly(lib, r.0, videoId) && r.1 >= k
    ensures Trim(entry) == "" ==> r == (lib, k)
    ensures Trim(entry) != "" ==> Linked(r.0, videoId, Trim(entry)) && |r.0.links| == |lib.links| + 1
  {
    var trimmed := Trim(entry);
    if trimmed == "" then
      assert lib.tags[..|lib.tags|] == lib.tags && lib.links[..|lib.links|] == lib.links;
      (lib, k)
    else
      var r := AttachOne(lib, videoId, trimmed, uuid, k);
      assert |r.0.links| == |lib.links| + 1 && r.0.links[|lib.links|].videoId == videoId;
      r
  }

  /** The first entry that is not a string (`undefined` when there is none). */
  function FirstNonText(names: seq<Value>): (v: Value)
    ensures !AllText(names) ==> v in names && !v.Str?
  {
    if names == [] then Undefined
    else if !names[0].Str? then names[0]
    else
      AllTextCons(names);
      FirstNonText(names[1..])
  }

  /** `attachTagsToVideo`: each entry is trimmed, blank ones are skipped,
      and each other one is attached; the first entry that is not a string
      throws, keeping what the earlier entries wrote. */
  function Attach(lib: Library, videoId: string, names: seq<Value>, uuid: Uuid, k: nat): (r: Attached)
    ensures Grows(lib, r.lib) && AddsOnly(lib, r.lib, videoId) && r.next >= k
    ensures r.failure.None? <==> AllText(names)
    ensures r.failure.Some? ==> r.failure == Some(NotAString(FirstNonText(names)))
    decreases |names|
  {
    if names == [] then Attached(lib, k, None)
    else if !names[0].Str? then
      AllTextCons(names);
      Attached(lib, k, Some(NotAString(names[0])))
    else
      var (l1, k1) := AttachEntry(lib, videoId, names[0].s, uuid, k);
      var r := Attach(l1, videoId, names[1..], uuid, k1);
      AddsOnlyTrans(lib, l1, r.lib, videoId);
      AllTextCons(names);
      r
  }

  /** Without an exception, one link is added per non-blank entry. */
  lemma {:induction false} AttachCount(lib: Library, videoId: string, names: seq<Value>, uuid: Uuid, k: nat)
    ensures var r := Attach(lib, videoId, names, uuid, k);
      r.failure.None? ==> |r.lib.links| == |lib.links| + NonBlank(names)
    decreases |names|
  {
    if names != [] && names[0].Str? {
      var (l1, k1) := AttachEntry(lib, videoId, names[0].s, uuid, k);
      AttachCount(l1, videoId, names[1..], uuid, k1);
    }
  }

  /** Without an exception, every non-blank name ends up linked to the video. */
  lemma {:induction false} AttachLinksAll(lib: Library, videoId: string, names: seq<Value>, uuid: Uuid, k: nat)
    ensures var r := Attach(lib, videoId, names, uuid, k);
      r.failure.None? ==>
        forall i :: 0 <= i < |names| && Trim(names[i].s) != "" ==> Linked(r.lib, videoId, Trim(names[i].s))
    decreases |names|
  {
    var r := Attach(lib, videoId, names, uuid, k);
    if names != [] && names[0].Str? && r.failure.None? {
      var (l1, k1) := AttachEntry(lib, videoId, names[0].s, uuid, k);
      assert r == Attach(l1, videoId, names[1..], uuid, k1);
      AttachLinksAll(l1, videoId, names[1..], uuid, k1);
      forall i | 0 <= i < |names| && Trim(names[i].s) != ""
        ensures Linked(r.lib, videoId, Trim(names[i].s))
      {
        if i == 0 {
          LinkedMono(l1, r.lib, videoId, Trim(names[0].s));
        } else {
          assert names[i] == names[1..][i - 1];
        }
      }
    }
  }

  /** Get-or-create never gives two tags the same name. */
  lemma {:induction false} AttachKeepsNamesUnique(lib: Library, videoId: string, names: seq<Value>, uuid: Uuid, k: nat)
    requires UniqueNames(lib.tags)
    ensures UniqueNames(Attach(lib, videoId, names, uuid, k).lib.tags)
    decreases |names|
  {
    if names != [] && names[0].Str? {
      var trimmed := Trim(names[0].s);
      var (l1, k1) := AttachEntry(lib, videoId, names[0].s, uuid, k);
      if trimmed != "" {
        assert (l1, k1) == AttachOne(lib, videoId, trimmed, uuid, k);
      }
      AttachKeepsNamesUnique(l1, videoId, names[1..], uuid, k1);
    }
  }

  /** A blank or whitespace-only name writes nothing. */
  lemma BlankAttachesNothing(lib: Library, videoId: string, name: string, uuid: Uuid, k: nat)
    requires Trim(name) == ""
    ensures Attach(lib, videoId, [Str(name)], uuid, k).lib == lib
  {
    assert [Str(name)][1..] == [];
  }

  lemma {:induction false} TagNamedAfter(tags: seq<Tag>, t: Tag)
    requires TagNamed(tags, t.name).None?
    ensures TagNamed(tags + [t], t.name) == Some(t)
  {
    if tags != [] {
      assert (tags + [t])[1..] == tags[1..] + [t];
      TagNamedAfter(tags[1..], t);
    }
  }

  /** A name with no tag creates the tag under the next fresh id and links
      it under the one after. */
  lemma AttachNewName(lib: Library, videoId: string, name: string, uuid: Uuid, k: nat)
    requires Trim(name) != "" && TagNamed(lib.tags, Trim(name)).None?
    ensures AttachEntry(lib, videoId, name, uuid, k) ==
      (Library(lib.tags + [Tag(uuid(k), Trim(name), true)], lib.links + [VideoTag(uuid(k + 1), videoId, uuid(k))]), k + 2)
  {
  }

  /** A name with a tag links that tag under the next fresh id. */
  lemma AttachKnownName(lib: Library, videoId: string, name: string, uuid: Uuid, k: nat, t: Tag)
    requires Trim(name) != "" && TagNamed(lib.tags, Trim(name)) == Some(t)
    ensures AttachEntry(lib, videoId, name, uuid, k) == (Library(lib.tags, lib.links + [VideoTag(uuid(k), videoId, t.id)]), k + 1)
  {
  }

  /** Attaching a name twice: the first attach creates the tag, the second
      links the same tag again. */
  lemma RepeatedNameOneTagTwoLinks(lib: Library, videoId: string, name: string, uuid: Uuid, k: nat)
    requires Trim(name) != "" && TagNamed(lib.tags, Trim(name)).None?
    ensures var r := Attach(lib, videoId, [Str(name), Str(name)], uuid, k).lib;
      && r.tags == lib.tags + [Tag(uuid(k), Trim(name), true)]
      && r.links == lib.links + [VideoTag(uuid(k + 1), videoId, uuid(k)), VideoTag(uuid(k + 2), videoId, uuid(k))]
  {
    var tag := Tag(uuid(k), Trim(name), true);
    var l1 := Library(lib.tags + [tag], lib.links + [VideoTag(uuid(k + 1), videoId, uuid(k))]);
    var l2 := Library(l1.tags, l1.links + [VideoTag(uuid(k + 2), videoId, uuid(k))]);
    var once := [Str(name)];
    assert Attach(lib, videoId, [Str(name), Str(name)], uuid, k) == Attach(l1, videoId, once, uuid, k + 2) by {
      assert [Str(name), Str(name)] == [Str(name)] + once;
      AttachNewName(lib, videoId, name, uuid, k);
      AttachCons(lib, videoId, name, once, uuid, k);
    }
    assert Attach(l1, videoId, once, uuid, k + 2) == Attached(l2, k + 3, None) by {
      TagNamedAfter(lib.tags, tag);
      AttachKnownName(l1, videoId, name, uuid, k + 2, tag);
      AttachSingle(l1, videoId, name, uuid, k + 2);
    }
    assert l2.links == lib.links + [VideoTag(uuid(k + 1), videoId, uuid(k)), VideoTag(uuid(k + 2), videoId, uuid(k))] by {
      SnocSnoc(lib.links, VideoTag(uuid(k + 1), videoId, uuid(k)), VideoTag(uuid(k + 2), videoId, uuid(k)));
    }
  }

  lemma SnocSnoc<T>(xs: seq<T>, a: T, b: T)
    ensures xs + [a] + [b] == xs + [a, b]
  {
    assert [a] + [b] == [a, b];
  }

  /** A one-entry list of a string attaches that entry and nothing else. */
  lemma AttachSingle(lib: Library, videoId: string, entry: string, uuid: Uuid, k: nat)
    ensures var (l1, k1) := AttachEntry(lib, videoId, entry, uuid, k);
      Attach(lib, videoId, [Str(entry)], uuid, k) == Attached(l1, k1, None)
  {
    assert [Str(entry)][1..] == [];
  }

  /** One step of the loop over a string entry. */
  lemma AttachCons(lib: Library, videoId: string, entry: string, rest: seq<Value>, uuid: Uuid, k: nat)
    ensures var (l1, k1) := AttachEntry(lib, videoId, entry, uuid, k);
      Attach(lib, videoId, [Str(entry)] + rest, uuid, k) == Attach(l1, videoId, rest, uuid, k1)
  {
    assert ([Str(entry)] + rest)[1..] == rest;
  }

  /** A tag is found by name whether active or not, so attaching a name
      that has a tag creates none. */
  lemma AttachReusesTag(lib: Library, videoId: string, name: string, uuid: Uuid, k: nat)
    requires Trim(name) != "" && TagNamed(lib.tags, Trim(name)).Some?
    ensures Attach(lib, videoId, [Str(name)], uuid, k).lib.tags == lib.tags
  {
    assert [Str(name)][1..] == [];
  }

  /** `getAllTags`, without its `ORDER BY name`: the active tags, or
      `NO_TAGS_FOUND` when there are none. */
  function ActiveTags(tags: seq<Tag>): (r: seq<Tag>)
    ensures forall t :: t in r <==> t in tags && t.isActive
  {
    if tags == [] then [] else (if tags[0].isActive then [tags[0]] else []) + ActiveTags(tags[1..])
  }

  function GetAllTags(s: Store): (r: Envelope<seq<Tag>>)
    ensures r.Ok() <==> exists t :: t in s.tags && t.isActive
    ensures r.Ok() ==> r.data.Some? && forall t :: t in r.data.value <==> t in s.tags && t.isActive
    ensures !r.Ok() ==> r.code == "NO_TAGS_FOUND"
  {
    var tags := ActiveTags(s.tags);
    if tags == [] then Fail("NO_TAGS_FOUND", "No tags found.")
    else
      assert tags[0] in tags;
      Succeed("FETCH_SUCCESS", "Tags retrieved successfully.", Some(tags))
  }

  predicate TagExists(s: Store, id: string) {
    exists i :: 0 <= i < |s.tags| && s.tags[i].id == id
  }

  /** The tag rows after `UPDATE tags SET isActive = 0 WHERE id = ?`. */
  function Deactivated(tags: seq<Tag>, id: string): (r: seq<Tag>)
    ensures |r| == |tags|
    ensures forall i :: 0 <= i < |tags| ==> r[i].id == tags[i].id && r[i].name == tags[i].name
    ensures forall i :: 0 <= i < |tags| ==> r[i].isActive == (tags[i].isActive && tags[i].id != id)
  {
    seq(|tags|, i requires 0 <= i < |tags| => if tags[i].id == id then tags[i].(isActive := false) else tags[i])
  }

  /** `deleteTag`: every tag row with that id is marked inactive and kept. */
  function DeleteTag(s: Store, id: string): (r: Reply<()>)
    ensures r.env.Ok() <==> TagExists(s, id)
    ensures !r.env.Ok() ==> r == Reply(s, Fail("TAG_NOT_FOUND", "Tag not found."))
    ensures r.env.Ok() ==> r.env.code == "DELETE_SUCCESS" && r.store == s.(tags := Deactivated(s.tags, id))
  {
    if !TagExists(s, id) then Reply(s, Fail("TAG_NOT_FOUND", "Tag not found."))
    else Reply(s.(tags := Deactivated(s.tags, id)), Succeed("DELETE_SUCCESS", "Tag deleted successfully."))
  }

  /** A deleted tag drops out of the tag list but keeps its name, so an
      attach with that name links the deleted tag again. */
  lemma DeletedTagHiddenButReused(s: Store, id: string, videoId: string, name: string, uuid: Uuid, k: nat)
    requires DeleteTag(s, id).env.Ok()
    requires Trim(name) != "" && TagNamed(s.tags, Trim(name)).Some? && TagNamed(s.tags, Trim(name)).value.id == id
    ensures var s' := DeleteTag(s, id).store;
      && (forall t :: t in s'.tags && t.id == id ==> !t.isActive)
      && Attach(LibraryOf(s'), videoId, [Str(name)], uuid, k).lib.tags == s'.tags
  {
    var tags := Deactivated(s.tags, id);
    var t := TagNamed(s.tags, Trim(name)).value;
    var i :| 0 <= i < |s.tags| && s.tags[i] == t;
    assert tags[i].name == Trim(name);
    assert TagNamed(tags, Trim(name)).Some?;
    forall u | u in tags && u.id == id
      ensures !u.isActive
    {
      var j :| 0 <= j < |tags| && tags[j] == u;
    }
    AttachReusesTag(LibraryOf(s.(tags := tags)), videoId, name, uuid, k);
  }

  // ---------------------------------------------------------------------
  // Reading videos
  // ---------------------------------------------------------------------

  /** The tags of `tags` with this id, in table order. */
  function TagsWithId(tags: seq<Tag>, id: string): (r: seq<Tag>)
    ensures forall t :: t in r <==> t in tags && t.id == id
  {
    if tags == [] then [] else (if tags[0].id == id then [tags[0]] else []) + TagsWithId(tags[1..], id)
  }

  /** The join of the video's links with `tags`, in link order. */
  function JoinTags(tags: seq<Tag>, links: seq<VideoTag>, videoId: string): (r: seq<Tag>)
    ensures forall t :: t in r <==> t in tags && exists j :: 0 <= j < |links| && links[j].videoId == videoId && links[j].tagId == t.id
  {
    if links == [] then []
    else
      var rest := JoinTags(tags, links[1..], videoId);
      assert forall j :: 1 <= j < |links| ==> links[j] == links[1..][j - 1];
      (if links[0].videoId == videoId then TagsWithId(tags, links[0].tagId) else []) + rest
  }

  /** A video as the reads return it: the row with its tags attached. */
  datatype VideoView = VideoView(video: Video, tags: seq<Tag>)

  function ViewOf(s: Store, v: Video): (r: VideoView)
    ensures r.video == v
    ensures forall t :: t in r.tags <==>
      (t in s.tags && exists j :: 0 <= j < |s.videoTags| && s.videoTags[j].videoId == v.id && s.videoTags[j].tagId == t.id)
  {
    VideoView(v, JoinTags(s.tags, s.videoTags, v.id))
  }

  /** The first active row with this id. */
  function ActiveWithId(videos: seq<Video>, id: string): (r: Option<Video>)
    ensures r.None? <==> forall i :: 0 <= i < |videos| ==> !(videos[i].id == id && Active(videos[i]))
    ensures r.Some? ==> r.value in videos && r.value.id == id && Active(r.value)
  {
    if videos == [] then None
    else if videos[0].id == id && Active(videos[0]) then Some(videos[0])
    else
      assert forall i :: 1 <= i < |videos| ==> videos[i] == videos[1..][i - 1];
      ActiveWithId(videos[1..], id)
  }

  /** `getVideoById`: an active video with its tags, or `VIDEO_NOT_FOUND`. */
  function GetVideoById(s: Store, id: string): (r: Envelope<VideoView>)
    ensures r.Ok() <==> exists i :: 0 <= i < |s.videos| && s.videos[i].id == id && Active(s.videos[i])
    ensures !r.Ok() ==> r == Fail("VIDEO_NOT_FOUND", "Video not found.")
    ensures r.Ok() ==> r.data.Some? && r.data.value.video in s.videos && r.data.value.video.id == id && Active(r.data.value.video)
    ensures r.Ok() ==> r.data.value == ViewOf(s, r.data.value.video)
  {
    match ActiveWithId(s.videos, id)
    case None => Fail("VIDEO_NOT_FOUND", "Video not found.")
    case Some(v) => Succeed("FETCH_SUCCESS", "Video retrieved successfully.", Some(ViewOf(s, v)))
  }

  /** `title LIKE '%search%' OR description LIKE '%search%'` under a
      case-insensitive collation; a `NULL` column matches nothing. */
  predicate Matches(v: Video, search: string) {
    || (v.title.Str? && Contains(Lower(v.title.s), Lower(search)))
    || (v.description.Str? && Contains(Lower(v.description.s), Lower(search)))
  }

  function Listed(videos: seq<Video>, search: string): (r: seq<Video>)
    ensures forall v :: v in r <==> v in videos && Active(v) && Matches(v, search)
  {
    if videos == [] then []
    else (if Active(videos[0]) && Matches(videos[0], search) then [videos[0]] else []) + Listed(videos[1..], search)
  }

  /** The sort key of `ORDER BY createDate DESC`. */
  function Newest(v: Video): int {
    -v.createDate
  }

  /** The videos of a list of views, in order. */
  function VideosOf(views: seq<VideoView>): (r: seq<Video>)
    ensures |r| == |views| && forall i :: 0 <= i < |views| ==> r[i] == views[i].video
  {
    seq(|views|, i requires 0 <= i < |views| => views[i].video)
  }

  /** Each video with its tags, in the same order. */
  function Views(s: Store, vs: seq<Video>): (r: seq<VideoView>)
    ensures VideosOf(r) == vs
    ensures forall i :: 0 <= i < |r| ==> r[i] == ViewOf(s, vs[i])
  {
    var r := seq(|vs|, i requires 0 <= i < |vs| => ViewOf(s, vs[i]));
    assert VideosOf(r) == vs;
    r
  }

  /** The qualifying videos, newest first. */
  function NewestListed(videos: seq<Video>, search: string): (vs: seq<Video>)
    ensures forall v :: v in vs <==> v in videos && Active(v) && Matches(v, search)
    ensures Sequences.SortedBy(vs, Newest)
  {
    var listed := Listed(videos, search);
    Sequences.SortByMembers(listed, Newest);
    Sequences.SortBy(listed, Newest)
  }

  /** `getAllVideos`: the active videos that match the search, newest first,
      each with its tags; `NO_VIDEOS_FOUND` when there are none. */
  function GetAllVideos(s: Store, search: string := ""): (r: Envelope<seq<VideoView>>)
    ensures r.Ok() <==> exists v :: v in s.videos && Active(v) && Matches(v, search)
    ensures !r.Ok() ==> r == Fail("NO_VIDEOS_FOUND", "No videos found.")
    ensures r.Ok() ==> r.data.Some? && forall v :: v in VideosOf(r.data.value) <==> v in s.videos && Active(v) && Matches(v, search)
    ensures r.Ok() ==> forall i :: 0 <= i < |r.data.value| ==> r.data.value[i] == ViewOf(s, r.data.value[i].video)
    ensures r.Ok() ==> Sequences.SortedBy(VideosOf(r.data.value), Newest)
  {
    var vs := NewestListed(s.videos, search);
    if vs == [] then Fail("NO_VIDEOS_FOUND", "No videos found.")
    else
      var views := Views(s, vs);
      assert vs[0] in vs;
      Succeed("FETCH_SUCCESS", "Videos retrieved successfully.", Some(views))
  }

  /** The default empty search lists every active video that has a textual
      title or description. */
  lemma EmptySearchListsAll(v: Video)
    requires Active(v) && (v.title.Str? || v.description.Str?)
    ensures Matches(v, "")
  {
    assert Lower("") == "";
    if v.title.Str? {
      assert [] <= Lower(v.title.s);
    } else {
      assert [] <= Lower(v.description.s);
    }
  }

  // ---------------------------------------------------------------------
  // Writing videos
  // ---------------------------------------------------------------------

  predicate VideoExists(s: Store, id: string) {
    exists i :: 0 <= i < |s.videos| && s.videos[i].id == id
  }

  /** The entries the loop sees: an array's elements, a string's characters. */
  function Entries(tags: TagsArg): seq<Value> {
    match tags
    case Items(xs) => xs
    case Chars(t) => seq(|t|, i requires 0 <= i < |t| => Str([t[i]]))
    case _ => []
  }

  /** `tags.length` on `null`. */
  const NullLength := "TypeError: Cannot read properties of null (reading 'length')"

  /** The row `createVideo` inserts: `event_date` is the instant of the
      insert, not the body's value. */
  function NewVideo(id: string, b: VideoBody, now: int): Video {
    Video(id, Stored(b.title), Stored(b.youtubeUrl), Stored(b.embedUrl), Stored(b.thumbnailUrl),
      Stored(b.description), Num(now), Stored(b.createBy), Num(1), now, None)
  }

  /** The store with the two tag tables replaced. */
  function WithLibrary(s: Store, lib: Library): (r: Store)
    ensures LibraryOf(r) == lib && r.videos == s.videos
  {
    s.(tags := lib.tags, videoTags := lib.links)
  }

  /** `createVideo`: the first fresh id names the video; a falsy title or
      URL is refused before any write; then the row is inserted and the tags
      attached. An exception is caught into `CREATE_FAILED`, and what was
      written before it stays. */
  function CreateVideo(s: Store, b: VideoBody, uuid: Uuid, now: int): (r: Reply<string>)
    ensures !Truthy(b.title) || !Truthy(b.youtubeUrl) ==>
      r == Reply(s, Fail("INVALID_INPUT", "Title and YouTube URL are required."))
    ensures r.env.Ok() <==>
      (Truthy(b.title) && Truthy(b.youtubeUrl) && !b.tags.NullTags? &&
       forall i :: 0 <= i < |Entries(b.tags)| ==> Entries(b.tags)[i].Str?)
    ensures r.env.Ok() ==> r.env.code == "CREATE_SUCCESS" && r.env.data == Some(uuid(0))
    ensures !r.env.Ok() && Truthy(b.title) && Truthy(b.youtubeUrl) ==> r.env.code == "CREATE_FAILED"
    ensures Truthy(b.title) && Truthy(b.youtubeUrl) ==>
      && r.store == WithLibrary(s, LibraryOf(r.store)).(videos := s.videos + [NewVideo(uuid(0), b, now)])
      && Grows(LibraryOf(s), LibraryOf(r.store))
  {
    var id := uuid(0);
    if !Truthy(b.title) || !Truthy(b.youtubeUrl) then
      Reply(s, Fail("INVALID_INPUT", "Title and YouTube URL are required."))
    else
      var s1 := s.(videos := s.videos + [NewVideo(id, b, now)]);
      if b.tags.NullTags? then
        Reply(s1, Fail("CREATE_FAILED", "Failed to create video.", Some(NullLength)))
      else
        var a := Attach(LibraryOf(s), id, Entries(b.tags), uuid, 1);
        var s2 := WithLibrary(s1, a.lib);
        if a.failure.Some? then Reply(s2, Fail("CREATE_FAILED", "Failed to create video.", a.failure))
        else Reply(s2, Succeed("CREATE_SUCCESS", "Video created successfully.", Some(id)))
  }

  /** A name linked to a video shows among that video's tags. */
  lemma LinkedShows(s: Store, v: Video, name: string)
    requires Linked(LibraryOf(s), v.id, name)
    ensures exists t :: t in ViewOf(s, v).tags && t.name == name
  {
    var j, k :| 0 <= j < |s.videoTags| && 0 <= k < |s.tags| && s.videoTags[j].videoId == v.id
      && s.tags[k].id == s.videoTags[j].tagId && s.tags[k].name == name;
    assert s.tags[k] in ViewOf(s, v).tags;
  }

  /** A created video can be fetched by its id, when that id was fresh. */
  lemma CreateThenGet(s: Store, b: VideoBody, uuid: Uuid, now: int)
    requires CreateVideo(s, b, uuid, now).env.Ok()
    requires !VideoExists(s, uuid(0))
    ensures var g := GetVideoById(CreateVideo(s, b, uuid, now).store, uuid(0));
      g.Ok() && g.data.value.video == NewVideo(uuid(0), b, now)
  {
    var v := NewVideo(uuid(0), b, now);
    var s' := CreateVideo(s, b, uuid, now).store;
    assert s'.videos == s.videos + [v];
    ActiveWithIdLast(s.videos, v);
  }

  /** Every non-blank tag name of a successful create is among the created
      video's tags. */
  lemma CreateShowsTags(s: Store, b: VideoBody, uuid: Uuid, now: int)
    requires CreateVideo(s, b, uuid, now).env.Ok()
    ensures var s' := CreateVideo(s, b, uuid, now).store;
      forall i :: 0 <= i < |Entries(b.tags)| && Trim(Entries(b.tags)[i].s) != "" ==>
        exists t :: t in ViewOf(s', NewVideo(uuid(0), b, now)).tags && t.name == Trim(Entries(b.tags)[i].s)
  {
    var v := NewVideo(uuid(0), b, now);
    var s' := CreateVideo(s, b, uuid, now).store;
    assert LibraryOf(s') == Attach(LibraryOf(s), uuid(0), Entries(b.tags), uuid, 1).lib;
    AttachLinksAll(LibraryOf(s), uuid(0), Entries(b.tags), uuid, 1);
    forall i | 0 <= i < |Entries(b.tags)| && Trim(Entries(b.tags)[i].s) != ""
      ensures exists t :: t in ViewOf(s', v).tags && t.name == Trim(Entries(b.tags)[i].s)
    {
      LinkedShows(s', v, Trim(Entries(b.tags)[i].s));
    }
  }

  lemma {:induction false} ActiveWithIdLast(videos: seq<Video>, v: Video)
    requires Active(v) && forall i :: 0 <= i < |videos| ==> videos[i].id != v.id
    ensures ActiveWithId(videos + [v], v.id) == Some(v)
  {
    if videos != [] {
      assert (videos + [v])[1..] == videos[1..] + [v];
      ActiveWithIdLast(videos[1..], v);
    }
  }

  /** Every row with this id after `UPDATE videos SET ... WHERE id = ?`:
      all seven columns are overwritten, an omitted one with `NULL`. */
  function Rewritten(v: Video, b: VideoBody, now: int): (r: Video)
    ensures r.id == v.id && r.createBy == v.createBy && r.createDate == v.createDate
    ensures r.title == Stored(b.title) && r.description == Stored(b.description)
    ensures r.isActive == Flag(b.isActive) && r.updateDate == Some(now)
  {
    v.(title := Stored(b.title), youtubeUrl := Stored(b.youtubeUrl), embedUrl := Stored(b.embedUrl),
       thumbnailUrl := Stored(b.thumbnailUrl), description := Stored(b.description),
       eventDate := Stored(b.eventDate), isActive := Flag(b.isActive), updateDate := Some(now))
  }

  /** The links of every other video. */
  function UnlinkVideo(links: seq<VideoTag>, videoId: string): (r: seq<VideoTag>)
    ensures forall l :: l in r <==> l in links && l.videoId != videoId
    ensures forall j :: 0 <= j < |r| ==> r[j].videoId != videoId
  {
    if links == [] then [] else (if links[0].videoId == videoId then [] else [links[0]]) + UnlinkVideo(links[1..], videoId)
  }

  /** The video rows after the `UPDATE`. */
  function RewriteAll(videos: seq<Video>, id: string, b: VideoBody, now: int): (r: seq<Video>)
    ensures |r| == |videos|
    ensures forall i :: 0 <= i < |videos| ==> r[i] == if videos[i].id == id then Rewritten(videos[i], b, now) else videos[i]
  {
    seq(|videos|, i requires 0 <= i < |videos| => if videos[i].id == id then Rewritten(videos[i], b, now) else videos[i])
  }

  /** `updateVideo`: overwrite the row, then, whenever `tags` is an array
      (and an omitted `tags` is the empty array), delete all the video's
      links and attach the list. An exception from the attach is caught
      into `UPDATE_FAILED`, and what was written before it stays. */
  function UpdateVideo(s: Store, id: string, b: VideoBody, uuid: Uuid, now: int): (r: Reply<()>)
    ensures r.env.Ok() <==> VideoExists(s, id) && forall i :: 0 <= i < |Entries(b.tags)| ==> !b.tags.Items? || Entries(b.tags)[i].Str?
    ensures !VideoExists(s, id) ==> r == Reply(s, Fail("VIDEO_NOT_FOUND", "Video not found."))
    ensures VideoExists(s, id) && !r.env.Ok() ==> r.env.code == "UPDATE_FAILED"
    ensures r.env.Ok() ==> r.env.code == "UPDATE_SUCCESS"
    ensures VideoExists(s, id) ==> r.store == WithLibrary(s, LibraryOf(r.store)).(videos := RewriteAll(s.videos, id, b, now))
    ensures !(b.tags.Omitted? || b.tags.Items?) ==> LibraryOf(r.store) == LibraryOf(s)
    ensures forall l: VideoTag :: l.videoId != id ==> (l in r.store.videoTags <==> l in s.videoTags)
    ensures b.tags.Omitted? && VideoExists(s, id) ==> forall j :: 0 <= j < |r.store.videoTags| ==> r.store.videoTags[j].videoId != id
  {
    if !VideoExists(s, id) then Reply(s, Fail("VIDEO_NOT_FOUND", "Video not found."))
    else
      var s1 := s.(videos := RewriteAll(s.videos, id, b, now));
      if !(b.tags.Omitted? || b.tags.Items?) then Reply(s1, Succeed("UPDATE_SUCCESS", "Video updated successfully."))
      else
        var lib := Library(s.tags, UnlinkVideo(s.videoTags, id));
        var a := Attach(lib, id, Entries(b.tags), uuid, 0);
        OthersLinksKept(lib, a.lib, id);
        var s2 := WithLibrary(s1, a.lib);
        if a.failure.Some? then Reply(s2, Fail("UPDATE_FAILED", "Failed to update video.", a.failure))
        else Reply(s2, Succeed("UPDATE_SUCCESS", "Video updated successfully."))
  }

  /** Appending links of one video leaves every other video's links as they were. */
  lemma OthersLinksKept(a: Library, b: Library, id: string)
    requires Grows(a, b)
    requires forall j :: |a.links| <= j < |b.links| ==> b.links[j].videoId == id
    ensures forall l: VideoTag :: l.videoId != id ==> (l in b.links <==> l in a.links)
  {
    forall l: VideoTag | l.videoId != id && l in b.links
      ensures l in a.links
    {
      var j :| 0 <= j < |b.links| && b.links[j] == l;
      assert b.links[j] == b.links[..|a.links|][j];
    }
    forall l | l in a.links
      ensures l in b.links
    {
      var j :| 0 <= j < |a.links| && a.links[j] == l;
      assert b.links[j] == b.links[..|a.links|][j];
    }
  }

  /** After a successful update that sends a tag array, the video's links
      are exactly the ones the update added after every other video's links,
      one per non-blank name, and every such name is linked. */
  lemma UpdateRelinks(s: Store, id: string, b: VideoBody, uuid: Uuid, now: int)
    requires UpdateVideo(s, id, b, uuid, now).env.Ok() && b.tags.Items?
    ensures var s' := UpdateVideo(s, id, b, uuid, now).store;
      var others := UnlinkVideo(s.videoTags, id);
      && |s'.videoTags| == |others| + NonBlank(b.tags.items)
      && s'.videoTags[..|others|] == others
      && (forall j :: |others| <= j < |s'.videoTags| ==> s'.videoTags[j].videoId == id)
      && (forall i :: 0 <= i < |b.tags.items| && Trim(b.tags.items[i].s) != "" ==> Linked(LibraryOf(s'), id, Trim(b.tags.items[i].s)))
  {
    var lib := Library(s.tags, UnlinkVideo(s.videoTags, id));
    var s' := UpdateVideo(s, id, b, uuid, now).store;
    assert LibraryOf(s') == Attach(lib, id, b.tags.items, uuid, 0).lib;
    AttachCount(lib, id, b.tags.items, uuid, 0);
    AttachLinksAll(lib, id, b.tags.items, uuid, 0);
  }

  /** An update whose body leaves `isActive` out writes `NULL` there, which
      hides the video from the reads. */
  lemma UpdateWithoutFlagHides(s: Store, id: string, b: VideoBody, uuid: Uuid, now: int)
    requires b.isActive == Undefined
    ensures !GetVideoById(UpdateVideo(s, id, b, uuid, now).store, id).Ok()
  {
    var s' := UpdateVideo(s, id, b, uuid, now).store;
    forall i | 0 <= i < |s'.videos| && s'.videos[i].id == id
      ensures !Active(s'.videos[i])
    {
    }
  }

  /** `deleteVideo`: every row with the id is kept, marked inactive and
      stamped; an inactive video can be deleted again. */
  function DeleteVideo(s: Store, id: string, now: int): (r: Reply<()>)
    ensures r.env.Ok() <==> VideoExists(s, id)
    ensures !r.env.Ok() ==> r == Reply(s, Fail("VIDEO_NOT_FOUND", "Video not found."))
    ensures r.env.Ok() ==> r.env.code == "DELETE_SUCCESS"
    ensures r.store == s.(videos := r.store.videos) && |r.store.videos| == |s.videos|
    ensures forall i :: 0 <= i < |s.videos| && s.videos[i].id != id ==> r.store.videos[i] == s.videos[i]
    ensures forall i :: 0 <= i < |s.videos| && s.videos[i].id == id ==>
      r.store.videos[i] == s.videos[i].(isActive := Num(0), updateDate := Some(now))
  {
    if !VideoExists(s, id) then Reply(s, Fail("VIDEO_NOT_FOUND", "Video not found."))
    else
      var videos := seq(|s.videos|, i requires 0 <= i < |s.videos| =>
        if s.videos[i].id == id then s.videos[i].(isActive := Num(0), updateDate := Some(now)) else s.videos[i]);
      Reply(s.(videos := videos), Succeed("DELETE_SUCCESS", "Video deleted successfully."))
  }

  /** After a delete the video is not found by id, but its row, its links
      and a second delete all remain possible. */
  lemma DeleteThenGet(s: Store, id: string, now: int, later: int)
    requires DeleteVideo(s, id, now).env.Ok()
    ensures var s' := DeleteVideo(s, id, now).store;
      && GetVideoById(s', id) == Fail("VIDEO_NOT_FOUND", "Video not found.")
      && VideoExists(s', id)
      && s'.videoTags == s.videoTags
      && DeleteVideo(s', id, later).env.Ok()
  {
    var s' := DeleteVideo(s, id, now).store;
    var i :| 0 <= i < |s.videos| && s.videos[i].id == id;
    assert s'.videos[i].id == id;
  }
}
